=== FILE: README.md ===
# ApiFipeAnalitics — a Dafny model of the pricing, search and comparison core

ApiFipeAnalitics is a Node/Express API with a React front end. It looks up
Brazilian vehicle prices in the FIPE table, searches a local catalogue and
the FIPE API, and compares cars. This project models the sequential logic
of that system in Dafny and proves properties of it. Fetches, the clock and
random draws become parameters.

The modules follow the source files:

- `Scoring` (frontend/src/App.tsx) covers the comparison screen. It models
  the selection of up to three cars, the four sub-scores and their weighted
  total, and the winner. The winner is proved to be the first car with the
  highest positive score, or the first car when no score is positive.
- `RateLimiter`, `BrlPrice`, `FipeData`, `Catalogue` and `VehicleComparison`
  (src/services/vehicleService.js) cover the following:
  - the ten-request counter with retries on HTTP 429;
  - the "R$ 45.000,00" price strings and their exact round trip over whole
    centavos;
  - the price-range and name searches with filtering, relevance order and
    pagination;
  - the filter summary;
  - the two- and many-vehicle comparisons.
- `TtlCache`, `FipeSearch` and `FipeHelpers` (src/services/carApiServiceBrazil.js)
  cover the following:
  - the lazily evicting cache;
  - `smartCarSearch` with its dispatch and fallback, the FIPE-code lookup
    and the enrichment of fetched vehicles;
  - the make, make-and-model and popular-brand searches;
  - the normalisation tables.
- `CarImages` (src/services/carImageService.js) covers the picture lookup
  chain, the deduplicated gallery and the enrichment of car records.
- `ComparisonRepository`, `FavoritesRepository` and `SearchRepository`
  (src/repositories) cover the in-memory comparison log, the favourites list
  and the name scan over the FIPE brands and models.
- `VehicleValidation` (src/validations/vehicleValidation.js) and
  `CarController` (src/controllers/carController.js) cover request
  validation. Each check is modelled with the status and message of its
  rejection.
- `CarSearch`, `VehicleCard` and `UiUtils` (frontend/src/components,
  frontend/src/utils) cover the search form's filter object and query
  string, the card's labels, icons and picture, and the percentage and
  vehicle-type helpers.
- `JsText`, `JsValue`, `Arrays` and `Wrappers` model the JavaScript built-ins
  the source relies on:
  - `toLowerCase`, `includes`, first-occurrence `replace`, `trim`, `slice`
    with negative indices, `parseInt` and `parseFloat`;
  - truthiness and property reads;
  - `filter`, `find`, the stable `sort` and `new Set`.

## Model

| member | source | states |
|---|---|---|
| ComparisonRepository.SaveComparison | src/repositories/comparisonRepository.js:5-8 | the log grows by exactly the saved record, at its end, and the record is returned unchanged |
| ComparisonRepository.BrandsOf | src/repositories/comparisonRepository.js:17-26 | a pair-form record counts the `Marca` of both vehicles; otherwise a list-form record yields the `marca` of each listed vehicle, one per vehicle and in list order; a record with neither counts nothing |
| ComparisonRepository.Tally | src/repositories/comparisonRepository.js:17-27 | the counting map has exactly the brands met as keys, each mapped to its number of occurrences |
| ComparisonRepository.GetStats | src/repositories/comparisonRepository.js:10-30 | the total is the number of saved comparisons; `lastCompared` is the newest five (all, when fewer), newest first; every brand counted maps to how often it occurs among all saved comparisons, and no other brand is a key |
| ComparisonRepository.GetHistory | src/repositories/comparisonRepository.js:32 | every saved comparison, newest first |
| ComparisonRepository.ReverseReverse | src/repositories/comparisonRepository.js:32 | reading the history backwards gives the log in saving order |
| ComparisonRepository.SaveThenStats | src/repositories/comparisonRepository.js:5-32 | after a save the total grows by one, the saved record heads both `lastCompared` and the history, and the brand tally gains exactly that record's brands |
| FavoritesRepository.MakeFavorite | src/repositories/favoritesRepository.js:6 | the record holds `id`, `addedAt` and every property of the vehicle; the vehicle's own `id` overrides the generated one, while `addedAt` always wins |
| FavoritesRepository.AddFavorite | src/repositories/favoritesRepository.js:5-9 | exactly one record, the one returned, is appended |
| FavoritesRepository.GetFavorites | src/repositories/favoritesRepository.js:11 | a copy holding the same records in insertion order |
| FavoritesRepository.FindIndex | src/repositories/favoritesRepository.js:14 | -1 exactly when no record carries the id; otherwise the position of the first record that does |
| FavoritesRepository.DeleteFavorite | src/repositories/favoritesRepository.js:13-19 | with no record carrying the id it returns null and changes nothing; otherwise it removes and returns the first such record, the rest keeping their order |
| FavoritesRepository.AddThenDelete | src/repositories/favoritesRepository.js:5-19 | deleting by the id of the record just added, when no older record has that id, returns that record and restores the list |
| FavoritesRepository.DeleteKeepsOthers | src/repositories/favoritesRepository.js:13-19 | deleting only removes records, and every record without the id survives |
| SearchRepository.SearchByName | src/repositories/searchRepository.js:4-28 | the three nested loops yield the hits type by type, brand by brand, model by model |
| SearchRepository.SearchBrands | src/repositories/searchRepository.js:11-25 | the brand loop of one type yields each brand's model hits in fetched order |
| SearchRepository.SearchModels | src/repositories/searchRepository.js:13-24 | the model loop yields one hit per matching model, in fetched order |
| SearchRepository.ModelHitsExact | src/repositories/searchRepository.js:13-24 | a record is a hit exactly when it copies the names and codes of a model whose name contains the query, ignoring case; there are never more hits than models |
| SearchRepository.EmptyQueryKeepsAll | src/repositories/searchRepository.js:14 | the empty query matches every model, so each model becomes a hit in order |
| SearchRepository.BrandHitsSound | src/repositories/searchRepository.js:11-25 | every hit of one type carries that type and a model name containing the query |
| SearchRepository.TypeHitsSound | src/repositories/searchRepository.js:4-28 | every hit of the search carries one of the searched types and a model name containing the query |
| VehicleValidation.FirstMissing | src/validations/vehicleValidation.js:13-17 | none exactly when every required field is truthy; otherwise the first falsy field in listed order |
| VehicleValidation.CheckVehicle | src/validations/vehicleValidation.js:9-22 | a falsy or non-object vehicle fails first with "Veículo n deve ser um objeto válido"; then the first missing field, in listed order, is reported; an object with every field but an unaccepted type fails with the type message naming its number; the vehicle passes exactly when it is an object with every required field and an accepted type |
| VehicleValidation.BadTypeMessage | src/validations/vehicleValidation.js:20-21 | the type message of vehicle 1 lists the accepted types "carros, motos, caminhões" |
| VehicleValidation.ValidateCompareDto | src/validations/vehicleValidation.js:2-24 | a missing request, then a missing vehicle, then vehicle 1's failure, then vehicle 2's failure is what is thrown; the request passes exactly when both vehicles pass their checks |
| VehicleValidation.ValidateIff | src/validations/vehicleValidation.js:2-24 | a request is accepted exactly when both vehicles are objects with every required field and one of the three accepted types |
| VehicleValidation.CheckWellFormed | src/validations/vehicleValidation.js:9-22 | a vehicle passes its checks exactly when it is well formed |
| VehicleValidation.UnaccentedTruckRefused | src/validations/vehicleValidation.js:19-21 | the unaccented `caminhoes`, used by the rest of the services, is not an accepted type |
| UiUtils.PercentageDifference | frontend/src/utils/index.ts:41-44 | 0 when the first value is 0; otherwise applying the percentage to the first value gives the second, and its sign says which value is larger |
| UiUtils.PercentRoundTrip | frontend/src/utils/index.ts:41-44 | for a non-zero first value, the percentage difference and applying a percent change are inverse to each other |
| UiUtils.VehicleTypeLabel | frontend/src/utils/index.ts:23-30 | a known key gets its label and any other type comes back as given; the label is empty only for the empty type |
| UiUtils.VehicleTypeIcon | frontend/src/utils/index.ts:32-39 | a known key gets its icon and any other type the cars' icon, so the result is always one of the three icons |
| UiUtils.AccentedTruckTypeUnknown | frontend/src/utils/index.ts:23-39 | the accented `caminhões` is not a key: it is labelled as written and gets the cars' icon |
| RateLimiter.Reset | src/services/vehicleService.js:170-173 | the counter is back to zero |
| RateLimiter.MakeRequest | src/services/vehicleService.js:176-195 | with ten or more requests counted it refuses before any HTTP call; under the limit at least one attempt is made and every attempt is counted; the answer is a success exactly when the last attempt succeeded; a first answer other than a success or a retryable 429 is rethrown after one attempt; a 429 is retried while retries remain, and the retrying stops early only when the counter reaches ten; at most `retries + 1` attempts are made, and a counter that started within the limit stays within it |
| RateLimiter.SucceedsAfterRetries | src/services/vehicleService.js:176-191 | a request under the limit whose first `k` attempts get a 429 and whose next succeeds is answered after exactly `k` retries, when the retries and the counter allow them |
| RateLimiter.AtMostTenBetweenResets | src/services/vehicleService.js:168-195 | however many calls are made and however they retry, the counter equals the attempts let through and never passes ten, so at most ten HTTP attempts happen between two resets |
| TtlCache.Empty | src/services/carApiServiceBrazil.js:9 | a new cache holds nothing |
| TtlCache.Set | src/services/carApiServiceBrazil.js:10-15 | the key holds the value with expiry `now + ttl`, and every other key is untouched |
| TtlCache.Get | src/services/carApiServiceBrazil.js:16-24 | a missing key reads null; a live entry (now not past its expiry) reads its value and changes nothing; an expired entry reads null and is deleted; no entry is ever added or altered |
| TtlCache.Clear | src/services/carApiServiceBrazil.js:25 | no key remains |
| TtlCache.SetThenGet | src/services/carApiServiceBrazil.js:10-24 | a value set at `t` reads back exactly while `now <= t + ttl`, and afterwards reads null and is gone |
| TtlCache.DefaultTtlHour | src/services/carApiServiceBrazil.js:10 | with the default time to live a value is still read one hour later and gone a millisecond after |
| TtlCache.SetOtherKey | src/services/carApiServiceBrazil.js:10-24 | setting one key does not change what another key reads |
| TtlCache.ClearThenGet | src/services/carApiServiceBrazil.js:16-25 | after clearing, every key reads null |
| TtlCache.ExpiredStaysGone | src/services/carApiServiceBrazil.js:16-24 | once a read found an entry expired, the key reads null at every later time |
| FipeData.Marcas | src/services/vehicleService.js:504 | one brand per vehicle, in catalogue order |
| FipeData.Tipos | src/services/vehicleService.js:503 | one type per vehicle, in catalogue order |
| FipeData.Anos | src/services/vehicleService.js:505-506 | one model year per vehicle, in catalogue order |
| FipeData.Normalize | src/services/vehicleService.js:9 | the result is never longer than the input and holds only characters `normalize` leaves alone: no combining mark, no accented or upper-case letter; a single combining mark vanishes and any other single character becomes its lower-case base letter |
| FipeData.NormalizePlain | src/services/vehicleService.js:9 | a string made only of such characters is its own normal form |
| FipeData.NormalizeIdempotent | src/services/vehicleService.js:9 | normalising twice is normalising once |
| FipeData.NormalizeAppend | src/services/vehicleService.js:9 | normalising works character by character: the form of a concatenation is the concatenation of the forms |
| FipeData.NormalizeIgnoresCase | src/services/vehicleService.js:9 | lower-casing the text first changes nothing |
| FipeData.AccentsDoNotMatter | src/services/vehicleService.js:9 | an accented letter and its base letter have the same form |
| BrlPrice.Group | src/services/vehicleService.js:229 | the grouped integer part holds only digits and dots and starts and ends with a digit, and past the first character a dot stands exactly at every fourth place counted from the right end, so each dot is followed by a group of three digits |
| BrlPrice.GroupUndots | src/services/vehicleService.js:226-229 | deleting every '.' from the grouped digits, as `parseValor` does, gives the digits back |
| BrlPrice.ParseValor | src/services/vehicleService.js:225-226 | a text without a single digit reads as NaN |
| BrlPrice.FormatValor | src/services/vehicleService.js:228-229 | "R$ ", then digits and dots, then a comma and exactly two digits; a dot stands exactly at every fourth place counted back from the comma |
| BrlPrice.ParseFormatRoundTrip | src/services/vehicleService.js:225-229 | `parseValor` of `formatValor` of an amount of whole centavos is that amount |
| BrlPrice.FormatInjective | src/services/vehicleService.js:228-229 | two different amounts never format to the same string |
| BrlPrice.RoundCents | src/services/vehicleService.js:229 | `toFixed(2)` picks the whole number of centavos nearest to the amount, within half a centavo |
| BrlPrice.RoundCentsExact | src/services/vehicleService.js:229 | an amount that is already a whole number of centavos is not moved by the rounding |
| BrlPrice.FormatAmount | src/services/vehicleService.js:228-229 | for a non-negative amount the rendering is the grouped price string of its rounded centavos |
| BrlPrice.FormatAmountReadsBack | src/services/vehicleService.js:225-233 | the difference `compareVehicles` renders, when it is a whole number of centavos, reads back through `parseValor` as itself |
| BrlPrice.FixedComma | src/services/vehicleService.js:310-312 | the ungrouped rendering starts with "R$ " and is at least seven characters long |
| BrlPrice.FixedCommaIsToFixedReplaced | src/services/vehicleService.js:310-312 | the ungrouped rendering is `toFixed(2)` with its decimal point, its only '.', turned into a comma |
| BrlPrice.FixedCommaReadsBack | src/services/vehicleService.js:293-312 | the lowest, highest and difference strings of `compareMultipleVehicles`, for a whole number of centavos, read back through `parseValor` as that amount |
| Catalogue.Paginate | src/services/vehicleService.js:409-412 | for a page from 1 on, the page holds at most `limit` results, exactly `limit` while the results last, and its i-th result is the result at position `(page - 1) * limit + i` |
| Catalogue.PageWindow | src/services/vehicleService.js:409-412 | for a page from 1 on and a limit that is not negative, the page is the window from `(page - 1) * limit` up to `page * limit` of the results, cut at their end |
| Catalogue.PageAtMostLimit | src/services/vehicleService.js:491-493 | a page computed with numbers never holds more than `limit` results |
| Catalogue.PriceMatches | src/services/vehicleService.js:402-406 | a vehicle is kept exactly when it is of the requested type and its price parses to a number within the bounds, as often as the catalogue holds it; a price that does not parse is never kept |
| Catalogue.PriceMatchesAppend | src/services/vehicleService.js:402-406 | the matches keep catalogue order: the matches of two catalogue parts are the matches of the first part followed by those of the second |
| Catalogue.PriceMatchesOne | src/services/vehicleService.js:402-406 | a single vehicle is kept exactly when it is in range |
| Catalogue.SearchByPriceRange | src/services/vehicleService.js:393-420 | an unknown type throws "Tipo inválido. Esperado: carros, motos, caminhoes", and only an unknown type throws; otherwise the total counts every match, page and limit echo the request with their defaults 1 and 10, the data is that page of the matches in catalogue order, computed with numbers, and a page holds at most `limit` of them |
| Catalogue.SearchByPriceRangeAsWritten | src/services/vehicleService.js:393-420 | the same search with the page cut as the source cuts it when `page` and `limit` arrive as form text; it agrees with the numeric search whenever `limit` is not text |
| Catalogue.PriceRangePageTwoOfFiveOverflows | src/services/vehicleService.js:410-412 | with `page` "2" and `limit` "5" over twelve matches the price-range search as written answers with seven vehicles, where the numeric search answers with five |
| Catalogue.NameMatches | src/services/vehicleService.js:440-476 | a vehicle is kept exactly when every filter that is set accepts it; the kept vehicles are the catalogue's `filter` with that callback, so they keep catalogue order and multiplicity |
| Catalogue.UnsetFiltersKeepAll | src/services/vehicleService.js:440-476 | a query that sets no filter and no name keeps the whole catalogue, in order |
| Catalogue.RelevanceKeyIsComparator | src/services/vehicleService.js:479-487 | sorting by the relevance key is sorting with the source's comparator: a vehicle goes first exactly when its key is smaller, and two vehicles tie exactly when their keys are equal |
| Catalogue.DistinctTipos | src/services/vehicleService.js:503 | the deduplicated types are exactly the types some vehicle has |
| Catalogue.SortedMarcas | src/services/vehicleService.js:504 | the sorted, deduplicated brands are exactly the brands some vehicle has |
| Catalogue.YearRange | src/services/vehicleService.js:505-506 | the year range exists exactly for a non-empty catalogue, contains every vehicle's year, and both ends are years some vehicle has |
| Catalogue.FiltersOf | src/services/vehicleService.js:502-507 | the types are listed once each, are exactly the catalogue's types, and come in the order of their first appearance; the brands are sorted and are exactly the catalogue's brands; the year range exists exactly for a non-empty catalogue, contains every vehicle's year, and its ends are years of some vehicle |
| Arrays.FilterCount | src/services/vehicleService.js:402-406 | `filter` keeps every copy of a value its callback accepts and no copy of one it rejects |
| Arrays.DistinctFirstSeen | src/services/vehicleService.js:503 | the values of `new Set` come in the order of their first appearance in the input |
| Catalogue.SearchVehicleByName | src/services/vehicleService.js:423-509 | the total counts the vehicles every set filter accepts; the page is cut from those matches in relevance order; every returned vehicle is from the catalogue and passes the filters; the filter summary describes the whole catalogue; the page is computed with numbers, and the query-text paging of the source is stated by Catalogue.PaginateAsWritten |
| Catalogue.NameSearchOrder | src/services/vehicleService.js:479-487 | the matches are reordered, not changed: brand matches of the query come first, brands are in order within each group, and vehicles with equal keys keep their catalogue order |
| Catalogue.FiltersIgnoreQuery | src/services/vehicleService.js:502-507 | the filter summary is the same whatever the query |
| Catalogue.PaginateAsWritten | src/services/vehicleService.js:491-493 | the page the source cuts equals the numeric page whenever `limit` is not query text |
| Catalogue.PageTwoOfFiveOverflows | src/services/vehicleService.js:491-493 | with `page=2&limit=5` as query text over twelve results the source returns seven results, where the numeric computation returns five |
| Catalogue.PageTwoEndsAtFiftyFive | src/services/vehicleService.js:491-493 | with `page=2&limit=5` as query text the slice runs from 5 to 55 |
| Catalogue.Valores | src/services/vehicleService.js:516 | one parsed price per vehicle, in catalogue order |
| Catalogue.Numbers | src/services/vehicleService.js:516 | exactly the prices that are numbers are kept |
| Catalogue.PricesCover | src/services/vehicleService.js:516 | every price that parses is among the kept numbers, every kept number is some vehicle's parsed price, and some number is kept exactly when some price parses |
| Catalogue.GetSearchFilters | src/services/vehicleService.js:512-530 | the summary is the catalogue's; a price range exists exactly when some price parses, it contains every price that parses, and both its ends are parsed prices of some vehicle |
| VehicleComparison.PriceDifference | src/services/vehicleService.js:225-233 | the difference reads "R$ NaN" exactly when one of the prices does not parse; otherwise it is the absolute difference rounded to centavos, rendered as a Brazilian-real price |
| VehicleComparison.DifferenceSymmetric | src/services/vehicleService.js:231-233 | the rendered price difference does not depend on which price comes first |
| VehicleComparison.CompareVehicles | src/services/vehicleService.js:208-248 | a null or undefined request throws V8's "Cannot read properties of … (reading 'vehicle1')"; a missing vehicle throws first; a valid request whose FIPE call rejects throws that call's error, and one whose call resolves to nothing throws "Um ou ambos os veículos não foram encontrados"; a result exists exactly when the request validates and both calls resolve to a vehicle; it holds the two vehicles, the absolute year difference and the rendered absolute price difference; exactly a successful comparison is logged, in pair form, and a throw logs nothing |
| VehicleComparison.CompareSymmetric | src/services/vehicleService.js:208-248 | exchanging the two vehicles of a request that succeeds gives the same year and price differences, with the vehicles exchanged |
| VehicleComparison.SwapValid | src/validations/vehicleValidation.js:2-24 | a request that validates still validates with its two vehicles exchanged |
| VehicleComparison.FindByCode | src/services/vehicleService.js:262 | none exactly when no catalogue vehicle has the code; otherwise the first one that does |
| VehicleComparison.FindByModel | src/services/vehicleService.js:271-275 | none exactly when no catalogue vehicle has the same normalised brand and model (and year, when given); otherwise the first one that does |
| VehicleComparison.Resolve | src/services/vehicleService.js:259-285 | an input with a FIPE code the catalogue knows becomes the first catalogue vehicle with that code; otherwise an input with a brand and a model becomes the first catalogue vehicle with the same normalised brand, model and (when given) year; found by neither, the input is kept |
| VehicleComparison.ResolveByCode | src/services/vehicleService.js:261-267 | an input whose FIPE code is in the catalogue is replaced by a catalogue record with that code, whatever else it carries |
| VehicleComparison.ResolveAll | src/services/vehicleService.js:259 | each input is resolved in place, in order |
| VehicleComparison.WithValor | src/services/vehicleService.js:288 | the `filter` of the resolved vehicles with a price: exactly those, in order and with every copy |
| VehicleComparison.AllPrices | src/services/vehicleService.js:296 | the prices exist exactly when every price parses, one per vehicle in order |
| VehicleComparison.SpreadOf | src/services/vehicleService.js:297-299 | the lowest and highest are prices of the list that bound every price, and the difference is their non-negative gap |
| VehicleComparison.CompareMultipleVehicles | src/services/vehicleService.js:250-318 | fewer than two inputs throw "Erro ao comparar múltiplos veículos: É necessário pelo menos 2 veículos para comparação"; fewer than two resolved vehicles with a price throw the same prefix with "Não foi possível encontrar dados suficientes para comparação"; a throw logs nothing; otherwise the result lists the resolved vehicles with a price, the lowest, highest and difference of their prices rendered ungrouped ("R$ NaN" when a price does not parse), and exactly that list is logged |
| FipeHelpers.PriceNumber | src/services/carApiServiceBrazil.js:425-426 | the number the cleaned price string parses to, when it parses; 0 when it does not, which is always the case for a price with no digit |
| FipeHelpers.PriceNumberReadsFormatted | src/services/carApiServiceBrazil.js:425-426 | a FIPE price rendered as "R$ 45.000,00" reads back as its amount |
| FipeHelpers.MissingPriceIsZero | src/services/carApiServiceBrazil.js:425-426 | an absent price is worth 0 |
| FipeHelpers.NormalizeFuelType | src/services/carApiServiceBrazil.js:460-469 | the result is one of four fuels; Gasolina comes exactly from "Gasolina" or "Gas", Etanol exactly from "Álcool", Diesel exactly from "Diesel", and everything else is Flex |
| FipeHelpers.NormalizeFuelFixedPoints | src/services/carApiServiceBrazil.js:460-469 | the fuels left unchanged are exactly Gasolina, Diesel and Flex; "Etanol", an output, is not a key |
| FipeHelpers.GetVehicleTypeFromFipe | src/services/carApiServiceBrazil.js:471-478 | the result is one of three type names; Moto exactly for the key "2", Caminhão exactly for "3", Carro otherwise |
| FipeHelpers.VehicleTypeCodes | src/services/carApiServiceBrazil.js:471-478 | the numeric codes 1, 2 and 3 give car, motorcycle and truck, and any other number gives car |
| FipeHelpers.FirstMention | src/services/carApiServiceBrazil.js:570-574 | none exactly when no name occurs in the brand, ignoring case; otherwise the first name that does |
| FipeHelpers.GetBrandOrigin | src/services/carApiServiceBrazil.js:546-557 | imported exactly when the brand mentions an imported name and no national one; national otherwise |
| FipeHelpers.GetBrandWarranty | src/services/carApiServiceBrazil.js:559-576 | five years exactly when the brand mentions Hyundai and none of the six brands listed before it; three years otherwise |
| FipeHelpers.FirstMentionIsLast | src/services/carApiServiceBrazil.js:570-574 | the last name is the first one found exactly when it is mentioned and no earlier name is |
| FipeHelpers.GetBrazilianFeatures | src/services/carApiServiceBrazil.js:578-586 | every tier starts with the basic features; three features exactly up to 40000, the middle tier's features above it, and the premium list exactly above 80000 |
| FipeHelpers.FeaturesMonotone | src/services/carApiServiceBrazil.js:578-586 | a dearer car's features extend a cheaper car's |
| FipeHelpers.EstimateSeatsFromModel | src/services/carApiServiceBrazil.js:491-495 | seven seats exactly for a model naming a van or a kombi, ignoring case; five otherwise |
| FipeHelpers.EstimateSeatsFromType | src/services/carApiServiceBrazil.js:503-507 | two seats exactly for motorcycles, three exactly for trucks, five otherwise |
| FipeSearch.NamedValues | src/services/carApiServiceBrazil.js:373-375 | a brand list is returned element for element, in order, as `{code, name}` objects |
| FipeSearch.MakeOnlyBrand | src/services/carApiServiceBrazil.js:266-269 | no brand is found exactly when no brand name contains the make or is contained in it (case-insensitively); a found brand is one of the list |
| FipeSearch.FirstContaining | src/services/carApiServiceBrazil.js:304-306 | no entry is found exactly when no entry name contains the query (case-insensitively); a found entry is one of the list |
| FipeSearch.OnlyMakeOnlyMatchesBothWays | src/services/carApiServiceBrazil.js:266-306 | a make that strictly contains a brand name finds that brand in the make-only search but not in the make-and-model search |
| FipeSearch.CreateAll | src/services/carApiServiceBrazil.js:281-283 | one vehicle per model, in order, each built from the brand, that model and the vehicle type |
| FipeSearch.SearchVehiclesByMake | src/services/carApiServiceBrazil.js:259-297 | a failed brand fetch or an unmatched make rejects with its message; a success comes from the matched brand's models, at most `limit` (default 10) of them, each turned into a vehicle, with `total` the number returned |
| FipeSearch.Enriched | src/services/carApiServiceBrazil.js:423-448 | a fetched vehicle is enriched exactly when the fetch returned and the price formatter is defined; a failed fetch keeps its error |
| FipeSearch.FipeVehicleDetails | src/services/carApiServiceBrazil.js:140-172 | the details of a year are returned, enriched, exactly when the fetch returns and the price formatter is defined |
| FipeSearch.FipeByCode | src/services/carApiServiceBrazil.js:177-223 | the vehicle of a FIPE code is returned, enriched, exactly when the fetch returns and the price formatter is defined |
| FipeSearch.OkValues | src/services/carApiServiceBrazil.js:330-339 | the values are exactly those of the calls that returned, one for each and in call order: the successful calls, in order, are the values wrapped as results; if all succeed all are kept, if all fail none is |
| FipeSearch.DetailCalls | src/services/carApiServiceBrazil.js:330-332 | one detail fetch per recent year, in order, keyed by brand, model and year codes |
| FipeSearch.CollectDetails | src/services/carApiServiceBrazil.js:329-339 | the enriched vehicles of exactly the years whose detail fetch returns, in year order; one per year when every fetch returns and the formatter is defined; none when the formatter is undefined |
| FipeSearch.SearchVehiclesByMakeModel | src/services/carApiServiceBrazil.js:300-353 | a failed brand, model or year fetch rejects with its own error; an unmatched make rejects with "Marca … não encontrada" and an unmatched model with "Modelo … não encontrado"; an empty year list rejects with "Nenhum ano encontrado para este modelo"; a non-empty one succeeds with the collected details of its first `limit` (default 5) years and `total` their count |
| FipeSearch.GetPopularBrands | src/services/carApiServiceBrazil.js:356-385 | fails exactly when the brand fetch fails; otherwise lists the first ten brands naming one of the ten popular makes, in FIPE order, with `total` counting all of them |
| FipeSearch.PopularBrandsCounted | src/services/carApiServiceBrazil.js:367-371 | every FIPE brand that names a popular make is among the popular brands |
| FipeSearch.FallbackResult | src/services/carApiServiceBrazil.js:676-684 | the fallback answer is successful, sourced "fallback", counts every fallback car, and lists a prefix of them cut at `limit` (default 10) |
| FipeSearch.GenerateFallbackCarsWith | src/services/carApiServiceBrazil.js:630-685 | building the fallback cars fails exactly when no price formatter is in scope; otherwise it is the fallback answer over the two cars |
| FipeSearch.GenerateFallbackCarsAsWritten | src/services/carApiServiceBrazil.js:639 | with `formatPriceBRL` unresolved, building the fallback cars always throws |
| FipeSearch.GenerateFallbackCars | src/services/carApiServiceBrazil.js:630-685 | the fallback answer has both cars unless `limit` is 1, and always reports a total of 2 |
| FipeSearch.Dispatch | src/services/carApiServiceBrazil.js:230-248 | a FIPE code wins; otherwise a make alone searches by make, a make and a model search by both, and no make lists the popular brands; exactly one branch applies |
| FipeSearch.VehicleTypeOf | src/services/carApiServiceBrazil.js:230 | the requested type when one is given, "cars" otherwise; never empty |
| FipeSearch.RunBranch | src/services/carApiServiceBrazil.js:226-248 | a success comes from the FIPE API; a code search succeeds exactly when the code fetch returns and the formatter is defined, and answers with the enriched vehicle alone; a make search, a make-and-model search and the popular list answer as those searches do |
| FipeSearch.SmartCarSearch | src/services/carApiServiceBrazil.js:226-256 | with the price formatter in scope the search always answers successfully: with the branch's answer when it succeeds, and with the fallback cars exactly when it fails |
| FipeSearch.SmartCarSearchAsWritten | src/services/carApiServiceBrazil.js:250-255 | with the formatter undefined, a successful branch is returned unchanged and a failed one rejects |
| FipeSearch.FallbackAsWrittenThrows | src/services/carApiServiceBrazil.js:250-255 | when every FIPE call fails the search as written rejects, while the corrected search answers with the fallback cars |
| FipeSearch.ByCodeAsWrittenRejects | src/services/carApiServiceBrazil.js:208 | as written, a search by FIPE code rejects whatever the API answers |
| FipeSearch.MakeModelAsWrittenEmpty | src/services/carApiServiceBrazil.js:159 | as written, a make-and-model search that answers lists no vehicle and a total of 0 |
| FipeSearch.ByCodeAnswers | src/services/carApiServiceBrazil.js:177-223 | with the formatter in scope, a FIPE code the API knows is answered with its enriched vehicle |
| FipeSearch.ModelWithoutMakeListsPopular | src/services/carApiServiceBrazil.js:238-248 | a model given without a make is ignored and the popular brands are listed, whatever the formatter |
| CarImages.LookupModel | src/services/carImageService.js:4-80 | a model picture is found exactly when some entry of the model table has the key, and every model picture is a maker's gallery URL |
| CarImages.LookupBrand | src/services/carImageService.js:83-94 | a brand picture is found exactly when the brand table lists the make, and every brand picture is a stock photo URL |
| CarImages.Variations | src/services/carImageService.js:121-126 | four keys are tried: the exact "make model" key first and the bare model last |
| CarImages.FirstModelImage | src/services/carImageService.js:128-132 | nothing is found exactly when no key has a model picture; otherwise the answer is the picture of one of the keys |
| CarImages.ImageFor | src/services/carImageService.js:105-141 | the answer is a model picture, a brand picture or the default; the exact key wins; otherwise the first variation with a model picture supplies it; when no variation has one the brand table, then the default, decides |
| CarImages.GetCarImage | src/services/carImageService.js:105-141 | an empty make or model gives the default; otherwise the chain runs on the lower-cased, trimmed names; the answer is always a model picture, a brand picture or the default |
| CarImages.ExactKeyWins | src/services/carImageService.js:113-118 | when the table holds the exact normalised key its picture is the answer |
| CarImages.GetCarImageIgnoresCase | src/services/carImageService.js:111-112 | lower-casing the make and model beforehand does not change the picture |
| CarImages.Gallery | src/services/carImageService.js:153-157 | four candidates, the primary picture first |
| CarImages.GalleryDistinct | src/services/carImageService.js:153-158 | a picture holding "exterior-01" yields four pairwise different candidates |
| CarImages.GalleryCollapses | src/services/carImageService.js:153-158 | a picture without "exterior-01" leaves one candidate after duplicates are dropped |
| CarImages.GetCarImages | src/services/carImageService.js:149-159 | the primary picture comes first and no URL repeats; when the primary holds "exterior-01" the list is the primary followed by its exterior-02, interior-01 and interior-02 versions, in that order; otherwise it is the primary alone |
| CarImages.ModelUrlHasExterior | src/services/carImageService.js:6-79 | every maker's gallery URL of the table holds "exterior-01" |
| CarImages.UnsplashLacksExterior | src/services/carImageService.js:84-97 | a stock photo URL whose id has no 'x' never holds "exterior-01" |
| CarImages.ModelImageHasExterior | src/services/carImageService.js:4-80 | every model picture holds "exterior-01" |
| CarImages.BrandImageLacksExterior | src/services/carImageService.js:83-94 | no brand picture holds "exterior-01" |
| CarImages.DefaultLacksExterior | src/services/carImageService.js:97 | the default picture does not hold "exterior-01" |
| CarImages.GalleryFourIffModelImage | src/services/carImageService.js:149-159 | a car gets four pictures exactly when its primary picture came from the model table |
| CarImages.GetCarImageOf | src/services/carImageService.js:105-112 | a falsy make or model gives the default; two strings give the string lookup; any other truthy pair throws, and only then |
| CarImages.GetCarImagesOf | src/services/carImageService.js:149-150 | throws exactly when the primary lookup throws; otherwise the primary comes first |
| CarImages.WithImages | src/services/carImageService.js:208-213 | the copy keeps every other field of the car and adds `image`, `images` and `imageSource`, the last set to "car_image_service" |
| CarImages.EnrichCarWithImage | src/services/carImageService.js:203-214 | a falsy car comes back unchanged; a car throws exactly when its image lookup throws; otherwise it gains its picture and gallery |
| CarImages.EnrichCarsWithImages | src/services/carImageService.js:221-225 | a non-array comes back unchanged; an array is enriched element by element, in order |
| CarImages.EnrichAll | src/services/carImageService.js:224 | throws exactly when some car's enrichment throws; otherwise one enriched car per input car |
| CarSearch.KeyIndex | frontend/src/components/CarSearch.tsx:173 | the position of a property is the first entry holding it, or the end when there is none |
| CarSearch.Set | frontend/src/components/CarSearch.tsx:173 | a spread with one property set still has no property twice |
| CarSearch.SetLookup | frontend/src/components/CarSearch.tsx:173 | after the spread the set property reads the new value and every other property reads as before |
| CarSearch.SetContains | frontend/src/components/CarSearch.tsx:173 | the spread holds the new entry and every entry of the old object under another name |
| CarSearch.SetAt | frontend/src/components/CarSearch.tsx:173 | setting an existing property changes that entry alone, in place |
| CarSearch.HandleFilterChange | frontend/src/components/CarSearch.tsx:172-174 | an emptied control makes its filter `undefined`, any other value is stored as typed, and no other filter changes |
| CarSearch.ClearFilters | frontend/src/components/CarSearch.tsx:177-188 | clearing leaves no error, no results, no search filter set and a limit of 20 |
| CarSearch.DefaultsUnset | frontend/src/components/CarSearch.tsx:84-91 | the initial filters set no search filter and hold a limit of 20 |
| CarSearch.QueryParams | frontend/src/components/CarSearch.tsx:57-63 | every filter that is neither `undefined` nor empty becomes a pair of its name and text, and every pair comes from such a filter |
| CarSearch.QueryParamsAppend | frontend/src/components/CarSearch.tsx:59-63 | the pairs follow the order of the filters: the query of two filter lists in a row is the two queries in a row |
| CarSearch.NothingKept | frontend/src/components/CarSearch.tsx:59-63 | filters that are all `undefined` or empty give an empty query |
| CarSearch.ClearedFilterOmitted | frontend/src/components/CarSearch.tsx:60 | a filter that is `undefined` or empty never reaches the query |
| CarSearch.SearchCars | frontend/src/components/CarSearch.tsx:123-134 | a plain search with no filter set asks for a filter, and only then; a plain search sends exactly the filters' query; "load all" sends the query of the filters with the limit set to 50: the pair ("limit", "50") and every other kept filter, and nothing else |
| CarSearch.LimitAloneDoesNotCount | frontend/src/components/CarSearch.tsx:124 | changing the limit never decides whether a filter is set |
| CarSearch.ClearedSearchAsks | frontend/src/components/CarSearch.tsx:123-127 | after clearing, a plain search asks for a filter |
| CarSearch.LoadAllOnlyLimit | frontend/src/components/CarSearch.tsx:133 | "load all" with nothing set but a trailing limit sends the limit 50 alone |
| CarSearch.ClearedLoadAll | frontend/src/components/CarSearch.tsx:133 | after clearing, "load all" sends the limit 50 alone |
| CarSearch.IsCarSelected | frontend/src/components/CarSearch.tsx:191-200 | a car is selected exactly when some selected car is the same car: the same id when both have one, otherwise the same make, model and year |
| CarSearch.SelectedOnceAdded | frontend/src/components/CarSearch.tsx:191-200 | a car added to the selection shows as selected, and being the same car is symmetric |
| CarSearch.IdsDecide | frontend/src/components/CarSearch.tsx:193-195 | two cars with different truthy ids are never taken for each other, whatever their make, model and year |
| VehicleCard.LookupOr | frontend/src/components/VehicleCard.tsx:57 | a present, non-empty entry is the answer; a missing key gives the fallback; the answer is always the fallback or a value of the table |
| VehicleCard.FormatFuelType | frontend/src/components/VehicleCard.tsx:47-58 | a fuel named in the table, in any case, gets its Portuguese label; any other fuel is shown as given |
| VehicleCard.FormatTransmission | frontend/src/components/VehicleCard.tsx:60-67 | a transmission named in the table, in any case, gets its Portuguese label; any other is shown as given |
| VehicleCard.GasAndGasolineAgree | frontend/src/components/VehicleCard.tsx:49-50 | "gas" and "gasoline", in any case, both read "Gasolina" |
| VehicleCard.LabelsIgnoreCase | frontend/src/components/VehicleCard.tsx:57-66 | a known fuel or transmission gets the same label whatever its case |
| VehicleCard.FuelIcon | frontend/src/components/VehicleCard.tsx:164-175 | a known fuel, whatever its case, gets its own icon from the table; an unknown fuel gets the pump icon; every answer is one of the table's icons |
| VehicleCard.TransmissionIcon | frontend/src/components/VehicleCard.tsx:177-184 | a known transmission, whatever its case, gets its own icon from the table; an unknown one gets the gear icon; every answer is one of the table's icons |
| VehicleCard.TransmissionIconsShared | frontend/src/components/VehicleCard.tsx:177-184 | automatic and CVT share an icon, and every unknown transmission looks like manual |
| VehicleCard.CardImageKey | frontend/src/components/VehicleCard.tsx:134 | the key is the make and the model joined by one space |
| VehicleCard.CarImageUrl | frontend/src/components/VehicleCard.tsx:69-136 | a listed "make model" key, in any case, gets its picture; any other car gets the default picture |
| VehicleCard.CarImageUrlIgnoresCase | frontend/src/components/VehicleCard.tsx:134 | lower-casing the make and model beforehand does not change the picture |
| VehicleCard.ImageAlt | frontend/src/components/VehicleCard.tsx:138-140 | the alt text is as long as make, model and year plus two spaces |
| VehicleCard.FirstSpace | frontend/src/components/VehicleCard.tsx:139 | the first space of a text, or its end when it has none |
| VehicleCard.SplitAtSpace | frontend/src/components/VehicleCard.tsx:139 | a text joined at a space from a space-free head gives back that head and tail |
| VehicleCard.ImageAltInjective | frontend/src/components/VehicleCard.tsx:138-140 | for makes and models without spaces, the alt text determines the make, the model and the year |
| VehicleCard.ImageAltMake | frontend/src/components/VehicleCard.tsx:138-140 | for makes without spaces, the alt text determines the make and the rest of the text |
| Scoring.AddToComparison | frontend/src/App.tsx:127-132 | a car is appended exactly when fewer than three are selected and none has its id; otherwise nothing changes; a valid selection stays valid |
| Scoring.RemoveFromComparison | frontend/src/App.tsx:139-141 | afterwards no car has the id, exactly the other cars remain, nothing changes when the id was absent, and a valid selection stays valid |
| Scoring.RemoveKeepsOrder | frontend/src/App.tsx:140 | the remaining cars keep their order |
| Scoring.AccelerationScore | frontend/src/App.tsx:178 | never negative, at most 100 for a non-negative time, and positive exactly when 0-100 km/h takes under ten seconds |
| Scoring.EconomyScore | frontend/src/App.tsx:179 | at most 100, non-negative for non-negative consumptions, negative when their sum is |
| Scoring.YearScore | frontend/src/App.tsx:180 | at most 100, non-negative exactly from 2000 on, and 100 from 2024 on |
| Scoring.ValueScore | frontend/src/App.tsx:181 | never negative, at most 100 for a non-negative price, and 0 exactly from R$ 100,000 on |
| Scoring.WeightedTotal | frontend/src/App.tsx:184 | the total lies between the smallest and the largest sub-score, so four sub-scores in 0-100 give a total in 0-100 |
| Scoring.WeightsSumToOne | frontend/src/App.tsx:184 | the four weights sum to one |
| Scoring.CalculateCarScore | frontend/src/App.tsx:176-195 | the breakdown holds the four sub-scores, the score is their weighted total, and a car with sensible data scores between 0 and 100 |
| Scoring.Scores | frontend/src/App.tsx:210-211 | one score per car, in order |
| Scoring.WinnerLoop | frontend/src/App.tsx:206-222 | the loop ends on the running best or on a later car whose score beats the running highest, and no later score exceeds both the running highest and the winner's score |
| Scoring.WinnerLoopCorrect | frontend/src/App.tsx:206-222 | from any prefix state of the loop, the loop ends on the intended winner |
| Scoring.WinnerIsFirstMaximum | frontend/src/App.tsx:202-222 | the winner is the first car with the highest score when that score is positive, and the first car otherwise |
| Scoring.ScoreMap | frontend/src/App.tsx:205-216 | one entry per id among the cars, each holding a car with that id |
| Scoring.ScoreMapUnique | frontend/src/App.tsx:210-216 | with unique ids, every car's entry holds that car and its score |
| Scoring.ScoreMapLast | frontend/src/App.tsx:212-215 | the last car's entry overwrites any earlier one under its id |
| Scoring.CompareCars | frontend/src/App.tsx:202-228 | fewer than two cars give no result; otherwise the winner is the announced winner and the scores cover exactly the cars' ids |
| Scoring.CompareCarsScoresEachCar | frontend/src/App.tsx:202-228 | in a valid selection every car's score entry holds that car and its score |
| CarController.MissingParams | src/controllers/carController.js:6 | exactly the required names whose parameter is falsy, each once per mention and no more of them than required |
| CarController.MissingParamsInOrder | src/controllers/carController.js:6 | the missing names keep the order of the required list |
| CarController.ValidateParams | src/controllers/carController.js:5-10 | passes exactly when every required parameter is truthy; otherwise throws "Missing required parameters: " followed by the missing names joined by ", " |
| CarController.OneParamMissingIffEmpty | src/controllers/carController.js:5-10 | a single string parameter is missing exactly when it is empty, and the message then names it alone |
| CarController.RequireParam | src/controllers/carController.js:169 | a route parameter passes exactly when it is not empty; an empty one is answered with a 500 naming it |
| CarController.CheckYear | src/controllers/carController.js:164-174 | a year is accepted exactly when it parses to a whole number from 1900 to next year, and it is passed on with the limit; an empty year is a 500 and any other rejection is a 400 "Invalid year provided" |
| CarController.YearAccepted | src/controllers/carController.js:171-172 | every year from 1900 to next year, written in digits, is accepted as itself |
| CarController.CheckCategory | src/controllers/carController.js:201-215 | a value is accepted exactly when its lower-case form is one of the valid options, and it is passed on as given; an empty value is a 500 and any other rejection is a 400 listing the options |
| CarController.CheckFuelType | src/controllers/carController.js:201-215 | a fuel is accepted exactly when it is gas, diesel, electricity or hybrid in any case; a rejection lists those four |
| CarController.CheckTransmission | src/controllers/carController.js:242-256 | a transmission is accepted exactly when it is manual or automatic in any case; a rejection lists those two |
| CarController.CategoryIgnoresCase | src/controllers/carController.js:209-250 | lower-casing a fuel or transmission does not change whether it is accepted |
| CarController.CheckEfficient | src/controllers/carController.js:283-294 | accepted exactly when the minimum mpg (default 30) lies from 10 to 100, and passed on with the limit; otherwise a 400 |
| CarController.MpgDefaultsTo30 | src/controllers/carController.js:285 | a missing, unreadable or zero minimum mpg is read as 30 |
| CarController.MpgAccepted | src/controllers/carController.js:285-288 | every minimum from 10 to 100, written in digits, is accepted as itself |
| CarController.CheckCylinders | src/controllers/carController.js:321-337 | accepted exactly when the count parses to one of 2, 3, 4, 5, 6, 8, 10, 12 or 16; an empty count is a 500 and any other rejection is a 400 |
| CarController.CylindersAccepted | src/controllers/carController.js:328-331 | a count written in digits is accepted exactly when it is one of the valid counts, and then as itself |
| CarController.CheckCompare | src/controllers/carController.js:364-390 | accepted exactly when the ids are an array of two to five; a non-array, too few and too many each get their own 400 |
| CarController.CheckPriceRange | src/controllers/carController.js:443-463 | accepted exactly when 0 <= minimum (default 0) < maximum (default 1,000,000); a negative bound and an empty range each get their own 400 |
| CarController.ZeroMaxPriceIsDefault | src/controllers/carController.js:446 | a maximum price of 0 is read as no bound, 1,000,000 |
| CarController.CheckImageBatch | src/controllers/carController.js:547-584 | accepted exactly when the cars are an array of one to ten cars that all have a make and a model; a non-array, no cars and too many each get their own 400; otherwise the first car lacking a make or model decides: a 500 naming the failed property read when it is null or undefined, and the 400 "Each car must have make and model properties" when it is anything else |
| CarController.NamedCarsAccepted | src/controllers/carController.js:575-584 | one to ten cars with non-empty makes and models are accepted |
| CarController.NamedCars | src/controllers/carController.js:549 | one car object per make and model, in order |

## Left out

- Network access is left out: the axios and fetch calls behind `getFipe*`, `getFipeByCode`, fipeRepository, `validateImageUrl`, `getValidatedCarImage`, `getPopularVehicles`, the front-end services, and `getMakes`, `searchByMake` and `loadMakes` in CarSearch.tsx. Their results are parameters (`Upstream`, `fetch`, `brandsOf`, `modelsOf`), with a rejected call as an `Err` where the caller can see it.
- Random draws are left out: `createVehicleFromFipeModel`, `estimateTransmission`, `estimateConsumption`, `estimatePerformance`, `generateBrazilianPrice`, the random branches of `estimateDoorsFromModel` and `estimateDoorsFromType`, and the random id of `enrichFipeVehicleData`. They are non-deterministic. Vehicle construction is a parameter of `FipeSearch.CreateAll`.
- Clocks and timers become parameters (`now`, `currentYear`, ids and timestamps). The self-rescheduling `setTimeout` that resets the request counter becomes an explicit `RateLimiter.Reset`. The `delay` between retries is left out because it only waits.
- `debounce`, `formatTime`, `toggleMenu`, the winner-screen timeout and the rest of the React rendering are left out as UI glue.
- Locale machinery is left out. `Intl.NumberFormat` and `toLocaleString` in `formatCurrency`, `formatNumber`, `formatDate` and `getPrice` are locale tables.
- `localeCompare` is modelled as code-point order.
- `FipeData.Normalize` models the NFD decomposition with combining marks dropped as an accent fold over Latin-1 letters, the alphabet of the catalogue. Other scripts are outside the model.
- Case mapping covers ASCII and Latin-1 letters only.
- JavaScript numbers are modelled as exact reals or unbounded integers. Floating-point rounding, NaN propagation through arithmetic, and `parseFloat("Infinity")` are not modelled.
- `BrlPrice.FormatAmountReadsBack` states the read-back only for amounts of whole centavos. Other amounts are rounded by `toFixed(2)` first, which `BrlPrice.RoundCents` bounds to within half a centavo.
- `BrlPrice.FixedCommaReadsBack` is limited in the same way, to whole centavos, for the same reason.
- `Arrays.MinInt` and `Arrays.MaxInt` write the `Infinity` and `-Infinity` that `Math.min()` and `Math.max()` give on an empty list as None. `getSearchFilters` shows these for the year and price ranges of an empty catalogue. The behaviour is the same; the representation differs.
- `formatPriceBRL`, `formatConsumption` and `convertMpgToKmL` are imported by carApiServiceBrazil.js but are not exported by carImageService.js. The price formatter is therefore a parameter (`formatter: Option<real -> string>`) of `FipeSearch.Enriched`, `FipeSearch.FipeVehicleDetails`, `FipeSearch.FipeByCode`, `FipeSearch.RunBranch` and `FipeSearch.GenerateFallbackCarsWith`. `FipeSearch.ImportedPriceFormatter` is None, the binding as written; `FipeSearch.IntendedFormatter` supplies `FipeSearch.FormatPriceBrl`, a stand-in display formatter. The other two functions are never called in the modelled code.
- `FipeSearch.Upstream.enrich` leaves the fields that `enrichFipeVehicleData` computes from the formatted price as a parameter; only whether it runs at all is modelled.
- The service functions that carController.js calls but carApiServiceBrazil.js does not export are left out, as are the route handlers that the controller lacks. This is wiring with no logic of its own, so only the input checks of the handlers are modelled.
- `getBrazilianMarketStats`, src/data/brazilianCars.js, Swagger, the Express app, `createResponse` and the error handler are left out. They are constant data or framework glue.
- `compareRequestDTO.js` only copies fields, so it is left out.
- The `cn` class-merge helper is left out as UI glue.
- Object-literal lookups are modelled as finite maps. A key such as "constructor" would reach `Object.prototype` in JavaScript, and that case is not modelled.
- Catalogue.SearchByPriceRange: computes its page with numbers. The controller passes the request body, and a form-encoded body gives `page` and `limit` as text, which `start + limit` concatenates. `Catalogue.SearchByPriceRangeAsWritten` models that paging as written, and the Findings table gives the input that shows the difference.
- VehicleComparison.CompareMultipleVehicles: the inputs are vehicle records, so a `null` element of `vehicles`, which makes `vehicleData.CodigoFipe` throw a TypeError that the catch wraps, is not modelled. Their `AnoModelo` is a number, so a year sent as the string "2020", which never matches under the strict `===` of `FindByModel`, is not modelled either.
- VehicleComparison.CompareVehicles: when both FIPE calls reject, `Promise.all` rejects with whichever settles first; the model reports vehicle 1's rejection, and its contract promises only that the error is one of the two.
- Catalogue.SearchVehicleByName: computes its page with numbers, where the source adds the query-string text of `page` and `limit`. `Catalogue.PaginateAsWritten` models the text arithmetic as written, for query text that is the decimal digits of a natural number (text such as `abc`, an empty value, `-1` or `05` cannot be written as a `QueryNumber`), and the Findings table gives the input that shows the difference.
- Absent vehicle fields are modelled as "" or 0. In JavaScript, `parseValor(undefined)` throws and `${undefined}` renders "undefined". An undefined `AnoModelo` passes the year filters, where 0 may be excluded, and `Math.min` over it gives NaN. The catalogue records always carry every field, so these cases are outside the model.
- JsValue.Spread: spreading a string or an array would add its index keys; the model adds none, because the spread operands in the modelled code are plain objects.
- CarSearch.SameCar: compares ids, makes, models and years structurally, where `===` on objects compares references. The compared fields are strings and numbers, for which the two agree.

## Findings

| source | as written | input that shows it | evidently intended | confidence | as-written member | corrected member |
|---|---|---|---|---|---|---|
| src/services/vehicleService.js:491-493 | in `searchVehicleByName`, `end = start + limit` with `page` and `limit` taken from the query string, so `+` concatenates text | `page=2&limit=5` over twelve results: `end` is "5" + "5" = 55 and the page holds seven results | the page holds at most `limit` results, from `(page - 1) * limit` to `page * limit` | not executed | Catalogue.PageTwoOfFiveOverflows | Catalogue.PageAtMostLimit |
| src/services/carApiServiceBrazil.js:630-685 | `generateFallbackCars` calls `formatPriceBRL`, which carImageService.js does not export (carApiServiceBrazil.js:2), so the fallback throws a TypeError inside `smartCarSearch`'s catch and the search rejects | any filters when every FIPE call fails | the search answers with the two fallback cars | not executed | FipeSearch.FallbackAsWrittenThrows | FipeSearch.SmartCarSearch |
| src/services/carApiServiceBrazil.js:439 | `enrichFipeVehicleData` calls `formatPriceBRL`, which carImageService.js does not export (carApiServiceBrazil.js:2), so every `getFipeByCode` and `getFipeVehicleDetails` call throws a TypeError once the API has answered | any `fipeCode` filter rejects; any make-and-model search lists no vehicle and a total of 0 | the enriched vehicle is returned | not executed | FipeSearch.ByCodeAsWrittenRejects | FipeSearch.ByCodeAnswers |
| src/services/vehicleService.js:410-412 | in `searchByPriceRange`, `end = start + limit` where a form-encoded body gives `page` and `limit` as text, so `+` concatenates | `page=2&limit=5` over twelve matches: `end` is "5" + "5" = 55 and the page holds seven vehicles | the page holds at most `limit` vehicles, from `(page - 1) * limit` to `page * limit` | not executed | Catalogue.PriceRangePageTwoOfFiveOverflows | Catalogue.SearchByPriceRange |

=== FILE: arrays.dfy ===
/** The `Array.prototype` operations the catalogue queries use: `filter`,
    `[...new Set(a)]`, the stable `sort`, and `Math.min`/`Math.max` over a
    spread array. String comparison is by code point, which is what the
    default `sort` does on the catalogue's strings and what stands in for
    `localeCompare` here. */
module Arrays {
  import opened Wrappers

  // ---------------------------------------------------------------------
  // filter
  // ---------------------------------------------------------------------

  /** `a.filter(p)`: the elements satisfying `p`, in their order. */
  function Filter<T>(s: seq<T>, p: T -> bool): (r: seq<T>)
    ensures |r| <= |s|
    ensures forall i :: 0 <= i < |r| ==> r[i] in s && p(r[i])
    ensures forall i :: 0 <= i < |s| && p(s[i]) ==> s[i] in r
    ensures multiset(r) <= multiset(s)
  {
    if |s| == 0 then []
    else
      assert s == [s[0]] + s[1..];
      if p(s[0]) then [s[0]] + Filter(s[1..], p) else Filter(s[1..], p)
  }

  /** Every element satisfying `p` is kept as often as it occurs, and no
      other is kept. */
  lemma {:induction false} FilterCount<T>(s: seq<T>, p: T -> bool, x: T)
    ensures multiset(Filter(s, p))[x] == if p(x) then multiset(s)[x] else 0
  {
    if |s| > 0 {
      FilterCount(s[1..], p, x);
      assert s == [s[0]] + s[1..];
    }
  }

  lemma {:induction false} FilterAppend<T>(a: seq<T>, b: seq<T>, p: T -> bool)
    ensures Filter(a + b, p) == Filter(a, p) + Filter(b, p)
  {
    if |a| > 0 {
      assert (a + b)[1..] == a[1..] + b;
      FilterAppend(a[1..], b, p);
    } else {
      assert a + b == b;
    }
  }

  /** The first step of `filter`. */
  lemma FilterCons<T>(s: seq<T>, p: T -> bool)
    requires |s| > 0
    ensures Filter(s, p) == if p(s[0]) then [s[0]] + Filter(s[1..], p) else Filter(s[1..], p)
  {
  }

  /** Keeping everything keeps the sequence. */
  lemma {:induction false} FilterAll<T>(s: seq<T>, p: T -> bool)
    requires forall i :: 0 <= i < |s| ==> p(s[i])
    ensures Filter(s, p) == s
  {
    if |s| > 0 {
      FilterAll(s[1..], p);
    }
  }

  /** `a.findIndex(p)` as an option: the first position satisfying `p`. */
  function First<T>(s: seq<T>, p: T -> bool): (r: Option<nat>)
    ensures r.None? <==> forall i :: 0 <= i < |s| ==> !p(s[i])
    ensures r.Some? ==> r.value < |s| && p(s[r.value]) && forall j :: 0 <= j < r.value ==> !p(s[j])
  {
    if |s| == 0 then None
    else if p(s[0]) then Some(0)
    else
      assert forall i :: 1 <= i < |s| ==> s[i] == s[1..][i - 1];
      match First(s[1..], p)
      case None => None
      case Some(i) => Some(i + 1)
  }

  // ---------------------------------------------------------------------
  // [...new Set(a)]
  // ---------------------------------------------------------------------

  predicate NoDuplicates<T(==)>(s: seq<T>) {
    forall i, j :: 0 <= i < j < |s| ==> s[i] != s[j]
  }

  /** The distinct elements, each where it first occurs (a `Set` keeps
      insertion order). */
  function Distinct<T(==)>(s: seq<T>): (r: seq<T>)
    ensures NoDuplicates(r)
    ensures forall i :: 0 <= i < |r| ==> r[i] in s
    ensures forall i :: 0 <= i < |s| ==> s[i] in r
    ensures |r| <= |s|
    ensures |s| > 0 ==> |r| > 0 && r[0] == s[0]
    ensures NoDuplicates(s) ==> r == s
  {
    if |s| == 0 then []
    else
      var d := Distinct(s[..|s| - 1]);
      var x := s[|s| - 1];
      assert s == s[..|s| - 1] + [x];
      if x in d then d else d + [x]
  }

  /** `a.indexOf(x)`, with `|a|` standing for the -1 of an absent element. */
  function FirstIndex<T(==)>(s: seq<T>, x: T): (r: nat)
    ensures r <= |s|
    ensures r < |s| <==> x in s
    ensures r < |s| ==> s[r] == x
    ensures forall k :: 0 <= k < r ==> s[k] != x
  {
    if |s| == 0 then 0
    else if s[0] == x then 0
    else
      var n := FirstIndex(s[1..], x);
      assert forall k :: 1 <= k <= n ==> s[k] == s[1..][k - 1];
      assert s == [s[0]] + s[1..];
      1 + n
  }

  /** A position holding `x` with no `x` before it is the first one. */
  lemma FirstIndexIs<T>(s: seq<T>, x: T, n: nat)
    requires n <= |s| && (n < |s| ==> s[n] == x)
    requires forall k :: 0 <= k < n ==> s[k] != x
    ensures FirstIndex(s, x) == n
  {
  }

  /** Appending an element moves no first position of the elements before
      it, and a new element is first found at the end. */
  lemma FirstIndexAppend<T>(init: seq<T>, x: T)
    ensures forall y :: y in init ==> FirstIndex(init + [x], y) == FirstIndex(init, y)
    ensures x !in init ==> FirstIndex(init + [x], x) == |init|
  {
    var s := init + [x];
    forall y | y in init
      ensures FirstIndex(s, y) == FirstIndex(init, y)
    {
      FirstIndexIs(s, y, FirstIndex(init, y));
    }
    if x !in init {
      FirstIndexIs(s, x, |init|);
    }
  }

  /** `[...new Set(a)]` lists the elements in the order of their first
      occurrence in `a`. */
  lemma {:induction false} DistinctFirstSeen<T>(s: seq<T>)
    ensures forall i, j :: 0 <= i < j < |Distinct(s)| ==> FirstIndex(s, Distinct(s)[i]) < FirstIndex(s, Distinct(s)[j])
  {
    if |s| > 0 {
      var init := s[..|s| - 1];
      var x := s[|s| - 1];
      DistinctFirstSeen(init);
      assert s == init + [x];
      FirstSeenStep(init, x, Distinct(init), Distinct(s));
    }
  }

  /** One step of `DistinctFirstSeen`: adding the next element keeps the
      first-seen order. */
  lemma FirstSeenStep<T>(init: seq<T>, x: T, d: seq<T>, r: seq<T>)
    requires forall i :: 0 <= i < |d| ==> d[i] in init
    requires x in init ==> x in d
    requires forall i, j :: 0 <= i < j < |d| ==> FirstIndex(init, d[i]) < FirstIndex(init, d[j])
    requires r == if x in d then d else d + [x]
    ensures forall i, j :: 0 <= i < j < |r| ==> FirstIndex(init + [x], r[i]) < FirstIndex(init + [x], r[j])
  {
    FirstIndexAppend(init, x);
    forall i, j | 0 <= i < j < |r|
      ensures FirstIndex(init + [x], r[i]) < FirstIndex(init + [x], r[j])
    {
      assert r[i] == d[i] && d[i] in init;
      if j < |d| {
        assert r[j] == d[j] && d[j] in init;
      } else {
        assert r[j] == x && x !in init;
      }
    }
  }

  // ---------------------------------------------------------------------
  // Code-point order on strings
  // ---------------------------------------------------------------------

  /** `a < b` on strings, comparing character codes left to right; a proper
      prefix comes first. */
  predicate StrLt(a: string, b: string)
    decreases |a|
  {
    if |b| == 0 then false
    else if |a| == 0 then true
    else if a[0] != b[0] then a[0] < b[0]
    else StrLt(a[1..], b[1..])
  }

  lemma {:induction false} StrLtIrreflexive(a: string)
    ensures !StrLt(a, a)
    decreases |a|
  {
    if |a| > 0 {
      StrLtIrreflexive(a[1..]);
    }
  }

  lemma {:induction false} StrLtTotal(a: string, b: string)
    ensures a == b || StrLt(a, b) || StrLt(b, a)
    decreases |a|
  {
    if |a| > 0 && |b| > 0 && a[0] == b[0] {
      StrLtTotal(a[1..], b[1..]);
      if a[1..] == b[1..] {
        assert a == [a[0]] + a[1..] && b == [b[0]] + b[1..];
      }
    }
  }

  lemma {:induction false} StrLtTrans(a: string, b: string, c: string)
    requires StrLt(a, b) && StrLt(b, c)
    ensures StrLt(a, c)
    decreases |a|
  {
    if |a| > 0 && a[0] == b[0] && b[0] == c[0] {
      StrLtTrans(a[1..], b[1..], c[1..]);
    }
  }

  lemma StrLtAsymmetric(a: string, b: string)
    requires StrLt(a, b)
    ensures !StrLt(b, a)
  {
    if StrLt(b, a) {
      StrLtTrans(a, b, a);
      StrLtIrreflexive(a);
    }
  }

  // ---------------------------------------------------------------------
  // Stable sort by a (rank, name) key
  // ---------------------------------------------------------------------

  /** A sort key: ascending rank first, then code-point order of the name. */
  datatype Key = Key(rank: nat, name: string)

  predicate KeyLt(x: Key, y: Key) {
    x.rank < y.rank || (x.rank == y.rank && StrLt(x.name, y.name))
  }

  predicate KeyLe(x: Key, y: Key) {
    x == y || KeyLt(x, y)
  }

  lemma KeyTotal(x: Key, y: Key)
    ensures KeyLe(x, y) || KeyLt(y, x)
  {
    StrLtTotal(x.name, y.name);
  }

  lemma KeyLtTrans(x: Key, y: Key, z: Key)
    requires KeyLt(x, y) && KeyLt(y, z)
    ensures KeyLt(x, z)
  {
    if x.rank == y.rank == z.rank {
      StrLtTrans(x.name, y.name, z.name);
    }
  }

  lemma KeyLeTrans(x: Key, y: Key, z: Key)
    requires KeyLe(x, y) && KeyLe(y, z)
    ensures KeyLe(x, z)
  {
    if KeyLt(x, y) && KeyLt(y, z) {
      KeyLtTrans(x, y, z);
    }
  }

  lemma KeyLtIrreflexive(x: Key)
    ensures !KeyLt(x, x)
  {
    StrLtIrreflexive(x.name);
  }

  predicate SortedBy<T>(s: seq<T>, key: T -> Key) {
    forall i, j :: 0 <= i < j < |s| ==> KeyLe(key(s[i]), key(s[j]))
  }

  /** Inserts `x` after every element whose key is not greater than its
      own: into a sorted sequence, that keeps it sorted and keeps `x` after
      its equals. */
  function Insert<T>(s: seq<T>, x: T, key: T -> Key): (r: seq<T>)
    ensures multiset(r) == multiset(s) + multiset{x}
    ensures |r| == |s| + 1
  {
    if |s| == 0 then [x]
    else
      var init := s[..|s| - 1];
      var last := s[|s| - 1];
      assert s == init + [last];
      if KeyLt(key(x), key(last)) then Insert(init, x, key) + [last] else s + [x]
  }

  lemma {:induction false} InsertSorted<T>(s: seq<T>, x: T, key: T -> Key)
    requires SortedBy(s, key)
    ensures SortedBy(Insert(s, x, key), key)
    ensures forall y :: y in Insert(s, x, key) ==> y == x || y in s
  {
    var r := Insert(s, x, key);
    if |s| > 0 {
      var init := s[..|s| - 1];
      var last := s[|s| - 1];
      if KeyLt(key(x), key(last)) {
        assert SortedBy(init, key);
        InsertSorted(init, x, key);
        var r0 := Insert(init, x, key);
        assert r == r0 + [last];
        forall i | 0 <= i < |r0|
          ensures KeyLe(key(r0[i]), key(last))
        {
          assert r0[i] in r0;
          if r0[i] != x {
            var k :| 0 <= k < |init| && init[k] == r0[i];
            assert s[k] == init[k];
          }
        }
      } else {
        KeyTotal(key(x), key(last));
        forall i | 0 <= i < |s|
          ensures KeyLe(key(s[i]), key(x))
        {
          if i < |s| - 1 {
            KeyLeTrans(key(s[i]), key(last), key(x));
          }
        }
      }
    }
  }

  /** The elements with key `k`, in their order. */
  function WithKey<T>(s: seq<T>, key: T -> Key, k: Key): seq<T> {
    if |s| == 0 then []
    else if key(s[0]) == k then [s[0]] + WithKey(s[1..], key, k)
    else WithKey(s[1..], key, k)
  }

  lemma {:induction false} WithKeyAppend<T>(a: seq<T>, b: seq<T>, key: T -> Key, k: Key)
    ensures WithKey(a + b, key, k) == WithKey(a, key, k) + WithKey(b, key, k)
  {
    if |a| > 0 {
      assert (a + b)[1..] == a[1..] + b;
      WithKeyAppend(a[1..], b, key, k);
    } else {
      assert a + b == b;
    }
  }

  lemma {:induction false} InsertStable<T>(s: seq<T>, x: T, key: T -> Key, k: Key)
    ensures WithKey(Insert(s, x, key), key, k) == WithKey(s, key, k) + WithKey([x], key, k)
    decreases |s|
  {
    if |s| == 0 {
      assert Insert(s, x, key) == [x];
    } else {
      var init := s[..|s| - 1];
      var last := s[|s| - 1];
      assert s == init + [last];
      var fx := WithKey([x], key, k);
      var fl := WithKey([last], key, k);
      WithKeyAppend(init, [last], key, k);
      if KeyLt(key(x), key(last)) {
        var r0 := Insert(init, x, key);
        assert Insert(s, x, key) == r0 + [last];
        InsertStable(init, x, key, k);
        WithKeyAppend(r0, [last], key, k);
        if key(x) == k {
          KeyLtIrreflexive(k);
          assert fl == [];
        } else {
          assert fx == [];
        }
      } else {
        assert Insert(s, x, key) == s + [x];
        WithKeyAppend(s, [x], key, k);
      }
    }
  }

  /** The stable sort `a.sort(compare)`, for a comparator that orders by
      `key`: insertion sort from the front. */
  function SortBy<T>(s: seq<T>, key: T -> Key): (r: seq<T>)
    ensures multiset(r) == multiset(s)
    ensures SortedBy(r, key)
    ensures forall k :: WithKey(r, key, k) == WithKey(s, key, k)
  {
    if |s| == 0 then []
    else
      var init := s[..|s| - 1];
      var last := s[|s| - 1];
      var sorted := SortBy(init, key);
      assert s == init + [last];
      InsertSorted(sorted, last, key);
      assert forall k :: WithKey(Insert(sorted, last, key), key, k) == WithKey(s, key, k) by {
        forall k
          ensures WithKey(Insert(sorted, last, key), key, k) == WithKey(s, key, k)
        {
          InsertStable(sorted, last, key, k);
          WithKeyAppend(init, [last], key, k);
        }
      }
      Insert(sorted, last, key)
  }

  // ---------------------------------------------------------------------
  // Math.min(...a) / Math.max(...a)
  // ---------------------------------------------------------------------

  /** `Math.min(...a)` on a non-empty array of numbers. */
  function MinOf(s: seq<real>): (r: real)
    requires |s| > 0
    ensures r in s && forall i :: 0 <= i < |s| ==> r <= s[i]
  {
    if |s| == 1 then s[0]
    else
      var m := MinOf(s[1..]);
      assert m in s;
      if s[0] <= m then s[0] else m
  }

  /** `Math.max(...a)` on a non-empty array of numbers. */
  function MaxOf(s: seq<real>): (r: real)
    requires |s| > 0
    ensures r in s && forall i :: 0 <= i < |s| ==> s[i] <= r
  {
    if |s| == 1 then s[0]
    else
      var m := MaxOf(s[1..]);
      assert m in s;
      if s[0] >= m then s[0] else m
  }

  /** The same over whole numbers (model years); an empty array is the
      `Infinity` of `Math.min()` / `Math.max()`, written None. */
  function MinInt(s: seq<int>): (r: Option<int>)
    ensures r.None? <==> |s| == 0
    ensures r.Some? ==> r.value in s && forall i :: 0 <= i < |s| ==> r.value <= s[i]
  {
    if |s| == 0 then None
    else
      match MinInt(s[1..])
      case None => Some(s[0])
      case Some(m) => assert m in s; Some(if s[0] <= m then s[0] else m)
  }

  function MaxInt(s: seq<int>): (r: Option<int>)
    ensures r.None? <==> |s| == 0
    ensures r.Some? ==> r.value in s && forall i :: 0 <= i < |s| ==> s[i] <= r.value
  {
    if |s| == 0 then None
    else
      match MaxInt(s[1..])
      case None => Some(s[0])
      case Some(m) => assert m in s; Some(if s[0] >= m then s[0] else m)
  }

  lemma MinLeMax(s: seq<real>)
    requires |s| > 0
    ensures MinOf(s) <= MaxOf(s)
  {
    assert MinOf(s) <= s[0] <= MaxOf(s);
  }
}

=== FILE: brl_price.dfy ===
/** Brazilian-real price strings such as "R$ 45.000,00"
    (src/services/vehicleService.js): the `formatValor` / `parseValor` pair.
    Amounts are counted in whole centavos so that the round trip is exact. */
module BrlPrice {
  import opened Wrappers
  import opened JsText

  /** Thousands grouping of a digit string: a '.' before every group of
      three digits counted from the right, which is what the regular
      expression `\B(?=(\d{3})+(?!\d))` inserts into the integer part. */
  function Group(d: string): (r: string)
    requires AllDigits(d)
    ensures forall i :: 0 <= i < |r| ==> IsDigit(r[i]) || r[i] == '.'
    ensures |d| > 0 ==> |r| > 0 && IsDigit(r[0]) && IsDigit(r[|r| - 1])
    ensures forall i :: 0 < i < |r| ==> (r[i] == '.' <==> (|r| - i) % 4 == 0)
    decreases |d|
  {
    if |d| <= 3 then d
    else
      var g := Group(d[..|d| - 3]);
      var r := g + "." + d[|d| - 3..];
      GroupStep(g, d[|d| - 3..], r);
      r
  }

  /** One more group of three digits after a grouped prefix keeps the dots
      at every fourth place from the right. */
  lemma GroupStep(g: string, lo: string, r: string)
    requires |lo| == 3 && AllDigits(lo)
    requires |g| > 0 && IsDigit(g[0]) && IsDigit(g[|g| - 1])
    requires forall i :: 0 <= i < |g| ==> IsDigit(g[i]) || g[i] == '.'
    requires forall i :: 0 < i < |g| ==> (g[i] == '.' <==> (|g| - i) % 4 == 0)
    requires r == g + "." + lo
    ensures forall i :: 0 <= i < |r| ==> IsDigit(r[i]) || r[i] == '.'
    ensures |r| > 0 && IsDigit(r[0]) && IsDigit(r[|r| - 1])
    ensures forall i :: 0 < i < |r| ==> (r[i] == '.' <==> (|r| - i) % 4 == 0)
  {
    assert |r| == |g| + 4;
    forall i | 0 <= i < |g|
      ensures r[i] == g[i] && (|r| - i) % 4 == (|g| - i) % 4
    {
      ShiftFour(|g| - i);
    }
    forall i | |g| < i < |r|
      ensures r[i] == lo[i - |g| - 1] && 0 < |r| - i < 4
    {
    }
  }

  lemma ShiftFour(n: int)
    ensures (n + 4) % 4 == n % 4
  {
  }

  predicate IsDot(c: char) { c == '.' }

  /** Removing the group separators gives back the digits. */
  lemma {:induction false} GroupUndots(d: string)
    requires AllDigits(d)
    ensures RemoveWhere(Group(d), IsDot) == d
    decreases |d|
  {
    if |d| <= 3 {
      RemoveWhereNone(d, IsDot);
    } else {
      var hi := d[..|d| - 3];
      var lo := d[|d| - 3..];
      assert Group(d) == Group(hi) + ("." + lo);
      assert RemoveWhere(Group(hi), IsDot) == hi by {
        GroupUndots(hi);
      }
      assert RemoveWhere("." + lo, IsDot) == lo by {
        RemoveWhereAppend(".", lo, IsDot);
        RemoveWhereNone(lo, IsDot);
      }
      RemoveWhereAppend(Group(hi), "." + lo, IsDot);
      assert hi + lo == d;
    }
  }

  /** Two-digit rendering of 0..99 (`toFixed(2)`'s fraction). */
  function Pad2(n: nat): (r: string)
    requires n < 100
    ensures |r| == 2 && AllDigits(r) && DigitsValue(r) == n
  {
    var r := [DigitChar(n / 10), DigitChar(n % 10)];
    assert r[..1] == [DigitChar(n / 10)];
    assert r[..1][..0] == [];
    assert DigitsValue(r[..1]) == n / 10;
    r
  }

  const Prefix: string := "R$ "

  /** `formatValor` applied to `centavos / 100`: "R$ ", the integer part
      grouped by dots, a comma and exactly two decimals. */
  function FormatValor(centavos: nat): (r: string)
    ensures |r| >= 7 && r[..3] == Prefix
    ensures r[|r| - 3] == ',' && IsDigit(r[|r| - 2]) && IsDigit(r[|r| - 1])
    ensures forall i :: 3 <= i < |r| - 3 ==> IsDigit(r[i]) || r[i] == '.'
    ensures forall i :: 3 < i < |r| - 3 ==> (r[i] == '.' <==> (|r| - 3 - i) % 4 == 0)
  {
    var g := Group(NatToString(centavos / 100));
    var r := Prefix + g + "," + Pad2(centavos % 100);
    assert forall i :: 3 <= i < |r| - 3 ==> r[i] == g[i - 3];
    r
  }

  /** `parseValor`: drop the first "R$ ", every '.', turn the first ',' into
      a decimal point, then `parseFloat`. None stands for NaN, which a text
      without a digit always gives. */
  function ParseValor(s: string): (r: Option<real>)
    ensures NoDigit(s) ==> r == None
  {
    var s1 := ReplaceFirst(s, Prefix, "");
    var s2 := RemoveWhere(s1, IsDot);
    var s3 := ReplaceFirst(s2, ",", ".");
    ValorNoDigit(s, s1, s2, s3);
    ParseFloat(s3)
  }

  lemma ValorNoDigit(s: string, s1: string, s2: string, s3: string)
    requires s1 == ReplaceFirst(s, Prefix, "") && s2 == RemoveWhere(s1, IsDot) && s3 == ReplaceFirst(s2, ",", ".")
    ensures NoDigit(s) ==> NoDigit(s3)
  {
    if NoDigit(s) {
      ReplaceFirstNoDigit(s, Prefix, "");
      RemoveWhereNoDigit(s1, IsDot);
      ReplaceFirstNoDigit(s2, ",", ".");
    }
  }

  lemma StripPrefix(g: string, tail: string)
    ensures ReplaceFirst(Prefix + g + tail, Prefix, "") == g + tail
  {
    var s := Prefix + g + tail;
    assert s[..3] == Prefix;
    assert OccursAt(s, Prefix, 0);
    IndexOfIs(s, Prefix, 0);
    assert s[3..] == g + tail;
  }

  lemma Undot(d: string, p: string)
    requires AllDigits(d) && AllDigits(p)
    ensures RemoveWhere(Group(d) + "," + p, IsDot) == d + "," + p
  {
    GroupUndots(d);
    UndotBefore(Group(d), d, p);
  }

  /** Dropping the dots of a text followed by a comma and digits drops them
      from the text alone. */
  lemma UndotBefore(g: string, d: string, p: string)
    requires RemoveWhere(g, IsDot) == d && AllDigits(p)
    ensures RemoveWhere(g + "," + p, IsDot) == d + "," + p
  {
    var t := "," + p;
    assert g + "," + p == g + t;
    assert forall i :: 0 < i < |t| ==> t[i] == p[i - 1];
    RemoveWhereAppend(g, t, IsDot);
    RemoveWhereNone(t, IsDot);
  }

  lemma CommaToPoint(d: string, p: string)
    requires AllDigits(d)
    ensures ReplaceFirst(d + "," + p, ",", ".") == d + "." + p
  {
    var s := d + "," + p;
    assert s[|d|..|d| + 1] == ",";
    assert OccursAt(s, ",", |d|);
    forall j | 0 <= j < |d|
      ensures !OccursAt(s, ",", j)
    {
      assert s[j] == d[j];
      assert s[j..j + 1][0] == s[j];
    }
    IndexOfIs(s, ",", |d|);
    assert s[..|d|] == d;
    assert s[|d| + 1..] == p;
  }

  lemma AmountValue(centavos: nat)
    ensures DecimalValue(NatToString(centavos / 100), Pad2(centavos % 100)) == centavos as real / 100.0
  {
    NatToStringValue(centavos / 100);
    CentsFraction(centavos % 100);
  }

  /** The same fact about the parsed value: stated on `Some` so that callers
      conclude by congruence rather than by arithmetic. */
  lemma AmountOption(centavos: nat)
    ensures Some(DecimalValue(NatToString(centavos / 100), Pad2(centavos % 100))) == Some(centavos as real / 100.0)
  {
    AmountValue(centavos);
  }

  /** Two digits after the point are that many hundredths. */
  lemma CentsFraction(m: nat)
    requires m < 100
    ensures FracValue(Pad2(m)) == m as real / 100.0
  {
    var r := Pad2(m);
    var d0, d1 := m / 10, m % 10;
    assert r[1..][1..] == [];
    assert DigitValue(r[0]) == d0 && DigitValue(r[1]) == d1;
    assert FracValue(r[1..]) == d1 as real / 10.0;
    assert FracValue(r) == (d0 as real + d1 as real / 10.0) / 10.0;
    assert d0 as real * 10.0 + d1 as real == m as real;
  }

  /** `parseValor` is `parseFloat` of its three rewrites. */
  lemma ParseValorOf(s: string, s1: string, s2: string, s3: string)
    requires ReplaceFirst(s, Prefix, "") == s1
    requires RemoveWhere(s1, IsDot) == s2
    requires ReplaceFirst(s2, ",", ".") == s3
    ensures ParseValor(s) == ParseFloat(s3)
  {
  }

  lemma ParseGrouped(d: string, p: string)
    requires AllDigits(d) && AllDigits(p) && |d| > 0
    ensures ParseValor(Prefix + Group(d) + ("," + p)) == Some(DecimalValue(d, p))
  {
    var g := Group(d);
    var s0 := Prefix + g + ("," + p);
    assert ReplaceFirst(s0, Prefix, "") == g + "," + p by {
      StripPrefix(g, "," + p);
    }
    assert RemoveWhere(g + "," + p, IsDot) == d + "," + p by {
      Undot(d, p);
    }
    assert ReplaceFirst(d + "," + p, ",", ".") == d + "." + p by {
      CommaToPoint(d, p);
    }
    ParseValorOf(s0, g + "," + p, d + "," + p, d + "." + p);
    ParseFloatDecimal(d, p);
  }

  /** Parsing a formatted amount gives the amount back. */
  lemma ParseFormatRoundTrip(centavos: nat)
    ensures ParseValor(FormatValor(centavos)) == Some(centavos as real / 100.0)
  {
    var d := NatToString(centavos / 100);
    var p := Pad2(centavos % 100);
    assert FormatValor(centavos) == Prefix + Group(d) + ("," + p);
    assert ParseValor(Prefix + Group(d) + ("," + p)) == Some(DecimalValue(d, p)) by {
      ParseGrouped(d, p);
    }
    AmountOption(centavos);
  }

  /** Two different amounts never format to the same string. */
  lemma FormatInjective(a: nat, b: nat)
    requires FormatValor(a) == FormatValor(b)
    ensures a == b
  {
    ParseFormatRoundTrip(a);
    ParseFormatRoundTrip(b);
  }

  // ---------------------------------------------------------------------
  // Amounts given as numbers: `toFixed(2)` and the two display formats
  // ---------------------------------------------------------------------

  /** The number of centavos `toFixed(2)` picks for a non-negative amount:
      the nearest whole number, the larger one on a tie. */
  function RoundCents(x: real): (r: nat)
    requires x >= 0.0
    ensures r as real - 0.5 <= x * 100.0 < r as real + 0.5
  {
    (x * 100.0 + 0.5).Floor
  }

  /** An amount that already is a whole number of centavos is not moved. */
  lemma RoundCentsExact(centavos: nat)
    ensures RoundCents(centavos as real / 100.0) == centavos
  {
    var r := RoundCents(centavos as real / 100.0);
    assert (centavos as real / 100.0) * 100.0 == centavos as real;
  }

  function Abs(x: real): real { if x < 0.0 then -x else x }

  function Sign(x: real): string { if x < 0.0 then "-" else "" }

  /** `x.toFixed(2)`: the sign of `x`, then its magnitude rounded to two
      decimals with a '.' separator and no grouping. */
  function ToFixed2(x: real): string {
    var n := RoundCents(Abs(x));
    Sign(x) + NatToString(n / 100) + "." + Pad2(n % 100)
  }

  /** `compareVehicles`' `formatValor(x)`: `toFixed(2)`, the point turned
      into a comma, then the integer part grouped by dots. */
  function FormatAmount(x: real): (r: string)
    ensures x >= 0.0 ==> r == FormatValor(RoundCents(x))
  {
    var n := RoundCents(Abs(x));
    Prefix + Sign(x) + Group(NatToString(n / 100)) + "," + Pad2(n % 100)
  }

  /** Turning the first '.' of "<sign><digits>.<two digits>" into a comma. */
  lemma PointToComma(pre: string, p: string)
    requires forall j :: 0 <= j < |pre| ==> pre[j] != '.'
    ensures ReplaceFirst(pre + "." + p, ".", ",") == pre + "," + p
  {
    var t := pre + "." + p;
    assert t[|pre|..|pre| + 1] == ".";
    assert OccursAt(t, ".", |pre|);
    forall j | 0 <= j < |pre|
      ensures !OccursAt(t, ".", j)
    {
      assert t[j..j + 1][0] == t[j] == pre[j];
    }
    IndexOfIs(t, ".", |pre|);
    assert t[..|pre|] == pre;
    assert t[|pre| + 1..] == p;
  }

  /** `compareMultipleVehicles`' rendering `R$ ${x.toFixed(2).replace('.', ',')}`:
      no thousands grouping. */
  function FixedComma(x: real): (r: string)
    ensures |r| >= 7 && r[..3] == Prefix
  {
    var n := RoundCents(Abs(x));
    Prefix + Sign(x) + NatToString(n / 100) + "," + Pad2(n % 100)
  }

  /** The rendering is `toFixed(2)` with its decimal point turned into a
      comma: the only '.' in `toFixed(2)`'s output is the decimal point. */
  lemma FixedCommaIsToFixedReplaced(x: real)
    ensures FixedComma(x) == Prefix + ReplaceFirst(ToFixed2(x), ".", ",")
  {
    SignedPointToComma(Sign(x), RoundCents(Abs(x)));
  }

  lemma SignedPointToComma(sign: string, n: nat)
    requires sign == "" || sign == "-"
    ensures Prefix + sign + NatToString(n / 100) + "," + Pad2(n % 100)
         == Prefix + ReplaceFirst(sign + NatToString(n / 100) + "." + Pad2(n % 100), ".", ",")
  {
    SignedDigitsNoPoint(sign, NatToString(n / 100));
    PointToComma(sign + NatToString(n / 100), Pad2(n % 100));
  }

  /** A sign followed by digits holds no '.'. */
  lemma SignedDigitsNoPoint(sign: string, d: string)
    requires sign == "" || sign == "-"
    requires AllDigits(d)
    ensures forall j :: 0 <= j < |sign + d| ==> (sign + d)[j] != '.'
  {
    forall j | 0 <= j < |sign + d|
      ensures (sign + d)[j] != '.'
    {
      if j >= |sign| {
        assert (sign + d)[j] == d[j - |sign|];
      }
    }
  }

  /** An amount that is a whole number of centavos, formatted by
      `formatValor`, reads back through `parseValor` as itself. */
  lemma FormatAmountReadsBack(centavos: nat)
    ensures ParseValor(FormatAmount(centavos as real / 100.0)) == Some(centavos as real / 100.0)
  {
    RoundCentsExact(centavos);
    ParseFormatRoundTrip(centavos);
  }

  lemma ParsePlain(s: string, d: string, p: string)
    requires AllDigits(d) && AllDigits(p) && |d| > 0
    requires s == Prefix + d + ("," + p)
    ensures ParseValor(s) == Some(DecimalValue(d, p))
  {
    var s1 := d + "," + p;
    assert ReplaceFirst(s, Prefix, "") == s1 by {
      StripPrefix(d, "," + p);
    }
    assert RemoveWhere(s1, IsDot) == s1 by {
      forall i | 0 <= i < |s1|
        ensures !IsDot(s1[i])
      {
        if i < |d| { assert s1[i] == d[i]; }
        else if i > |d| { assert s1[i] == p[i - |d| - 1]; }
      }
      RemoveWhereNone(s1, IsDot);
    }
    assert ReplaceFirst(s1, ",", ".") == d + "." + p by {
      CommaToPoint(d, p);
    }
    ParseValorOf(s, s1, s1, d + "." + p);
    ParseFloatDecimal(d, p);
  }

  /** The ungrouped rendering of a whole number of centavos reads back as that amount. */
  lemma PlainReadsBack(s: string, n: nat)
    requires s == Prefix + NatToString(n / 100) + ("," + Pad2(n % 100))
    ensures ParseValor(s) == Some(n as real / 100.0)
  {
    ParsePlain(s, NatToString(n / 100), Pad2(n % 100));
    AmountOption(n);
  }

  /** A non-negative amount renders with no sign. */
  lemma FixedCommaUnsigned(x: real)
    requires x >= 0.0
    ensures FixedComma(x) == Prefix + NatToString(RoundCents(x) / 100) + ("," + Pad2(RoundCents(x) % 100))
  {
    assert Abs(x) == x && Sign(x) == "";
    assert Prefix + "" + NatToString(RoundCents(x) / 100) == Prefix + NatToString(RoundCents(x) / 100);
  }

  /** The ungrouped rendering of a whole number of centavos reads back as
      that amount. */
  lemma FixedCommaReadsBack(centavos: nat)
    ensures ParseValor(FixedComma(centavos as real / 100.0)) == Some(centavos as real / 100.0)
  {
    RoundCentsExact(centavos);
    FixedCommaUnsigned(centavos as real / 100.0);
    PlainReadsBack(FixedComma(centavos as real / 100.0), centavos);
  }
}

=== FILE: car_controller.dfy ===
/** The request checks of src/controllers/carController.js: what each
    handler rejects before it calls a service, with the status and message
    of the error response, and what it hands on when it accepts. A failing
    `validateParams` throws inside the handler's `try`, so it ends in a 500
    whose message is the thrown text; the explicit checks answer 400. */
module CarController {
  import opened Wrappers
  import opened JsText
  import opened JsValue
  import Arrays

  /** How a handler's input checks end: the arguments it passes on, or the
      status and message of the error response it sends instead. */
  datatype Verdict<T> = Accept(value: T) | Reject(status: nat, message: string)

  const BadRequest: nat := 400
  const ServerError: nat := 500

  /** The `limit` every list handler reads: `parseInt(req.query.limit) || 10`. */
  function QueryLimit(limit: Option<string>): int {
    IntOr(limit, 10)
  }

  // ---------------------------------------------------------------------
  // validateParams
  // ---------------------------------------------------------------------

  /** `!params[param]`: an absent key reads as `undefined`. */
  predicate IsMissing(params: map<string, Value>, key: string) {
    !Truthy(Get(Obj(params), key))
  }

  /** The required keys whose values are falsy, in the order required. */
  function MissingParams(params: map<string, Value>, required: seq<string>): (r: seq<string>)
    ensures forall i :: 0 <= i < |r| ==> r[i] in required && IsMissing(params, r[i])
    ensures forall i :: 0 <= i < |required| && IsMissing(params, required[i]) ==> required[i] in r
    ensures |r| <= |required|
  {
    Arrays.Filter(required, k => IsMissing(params, k))
  }

  /** The missing keys of a longer list are those of its parts, one after
      the other: the message names them in the order they were required. */
  lemma MissingParamsInOrder(params: map<string, Value>, a: seq<string>, b: seq<string>)
    ensures MissingParams(params, a + b) == MissingParams(params, a) + MissingParams(params, b)
  {
    Arrays.FilterAppend(a, b, k => IsMissing(params, k));
  }

  const MissingPrefix := "Missing required parameters: "

  /** `validateParams(params, required)`: throws exactly when some required
      key is falsy, naming every such key. */
  function ValidateParams(params: map<string, Value>, required: seq<string>): (r: Result<()>)
    ensures r.Ok? <==> forall i :: 0 <= i < |required| ==> !IsMissing(params, required[i])
    ensures r.Err? ==> r.error == MissingPrefix + Join(MissingParams(params, required), ", ")
  {
    var missing := MissingParams(params, required);
    if |missing| > 0 then Err(MissingPrefix + Join(missing, ", ")) else Ok(())
  }

  /** Checking one path parameter `{ name: value }`: it fails exactly on
      the empty string, and the message names the parameter alone. */
  lemma OneParamMissingIffEmpty(name: string, value: string)
    ensures ValidateParams(map[name := Str(value)], [name]).Err? <==> value == ""
    ensures value == "" ==> ValidateParams(map[name := Str(value)], [name]) == Err(MissingPrefix + name)
  {
    var params := map[name := Str(value)];
    if value == "" {
      assert IsMissing(params, [name][0]);
      var m := MissingParams(params, [name]);
      assert name in m;
      assert |m| == 1 && m[0] == name;
    }
  }

  /** A handler's `validateParams({ name: value }, [name])`, with the throw
      caught into a 500. */
  function RequireParam(name: string, value: string): (r: Verdict<()>)
    ensures r.Accept? <==> value != ""
    ensures r.Reject? ==> r == Reject(ServerError, MissingPrefix + name)
  {
    OneParamMissingIffEmpty(name, value);
    match ValidateParams(map[name := Str(value)], [name])
    case Ok(_) => Accept(())
    case Err(e) => Reject(ServerError, e)
  }

  // ---------------------------------------------------------------------
  // getCarsByYear
  // ---------------------------------------------------------------------

  const InvalidYear := "Invalid year provided"

  /** What `getCarsByYear` passes to the service. */
  datatype YearQuery = YearQuery(year: int, limit: int)

  /** `getCarsByYear`'s checks; the clock's current year is a parameter. */
  function CheckYear(year: string, limit: Option<string>, currentYear: int): (r: Verdict<YearQuery>)
    ensures r.Accept? <==> ParseInt(year).Some? && 1900 <= ParseInt(year).value <= currentYear + 1
    ensures r.Accept? ==> r.value == YearQuery(ParseInt(year).value, QueryLimit(limit))
    ensures year == "" ==> r == Reject(ServerError, MissingPrefix + "year")
    ensures year != "" && r.Reject? ==> r == Reject(BadRequest, InvalidYear)
  {
    match RequireParam("year", year)
    case Reject(s, m) => Reject(s, m)
    case Accept(_) =>
      var y := ParseInt(year);
      if y.None? || y.value < 1900 || y.value > currentYear + 1 then Reject(BadRequest, InvalidYear)
      else Accept(YearQuery(y.value, QueryLimit(limit)))
  }

  /** Every year written in decimal from 1900 to next year is accepted as
      itself. */
  lemma YearAccepted(y: nat, limit: Option<string>, currentYear: int)
    requires 1900 <= y <= currentYear + 1
    ensures CheckYear(NatToString(y), limit, currentYear) == Accept(YearQuery(y, QueryLimit(limit)))
  {
    ParseIntNat(y);
  }

  // ---------------------------------------------------------------------
  // getCarsByFuelType, getCarsByTransmission
  // ---------------------------------------------------------------------

  const ValidFuelTypes: seq<string> := ["gas", "diesel", "electricity", "hybrid"]
  const ValidTransmissions: seq<string> := ["manual", "automatic"]

  /** What a by-category handler passes to the service: the value as the
      caller wrote it (not lower-cased) and the limit. */
  datatype CategoryQuery = CategoryQuery(value: string, limit: int)

  /** The shared shape of the fuel and transmission checks: the parameter
      must be present, and its lower-cased form one of `valid`. */
  function CheckCategory(name: string, value: string, valid: seq<string>, invalid: string,
                         limit: Option<string>): (r: Verdict<CategoryQuery>)
    requires "" !in valid
    ensures r.Accept? <==> Lower(value) in valid
    ensures r.Accept? ==> r.value == CategoryQuery(value, QueryLimit(limit))
    ensures value == "" ==> r == Reject(ServerError, MissingPrefix + name)
    ensures value != "" && r.Reject? ==> r == Reject(BadRequest, invalid + Join(valid, ", "))
  {
    match RequireParam(name, value)
    case Reject(s, m) => Reject(s, m)
    case Accept(_) =>
      if Lower(value) !in valid then Reject(BadRequest, invalid + Join(valid, ", "))
      else Accept(CategoryQuery(value, QueryLimit(limit)))
  }

  /** `getCarsByFuelType`'s checks. */
  function CheckFuelType(fuelType: string, limit: Option<string>): (r: Verdict<CategoryQuery>)
    ensures r.Accept? <==> Lower(fuelType) in ValidFuelTypes
    ensures r.Accept? ==> r.value.value == fuelType
    ensures fuelType != "" && r.Reject? ==>
              r == Reject(BadRequest, "Invalid fuel type. Valid options: " + Join(ValidFuelTypes, ", "))
  {
    CheckCategory("fuelType", fuelType, ValidFuelTypes, "Invalid fuel type. Valid options: ", limit)
  }

  /** `getCarsByTransmission`'s checks. */
  function CheckTransmission(transmission: string, limit: Option<string>): (r: Verdict<CategoryQuery>)
    ensures r.Accept? <==> Lower(transmission) in ValidTransmissions
    ensures r.Accept? ==> r.value.value == transmission
    ensures transmission != "" && r.Reject? ==>
              r == Reject(BadRequest, "Invalid transmission type. Valid options: " + Join(ValidTransmissions, ", "))
  {
    CheckCategory("transmission", transmission, ValidTransmissions, "Invalid transmission type. Valid options: ", limit)
  }

  /** The category checks ignore case: a value and its lower-cased form are
      accepted or rejected together. */
  lemma CategoryIgnoresCase(value: string, limit: Option<string>)
    ensures CheckFuelType(value, limit).Accept? <==> CheckFuelType(Lower(value), limit).Accept?
    ensures CheckTransmission(value, limit).Accept? <==> CheckTransmission(Lower(value), limit).Accept?
  {
    LowerIdempotent(value);
  }

  // ---------------------------------------------------------------------
  // getEfficientCars
  // ---------------------------------------------------------------------

  const MpgOutOfRange := "min_mpg must be between 10 and 100"

  /** What `getEfficientCars` passes to the service. */
  datatype MpgQuery = MpgQuery(minMpg: int, limit: int)

  /** `getEfficientCars`'s checks: `min_mpg` is `parseInt(...) || 30`. */
  function CheckEfficient(minMpg: Option<string>, limit: Option<string>): (r: Verdict<MpgQuery>)
    ensures r.Accept? <==> 10 <= IntOr(minMpg, 30) <= 100
    ensures r.Accept? ==> r.value == MpgQuery(IntOr(minMpg, 30), QueryLimit(limit))
    ensures r.Reject? ==> r == Reject(BadRequest, MpgOutOfRange)
  {
    var mpg := IntOr(minMpg, 30);
    if mpg < 10 || mpg > 100 then Reject(BadRequest, MpgOutOfRange)
    else Accept(MpgQuery(mpg, QueryLimit(limit)))
  }

  /** An absent, unparseable or zero `min_mpg` means 30, which is accepted. */
  lemma MpgDefaultsTo30(minMpg: Option<string>, limit: Option<string>)
    requires minMpg.None? || ParseInt(minMpg.value).None? || ParseInt(minMpg.value) == Some(0)
    ensures CheckEfficient(minMpg, limit) == Accept(MpgQuery(30, QueryLimit(limit)))
  {
  }

  /** A decimal `min_mpg` from 10 to 100 is taken as written. */
  lemma MpgAccepted(n: nat, limit: Option<string>)
    requires 10 <= n <= 100
    ensures CheckEfficient(Some(NatToString(n)), limit) == Accept(MpgQuery(n, QueryLimit(limit)))
  {
    ParseIntNat(n);
  }

  // ---------------------------------------------------------------------
  // getCarsByCylinders
  // ---------------------------------------------------------------------

  const ValidCylinders: seq<int> := [2, 3, 4, 5, 6, 8, 10, 12, 16]
  const InvalidCylinders := "Invalid cylinder count. Valid options: 2, 3, 4, 5, 6, 8, 10, 12, 16"

  /** What `getCarsByCylinders` passes to the service. */
  datatype CylinderQuery = CylinderQuery(cylinders: int, limit: int)

  /** `getCarsByCylinders`'s checks: `validCylinders.includes(NaN)` is
      false, so an unparseable count is rejected like an unlisted one. */
  function CheckCylinders(cylinders: string, limit: Option<string>): (r: Verdict<CylinderQuery>)
    ensures r.Accept? <==> ParseInt(cylinders).Some? && ParseInt(cylinders).value in ValidCylinders
    ensures r.Accept? ==> r.value == CylinderQuery(ParseInt(cylinders).value, QueryLimit(limit))
    ensures cylinders == "" ==> r == Reject(ServerError, MissingPrefix + "cylinders")
    ensures cylinders != "" && r.Reject? ==> r == Reject(BadRequest, InvalidCylinders)
  {
    match RequireParam("cylinders", cylinders)
    case Reject(s, m) => Reject(s, m)
    case Accept(_) =>
      var c := ParseInt(cylinders);
      if c.None? || c.value !in ValidCylinders then Reject(BadRequest, InvalidCylinders)
      else Accept(CylinderQuery(c.value, QueryLimit(limit)))
  }

  /** Each listed count, written in decimal, is accepted as itself; seven
      cylinders are not. */
  lemma CylindersAccepted(n: nat, limit: Option<string>)
    ensures CheckCylinders(NatToString(n), limit).Accept? <==> n in ValidCylinders
    ensures n in ValidCylinders ==> CheckCylinders(NatToString(n), limit).value.cylinders == n
  {
    ParseIntNat(n);
  }

  // ---------------------------------------------------------------------
  // compareCars
  // ---------------------------------------------------------------------

  const IdsNotArray := "car_ids must be an array of car IDs"
  const TooFewIds := "At least 2 car IDs are required for comparison"
  const TooManyIds := "Maximum 5 cars can be compared at once"

  /** `compareCars`'s checks on `req.body.car_ids`, in the source's order:
      shape, then at least two, then at most five. */
  function CheckCompare(carIds: Value): (r: Verdict<seq<Value>>)
    ensures r.Accept? <==> carIds.Arr? && 2 <= |carIds.items| <= 5
    ensures r.Accept? ==> r.value == carIds.items
    ensures !carIds.Arr? ==> r == Reject(BadRequest, IdsNotArray)
    ensures carIds.Arr? && |carIds.items| < 2 ==> r == Reject(BadRequest, TooFewIds)
    ensures carIds.Arr? && |carIds.items| > 5 ==> r == Reject(BadRequest, TooManyIds)
  {
    if !Truthy(carIds) || !carIds.Arr? then Reject(BadRequest, IdsNotArray)
    else if |carIds.items| < 2 then Reject(BadRequest, TooFewIds)
    else if |carIds.items| > 5 then Reject(BadRequest, TooManyIds)
    else Accept(carIds.items)
  }

  // ---------------------------------------------------------------------
  // getCarsByPriceRange
  // ---------------------------------------------------------------------

  const NegativePrice := "Price values must be positive"
  const EmptyRange := "min_price must be less than max_price"

  /** What `getCarsByPriceRange` passes to the service. */
  datatype PriceQuery = PriceQuery(minPrice: int, maxPrice: int, limit: int)

  /** `getCarsByPriceRange`'s checks: the bounds default to 0 and 1000000
      through `||`, negatives are reported before an empty range. */
  function CheckPriceRange(minPrice: Option<string>, maxPrice: Option<string>, limit: Option<string>)
    : (r: Verdict<PriceQuery>)
    ensures r.Accept? <==> 0 <= IntOr(minPrice, 0) < IntOr(maxPrice, 1000000)
    ensures r.Accept? ==> r.value == PriceQuery(IntOr(minPrice, 0), IntOr(maxPrice, 1000000), QueryLimit(limit))
    ensures IntOr(minPrice, 0) < 0 || IntOr(maxPrice, 1000000) < 0 ==> r == Reject(BadRequest, NegativePrice)
    ensures (0 <= IntOr(minPrice, 0) && 0 <= IntOr(maxPrice, 1000000) && IntOr(minPrice, 0) >= IntOr(maxPrice, 1000000))
              ==> r == Reject(BadRequest, EmptyRange)
  {
    var lo := IntOr(minPrice, 0);
    var hi := IntOr(maxPrice, 1000000);
    if lo < 0 || hi < 0 then Reject(BadRequest, NegativePrice)
    else if lo >= hi then Reject(BadRequest, EmptyRange)
    else Accept(PriceQuery(lo, hi, QueryLimit(limit)))
  }

  /** `max_price=0` is read as no bound at all: `0 || 1000000`. */
  lemma ZeroMaxPriceIsDefault(minPrice: Option<string>, limit: Option<string>)
    requires 0 <= IntOr(minPrice, 0) < 1000000
    ensures CheckPriceRange(minPrice, Some("0"), limit)
              == Accept(PriceQuery(IntOr(minPrice, 0), 1000000, QueryLimit(limit)))
  {
    ParseIntNat(0);
  }

  // ---------------------------------------------------------------------
  // getMultipleCarImages
  // ---------------------------------------------------------------------

  const CarsNotArray := "cars must be an array of car objects with make and model"
  const NoCars := "At least one car is required"
  const TooManyCars := "Maximum 10 cars can be processed at once"
  const CarWithoutName := "Each car must have make and model properties"

  /** `car.make && car.model` (false for values without those properties). */
  predicate HasMakeAndModel(car: Value) {
    Truthy(Get(car, "make")) && Truthy(Get(car, "model"))
  }

  /** Reading `car.make` on `null` or `undefined` throws a TypeError. */
  function PropertyReadError(car: Value): string {
    "Cannot read properties of " + (if car.Null? then "null" else "undefined") + " (reading 'make')"
  }

  /** `getMultipleCarImages`'s checks on `req.body.cars`, in the source's
      order. The loop stops at the first car lacking make or model; when
      that car is `null` it throws instead, which the handler answers with
      a 500. */
  function CheckImageBatch(cars: Value): (r: Verdict<seq<Value>>)
    ensures r.Accept? <==> cars.Arr? && 1 <= |cars.items| <= 10
                           && forall i :: 0 <= i < |cars.items| ==> HasMakeAndModel(cars.items[i])
    ensures r.Accept? ==> r.value == cars.items
    ensures !cars.Arr? ==> r == Reject(BadRequest, CarsNotArray)
    ensures cars.Arr? && |cars.items| == 0 ==> r == Reject(BadRequest, NoCars)
    ensures cars.Arr? && |cars.items| > 10 ==> r == Reject(BadRequest, TooManyCars)
    ensures r.Reject? ==> r.status == BadRequest || r.status == ServerError
    ensures r.Reject? && r.status == ServerError ==>
              cars.Arr? && exists i :: 0 <= i < |cars.items| && (cars.items[i].Null? || cars.items[i].Undefined?)
    ensures cars.Arr? && 1 <= |cars.items| <= 10 ==>
              forall i :: 0 <= i < |cars.items| && !HasMakeAndModel(cars.items[i])
                          && (forall j :: 0 <= j < i ==> HasMakeAndModel(cars.items[j])) ==>
                r == if cars.items[i].Null? || cars.items[i].Undefined? then Reject(ServerError, PropertyReadError(cars.items[i]))
                     else Reject(BadRequest, CarWithoutName)
  {
    if !Truthy(cars) || !cars.Arr? then Reject(BadRequest, CarsNotArray)
    else if |cars.items| == 0 then Reject(BadRequest, NoCars)
    else if |cars.items| > 10 then Reject(BadRequest, TooManyCars)
    else
      match Arrays.First(cars.items, c => !HasMakeAndModel(c))
      case None => Accept(cars.items)
      case Some(i) =>
        var car := cars.items[i];
        if car.Null? || car.Undefined? then Reject(ServerError, PropertyReadError(car))
        else Reject(BadRequest, CarWithoutName)
  }

  /** A batch of well-named car objects is never cut short by a later
      check: a batch is accepted as soon as every car names make and model
      and the count is from 1 to 10. */
  lemma NamedCarsAccepted(makes: seq<string>, models: seq<string>)
    requires |makes| == |models| && 1 <= |makes| <= 10
    requires forall i :: 0 <= i < |makes| ==> makes[i] != "" && models[i] != ""
    ensures CheckImageBatch(Arr(NamedCars(makes, models))).Accept?
  {
    var cars := NamedCars(makes, models);
    forall i | 0 <= i < |cars|
      ensures HasMakeAndModel(cars[i])
    {
      assert Get(cars[i], "make") == Str(makes[i]);
      assert Get(cars[i], "model") == Str(models[i]);
    }
  }

  /** `[{ make, model }, ...]`. */
  function NamedCars(makes: seq<string>, models: seq<string>): (r: seq<Value>)
    requires |makes| == |models|
    ensures |r| == |makes|
    ensures forall i :: 0 <= i < |r| ==> r[i] == Obj(map["make" := Str(makes[i]), "model" := Str(models[i])])
  {
    seq(|makes|, i requires 0 <= i < |makes| => Obj(map["make" := Str(makes[i]), "model" := Str(models[i])]))
  }
}

=== FILE: car_images.dfy ===
/** src/services/carImageService.js: a picture URL for a make and model,
    found through a chain of lookups that ends at a default, the small
    gallery derived from it, and the enrichment of car records. The three
    tables are finite: model pictures, brand pictures, and the default. */
module CarImages {
  import opened Wrappers
  import opened JsText
  import opened JsValue
  import opened Arrays

  // ---------------------------------------------------------------------
  // The tables
  // ---------------------------------------------------------------------

  /** A maker's gallery picture; every entry of `carImageMap` has this form,
      with the maker's site (`vw` for Volkswagen) and the model's slug. */
  function ModelUrl(site: string, slug: string): string {
    "https://www." + site + ".com.br/content/dam/" + site + "/brazil/vehicles/"
    + slug + "/2024/gallery/exterior/" + slug + "-2024-exterior-01.jpg"
  }

  /** A stock photo; the brand fallbacks and the default have this form. */
  function UnsplashUrl(photo: string): string {
    "https://images.unsplash.com/photo-" + photo + "?w=800&h=600&fit=crop&crop=center"
  }

  /** One `carImageMap` entry: the lower-case "make model" key and the
      parts of its URL. */
  datatype ModelEntry = ModelEntry(key: string, site: string, slug: string)

  const ModelTable: seq<ModelEntry> := [
    ModelEntry("toyota corolla", "toyota", "corolla"),
    ModelEntry("toyota corolla cross", "toyota", "corolla-cross"),
    ModelEntry("toyota yaris", "toyota", "yaris"),
    ModelEntry("toyota hilux", "toyota", "hilux"),
    ModelEntry("toyota sw4", "toyota", "sw4"),
    ModelEntry("toyota prius", "toyota", "prius"),
    ModelEntry("toyota rav4", "toyota", "rav4"),
    ModelEntry("toyota camry", "toyota", "camry"),
    ModelEntry("honda civic", "honda", "civic"),
    ModelEntry("honda hr-v", "honda", "hr-v"),
    ModelEntry("honda city", "honda", "city"),
    ModelEntry("honda accord", "honda", "accord"),
    ModelEntry("honda cr-v", "honda", "cr-v"),
    ModelEntry("honda pilot", "honda", "pilot"),
    ModelEntry("honda ridgeline", "honda", "ridgeline"),
    ModelEntry("honda fit", "honda", "fit"),
    ModelEntry("volkswagen polo", "vw", "polo"),
    ModelEntry("volkswagen virtus", "vw", "virtus"),
    ModelEntry("volkswagen t-cross", "vw", "t-cross"),
    ModelEntry("volkswagen nivus", "vw", "nivus"),
    ModelEntry("volkswagen jetta", "vw", "jetta"),
    ModelEntry("volkswagen tiguan", "vw", "tiguan"),
    ModelEntry("volkswagen amarok", "vw", "amarok"),
    ModelEntry("volkswagen golf", "vw", "golf"),
    ModelEntry("chevrolet onix", "chevrolet", "onix"),
    ModelEntry("chevrolet tracker", "chevrolet", "tracker"),
    ModelEntry("chevrolet cruze", "chevrolet", "cruze"),
    ModelEntry("chevrolet equinox", "chevrolet", "equinox"),
    ModelEntry("chevrolet s10", "chevrolet", "s10"),
    ModelEntry("chevrolet trailblazer", "chevrolet", "trailblazer"),
    ModelEntry("chevrolet spin", "chevrolet", "spin"),
    ModelEntry("chevrolet camaro", "chevrolet", "camaro"),
    ModelEntry("hyundai hb20", "hyundai", "hb20"),
    ModelEntry("hyundai creta", "hyundai", "creta"),
    ModelEntry("hyundai tucson", "hyundai", "tucson"),
    ModelEntry("hyundai elantra", "hyundai", "elantra"),
    ModelEntry("nissan kicks", "nissan", "kicks"),
    ModelEntry("nissan versa", "nissan", "versa"),
    ModelEntry("nissan sentra", "nissan", "sentra"),
    ModelEntry("nissan frontier", "nissan", "frontier"),
    ModelEntry("ford ka", "ford", "ka"),
    ModelEntry("ford ecosport", "ford", "ecosport"),
    ModelEntry("ford ranger", "ford", "ranger"),
    ModelEntry("ford territory", "ford", "territory"),
    ModelEntry("fiat argo", "fiat", "argo"),
    ModelEntry("fiat mobi", "fiat", "mobi"),
    ModelEntry("fiat cronos", "fiat", "cronos"),
    ModelEntry("fiat pulse", "fiat", "pulse"),
    ModelEntry("renault kwid", "renault", "kwid"),
    ModelEntry("renault sandero", "renault", "sandero"),
    ModelEntry("renault logan", "renault", "logan"),
    ModelEntry("renault duster", "renault", "duster"),
    ModelEntry("jeep renegade", "jeep", "renegade"),
    ModelEntry("jeep compass", "jeep", "compass"),
    ModelEntry("jeep commander", "jeep", "commander"),
    ModelEntry("jeep wrangler", "jeep", "wrangler")
  ]

  /** `brandFallbackImages`: the lower-case brand and its photo id. */
  const BrandTable: seq<(string, string)> := [
    ("toyota", "1621007947382-bb3c3994e3fb"),
    ("honda", "1618843479313-40f8afb4b4d8"),
    ("volkswagen", "1606664515524-ed2f786a0bd6"),
    ("chevrolet", "1552519507-da3b142c6e3d"),
    ("hyundai", "1605559424843-9e4c228bf1c2"),
    ("nissan", "1609521263047-f8f205293f24"),
    ("ford", "1612825173281-9a193378527e"),
    ("fiat", "1583121274602-3e2820c69888"),
    ("renault", "1494976688153-ca3ce0b3e985"),
    ("jeep", "1544636331-e26879cd4d9b")
  ]

  const DefaultCarImage: string := UnsplashUrl("1492144534655-ae79c964c9d7")

  predicate IsModelImage(u: string) {
    exists i :: 0 <= i < |ModelTable| && u == ModelUrl(ModelTable[i].site, ModelTable[i].slug)
  }

  predicate IsBrandImage(u: string) {
    exists i :: 0 <= i < |BrandTable| && u == UnsplashUrl(BrandTable[i].1)
  }

  /** `carImageMap[key]`: the picture stored under `key`, if any. */
  function LookupModel(key: string): (r: Option<string>)
    ensures r.Some? <==> exists i :: 0 <= i < |ModelTable| && ModelTable[i].key == key
    ensures r.Some? ==> IsModelImage(r.value)
  {
    LookupModelFrom(key, 0)
  }

  function LookupModelFrom(key: string, k: nat): (r: Option<string>)
    requires k <= |ModelTable|
    ensures r.Some? <==> exists i :: k <= i < |ModelTable| && ModelTable[i].key == key
    ensures r.Some? ==> IsModelImage(r.value)
    decreases |ModelTable| - k
  {
    if k == |ModelTable| then None
    else if ModelTable[k].key == key then Some(ModelUrl(ModelTable[k].site, ModelTable[k].slug))
    else LookupModelFrom(key, k + 1)
  }

  /** `brandFallbackImages[make]`: the brand's photo, if the brand is listed. */
  function LookupBrand(make: string): (r: Option<string>)
    ensures r.Some? <==> exists i :: 0 <= i < |BrandTable| && BrandTable[i].0 == make
    ensures r.Some? ==> IsBrandImage(r.value)
  {
    LookupBrandFrom(make, 0)
  }

  function LookupBrandFrom(make: string, k: nat): (r: Option<string>)
    requires k <= |BrandTable|
    ensures r.Some? <==> exists i :: k <= i < |BrandTable| && BrandTable[i].0 == make
    ensures r.Some? ==> IsBrandImage(r.value)
    decreases |BrandTable| - k
  {
    if k == |BrandTable| then None
    else if BrandTable[k].0 == make then Some(UnsplashUrl(BrandTable[k].1))
    else LookupBrandFrom(make, k + 1)
  }

  // ---------------------------------------------------------------------
  // getCarImage
  // ---------------------------------------------------------------------

  /** `make.toLowerCase().trim()` (and the same for the model). */
  function NormalizeName(s: string): string {
    Trim(Lower(s))
  }

  /** The exact key `${normalizedMake} ${normalizedModel}`. */
  function CarKey(make: string, model: string): string {
    NormalizeName(make) + " " + NormalizeName(model)
  }

  /** The keys tried in order, from the normalised make and model: the
      exact key, the model with its first '-' made a space, the model with
      its first space made a '-', and the bare model. */
  function Variations(nm: string, nmod: string): (r: seq<string>)
    ensures |r| == 4 && r[0] == nm + " " + nmod && r[3] == nmod
  {
    [nm + " " + nmod, nm + " " + ReplaceFirst(nmod, "-", " "), nm + " " + ReplaceFirst(nmod, " ", "-"), nmod]
  }

  /** The picture of the first key that has one. */
  function FirstModelImage(keys: seq<string>): (r: Option<string>)
    ensures r.None? <==> forall i :: 0 <= i < |keys| ==> LookupModel(keys[i]).None?
    ensures r.Some? ==> exists i :: 0 <= i < |keys| && r == LookupModel(keys[i])
                          && forall j :: 0 <= j < i ==> LookupModel(keys[j]).None?
  {
    match First(keys, k => LookupModel(k).Some?)
    case None => None
    case Some(i) => LookupModel(keys[i])
  }

  /** The lookup chain for a normalised make and model: the model table
      under each variation, then the brand table, then the default. */
  function ImageFor(nm: string, nmod: string): (r: string)
    ensures IsModelImage(r) || IsBrandImage(r) || r == DefaultCarImage
    ensures LookupModel(nm + " " + nmod).Some? ==> r == LookupModel(nm + " " + nmod).value
    ensures FirstModelImage(Variations(nm, nmod)).Some? ==> r == FirstModelImage(Variations(nm, nmod)).value
    ensures (forall i :: 0 <= i < 4 ==> LookupModel(Variations(nm, nmod)[i]).None?) ==>
              r == if LookupBrand(nm).Some? then LookupBrand(nm).value else DefaultCarImage
  {
    match FirstModelImage(Variations(nm, nmod))
    case Some(u) => u
    case None =>
      match LookupBrand(nm)
      case Some(u) => u
      case None => DefaultCarImage
  }

  /** `getCarImage(make, model)` on strings, "" standing for a falsy
      argument: the default when either is missing, otherwise the lookup
      chain on the lower-cased, trimmed names. */
  function GetCarImage(make: string, model: string): (r: string)
    ensures make == "" || model == "" ==> r == DefaultCarImage
    ensures IsModelImage(r) || IsBrandImage(r) || r == DefaultCarImage
    ensures make != "" && model != "" ==> r == ImageFor(NormalizeName(make), NormalizeName(model))
  {
    if make == "" || model == "" then DefaultCarImage
    else ImageFor(NormalizeName(make), NormalizeName(model))
  }

  /** The exact key, when the table has it, wins over every other lookup. */
  lemma ExactKeyWins(make: string, model: string)
    requires make != "" && model != "" && LookupModel(CarKey(make, model)).Some?
    ensures GetCarImage(make, model) == LookupModel(CarKey(make, model)).value
  {
  }

  /** Only the case of the make and model matters: lower-casing the
      arguments first changes nothing. */
  lemma GetCarImageIgnoresCase(make: string, model: string)
    ensures GetCarImage(Lower(make), Lower(model)) == GetCarImage(make, model)
  {
    LowerIdempotent(make);
    LowerIdempotent(model);
  }

  // ---------------------------------------------------------------------
  // getCarImages
  // ---------------------------------------------------------------------

  const Exterior1: string := "exterior-01"

  /** `[p, p.replace('exterior-01', v) for the three variants]` before the
      duplicates are dropped. */
  function Gallery(p: string): (r: seq<string>)
    ensures |r| == 4 && r[0] == p
  {
    [p, ReplaceFirst(p, Exterior1, "exterior-02"), ReplaceFirst(p, Exterior1, "interior-01"),
     ReplaceFirst(p, Exterior1, "interior-02")]
  }

  /** Equal-length infixes at the same place: the strings differ if the
      infixes do. */
  lemma InfixDiffers(a: string, x: string, y: string, b: string)
    requires |x| == |y| && x != y
    ensures a + x + b != a + y + b
  {
    assert (a + x + b)[|a|..|a| + |x|] == x;
    assert (a + y + b)[|a|..|a| + |y|] == y;
  }

  /** With "exterior-01" in the picture, the four gallery entries are
      pairwise different. */
  lemma GalleryDistinct(p: string)
    requires Includes(p, Exterior1)
    ensures NoDuplicates(Gallery(p))
  {
    var i := IndexOf(p, Exterior1);
    var a := p[..i];
    var b := p[i + |Exterior1|..];
    assert p == a + Exterior1 + b by {
      assert p[i..i + |Exterior1|] == Exterior1;
    }
    var vs := [Exterior1, "exterior-02", "interior-01", "interior-02"];
    var g := Gallery(p);
    assert forall k :: 0 <= k < 4 ==> g[k] == a + vs[k] + b;
    forall j, k | 0 <= j < k < 4
      ensures g[j] != g[k]
    {
      assert vs[j] != vs[k] by {
        assert vs[j][0] != vs[k][0] || vs[j][10] != vs[k][10];
      }
      InfixDiffers(a, vs[j], vs[k], b);
    }
  }

  /** Without "exterior-01" every replacement leaves the picture as it is,
      and one copy remains. */
  lemma GalleryCollapses(p: string)
    requires !Includes(p, Exterior1)
    ensures Distinct(Gallery(p)) == [p]
  {
    var g := Gallery(p);
    assert forall k :: 0 <= k < 4 ==> g[k] == p;
    var t3 := g[..3];
    var t2 := t3[..2];
    var t1 := t2[..1];
    DistinctDropRepeat(g);
    DistinctDropRepeat(t3);
    DistinctDropRepeat(t2);
    assert t1 == [p];
    assert NoDuplicates(t1);
  }

  /** A last element that already occurs earlier adds nothing. */
  lemma DistinctDropRepeat(s: seq<string>)
    requires |s| >= 2 && s[|s| - 1] == s[0]
    ensures Distinct(s) == Distinct(s[..|s| - 1])
  {
    assert s[|s| - 1] in s[..|s| - 1];
  }

  /** `getCarImages(make, model)`: the primary picture first, no duplicates,
      four entries when the primary is a maker's gallery picture (it holds
      "exterior-01") and the primary alone otherwise. */
  function GetCarImages(make: string, model: string): (r: seq<string>)
    ensures |r| > 0 && r[0] == GetCarImage(make, model)
    ensures NoDuplicates(r)
    ensures |r| == 4 <==> Includes(GetCarImage(make, model), Exterior1)
    ensures !Includes(GetCarImage(make, model), Exterior1) ==> r == [GetCarImage(make, model)]
    ensures Includes(GetCarImage(make, model), Exterior1) ==>
              var p := GetCarImage(make, model);
              r == [p, ReplaceFirst(p, Exterior1, "exterior-02"), ReplaceFirst(p, Exterior1, "interior-01"),
                    ReplaceFirst(p, Exterior1, "interior-02")]
    ensures forall i :: 0 <= i < |r| ==> r[i] in Gallery(GetCarImage(make, model))
  {
    var p := GetCarImage(make, model);
    if Includes(p, Exterior1) then
      GalleryDistinct(p);
      Distinct(Gallery(p))
    else
      GalleryCollapses(p);
      Distinct(Gallery(p))
  }

  /** A maker's gallery picture holds "exterior-01". */
  lemma ModelUrlHasExterior(site: string, slug: string)
    ensures Includes(ModelUrl(site, slug), Exterior1)
  {
    var u := ModelUrl(site, slug);
    var pre := "https://www." + site + ".com.br/content/dam/" + site + "/brazil/vehicles/"
               + slug + "/2024/gallery/exterior/" + slug + "-2024-";
    assert u == pre + Exterior1 + ".jpg";
    assert OccursAt(u, Exterior1, |pre|) by {
      assert u[|pre|..|pre| + |Exterior1|] == Exterior1;
    }
  }

  /** A stock photo never holds "exterior-01": it has no letter 'x' unless
      its id does. */
  lemma UnsplashLacksExterior(photo: string)
    requires 'x' !in photo
    ensures !Includes(UnsplashUrl(photo), Exterior1)
  {
    var u := UnsplashUrl(photo);
    assert 'x' !in "https://images.unsplash.com/photo-";
    assert 'x' !in "?w=800&h=600&fit=crop&crop=center";
    assert Exterior1[1] == 'x';
    LacksChar(u, Exterior1, 1);
  }

  lemma ModelImageHasExterior(u: string)
    requires IsModelImage(u)
    ensures Includes(u, Exterior1)
  {
    var i :| 0 <= i < |ModelTable| && u == ModelUrl(ModelTable[i].site, ModelTable[i].slug);
    ModelUrlHasExterior(ModelTable[i].site, ModelTable[i].slug);
  }

  lemma BrandImageLacksExterior(u: string)
    requires IsBrandImage(u)
    ensures !Includes(u, Exterior1)
  {
    var i :| 0 <= i < |BrandTable| && u == UnsplashUrl(BrandTable[i].1);
    BrandPhotosLackX();
    UnsplashLacksExterior(BrandTable[i].1);
  }

  /** No brand photo id has a letter 'x'. */
  lemma BrandPhotosLackX()
    ensures forall j :: 0 <= j < |BrandTable| ==> 'x' !in BrandTable[j].1
  {
  }

  lemma DefaultLacksExterior()
    ensures !Includes(DefaultCarImage, Exterior1)
  {
    UnsplashLacksExterior("1492144534655-ae79c964c9d7");
  }

  /** The gallery has four pictures exactly when the lookup chain ended in
      the model table, and one when it fell back to a brand photo or the
      default. */
  lemma GalleryFourIffModelImage(make: string, model: string)
    ensures |GetCarImages(make, model)| == 4 <==> IsModelImage(GetCarImage(make, model))
  {
    var p := GetCarImage(make, model);
    if IsModelImage(p) {
      ModelImageHasExterior(p);
    } else if IsBrandImage(p) {
      BrandImageLacksExterior(p);
    } else {
      DefaultLacksExterior();
    }
  }

  // ---------------------------------------------------------------------
  // Enrichment of car records
  // ---------------------------------------------------------------------

  /** `getCarImage` on dynamic arguments: a falsy make or model gives the
      default before anything else is read; a truthy argument that is not
      a string has no `toLowerCase` and the call throws. */
  function GetCarImageOf(make: Value, model: Value): (r: Result<string>)
    ensures !Truthy(make) || !Truthy(model) ==> r == Ok(DefaultCarImage)
    ensures r.Err? <==> Truthy(make) && Truthy(model) && !(make.Str? && model.Str?)
    ensures make.Str? && model.Str? ==> r == Ok(GetCarImage(make.s, model.s))
  {
    if !Truthy(make) || !Truthy(model) then
      FalsyNameDefault(make, model);
      Ok(DefaultCarImage)
    else if make.Str? && model.Str? then Ok(GetCarImage(make.s, model.s))
    else Err("TypeError")
  }

  /** An empty name string is falsy and gives the default. */
  lemma FalsyNameDefault(make: Value, model: Value)
    requires !Truthy(make) || !Truthy(model)
    ensures make.Str? && model.Str? ==> Ok(GetCarImage(make.s, model.s)) == Ok(DefaultCarImage)
  {
    if make.Str? && model.Str? {
      assert make.s == "" || model.s == "";
    }
  }

  function StrValues(ss: seq<string>): (r: seq<Value>)
    ensures |r| == |ss| && forall i :: 0 <= i < |ss| ==> r[i] == Str(ss[i])
  {
    if |ss| == 0 then [] else [Str(ss[0])] + StrValues(ss[1..])
  }

  /** `getCarImages` on dynamic arguments. */
  function GetCarImagesOf(make: Value, model: Value): (r: Result<seq<string>>)
    ensures r.Err? <==> GetCarImageOf(make, model).Err?
    ensures r.Ok? ==> |r.value| > 0 && r.value[0] == GetCarImageOf(make, model).value
  {
    if !Truthy(make) || !Truthy(model) then
      assert GetCarImage("", "") == DefaultCarImage;
      Ok(GetCarImages("", ""))
    else if make.Str? && model.Str? then Ok(GetCarImages(make.s, model.s))
    else Err("TypeError")
  }

  const ImageSource: string := "car_image_service"

  /** `{...car, image, images, imageSource: 'car_image_service'}`. */
  function WithImages(car: Value, image: string, images: seq<string>): (r: Value)
    ensures r.Obj? && r.fields.Keys == Spread(car).Keys + {"image", "images", "imageSource"}
    ensures r.fields["image"] == Str(image) && r.fields["imageSource"] == Str(ImageSource)
    ensures forall k :: k in Spread(car) && k !in {"image", "images", "imageSource"} ==>
              r.fields[k] == Spread(car)[k]
  {
    Obj(Spread(car) + map["image" := Str(image), "images" := Arr(StrValues(images)),
                          "imageSource" := Str(ImageSource)])
  }

  /** `enrichCarWithImage(car)`: a falsy car comes back as it is; any other
      car is copied with `image`, `images` and `imageSource` set. */
  function EnrichCarWithImage(car: Value): (r: Result<Value>)
    ensures !Truthy(car) ==> r == Ok(car)
    ensures r.Err? <==> Truthy(car) && GetCarImageOf(Get(car, "make"), Get(car, "model")).Err?
    ensures Truthy(car) && r.Ok? ==>
              r.value.Obj?
              && r.value.fields.Keys == Spread(car).Keys + {"image", "images", "imageSource"}
              && r.value.fields["image"] == Str(GetCarImageOf(Get(car, "make"), Get(car, "model")).value)
              && r.value.fields["imageSource"] == Str(ImageSource)
              && forall k :: k in Spread(car) && k !in {"image", "images", "imageSource"} ==>
                   r.value.fields[k] == Spread(car)[k]
  {
    if !Truthy(car) then Ok(car)
    else
      var make := Get(car, "make");
      var model := Get(car, "model");
      match GetCarImageOf(make, model)
      case Err(e) => Err(e)
      case Ok(image) =>
        Ok(WithImages(car, image, GetCarImagesOf(make, model).value))
  }

  /** `enrichCarsWithImages(cars)`: a non-array comes back as it is; an
      array is enriched element by element, in order, and the first
      element whose enrichment throws makes the whole call throw. */
  function EnrichCarsWithImages(cars: Value): (r: Result<Value>)
    ensures !cars.Arr? ==> r == Ok(cars)
    ensures cars.Arr? ==>
              (r.Err? <==> exists i :: 0 <= i < |cars.items| && EnrichCarWithImage(cars.items[i]).Err?)
    ensures cars.Arr? && r.Ok? ==>
              r.value.Arr? && |r.value.items| == |cars.items|
              && forall i :: 0 <= i < |cars.items| ==> Ok(r.value.items[i]) == EnrichCarWithImage(cars.items[i])
  {
    if !cars.Arr? then Ok(cars)
    else
      match EnrichAll(cars.items)
      case Ok(items) => Ok(Arr(items))
      case Err(e) => Err(e)
  }

  function EnrichAll(cars: seq<Value>): (r: Result<seq<Value>>)
    ensures r.Err? <==> exists i :: 0 <= i < |cars| && EnrichCarWithImage(cars[i]).Err?
    ensures r.Ok? ==> |r.value| == |cars|
                      && forall i :: 0 <= i < |cars| ==> Ok(r.value[i]) == EnrichCarWithImage(cars[i])
  {
    if |cars| == 0 then Ok([])
    else
      assert forall i :: 1 <= i < |cars| ==> cars[i] == cars[1..][i - 1];
      match EnrichCarWithImage(cars[0])
      case Err(e) => Err(e)
      case Ok(v) =>
        match EnrichAll(cars[1..])
        case Err(e) =>
          var i :| 0 <= i < |cars[1..]| && EnrichCarWithImage(cars[1..][i]).Err?;
          assert EnrichCarWithImage(cars[i + 1]).Err?;
          Err(e)
        case Ok(rest) => Ok([v] + rest)
  }
}

=== FILE: car_search.dfy ===
/** The search form of frontend/src/components/CarSearch.tsx: the filter
    object and how edits change it, the guard that asks for a filter before
    searching, the query string built from the filters, and whether a
    result card is already selected for comparison. The filter object is a
    list of entries in property order, which is the order
    `Object.entries` visits and so the order of the query string. */
module CarSearch {
  import opened Wrappers
  import opened JsText
  import opened JsValue

  type Entries = seq<(string, Value)>

  /** No property name occurs twice, as in any JavaScript object. */
  predicate UniqueKeys(e: Entries) {
    forall i, j :: 0 <= i < j < |e| ==> e[i].0 != e[j].0
  }

  /** Where the property `key` sits: the position of its entry, or the
      number of entries when there is none. */
  function KeyIndex(e: Entries, key: string): (r: nat)
    ensures r <= |e|
    ensures r < |e| ==> e[r].0 == key
    ensures forall j :: 0 <= j < r ==> e[j].0 != key
  {
    if |e| == 0 || e[0].0 == key then 0 else 1 + KeyIndex(e[1..], key)
  }

  /** A position holding `key` with no `key` before it is `KeyIndex`. */
  lemma KeyIndexIs(e: Entries, key: string, n: nat)
    requires n <= |e| && (n < |e| ==> e[n].0 == key)
    requires forall j :: 0 <= j < n ==> e[j].0 != key
    ensures KeyIndex(e, key) == n
  {
  }

  /** In an object, the entry holding `key` is the property `key`. */
  lemma KeyAt(e: Entries, i: nat)
    requires UniqueKeys(e) && i < |e|
    ensures KeyIndex(e, e[i].0) == i
  {
    KeyIndexIs(e, e[i].0, i);
  }

  /** `filters[key]`: `undefined` when there is no such property. */
  function Lookup(e: Entries, key: string): Value {
    var i := KeyIndex(e, key);
    if i < |e| then e[i].1 else Undefined
  }

  /** `{ ...e, [key]: v }`: an existing property keeps its place and takes
      the new value; a new one goes last. */
  function Set(e: Entries, key: string, v: Value): (r: Entries)
    requires UniqueKeys(e)
    ensures UniqueKeys(r)
  {
    var i := KeyIndex(e, key);
    if i < |e| then
      assert forall j :: 0 <= j < |e| ==> e[i := (key, v)][j].0 == e[j].0;
      e[i := (key, v)]
    else
      assert forall j :: 0 <= j < |e| ==> (e + [(key, v)])[j] == e[j];
      e + [(key, v)]
  }

  /** After `{ ...e, [key]: v }` the property `key` reads `v` and every
      other property reads as before. */
  lemma SetLookup(e: Entries, key: string, v: Value)
    requires UniqueKeys(e)
    ensures Lookup(Set(e, key, v), key) == v
    ensures forall k :: k != key ==> Lookup(Set(e, key, v), k) == Lookup(e, k)
  {
    var r := Set(e, key, v);
    var i := KeyIndex(e, key);
    KeyIndexIs(r, key, i);
    forall k | k != key
      ensures Lookup(r, k) == Lookup(e, k)
    {
      var n := KeyIndex(e, k);
      if n < |e| {
        KeyIndexIs(r, k, n);
      } else {
        KeyIndexIs(r, k, |r|);
      }
    }
  }

  // ---------------------------------------------------------------------
  // Defaults, handleFilterChange, clearFilters
  // ---------------------------------------------------------------------

  /** The initial filters, which `clearFilters` restores. */
  const DefaultFilters: Entries := [
    ("make", Str("")), ("model", Str("")), ("year", Undefined),
    ("fuel_type", Str("")), ("transmission", Str("")), ("limit", Num(20.0))]

  /** `handleFilterChange(key, value)`: an emptied control clears its
      filter to `undefined`; every other filter is left alone. */
  function HandleFilterChange(e: Entries, key: string, value: string): (r: Entries)
    requires UniqueKeys(e)
    ensures UniqueKeys(r)
    ensures value == "" ==> Lookup(r, key) == Undefined
    ensures value != "" ==> Lookup(r, key) == Str(value)
    ensures forall k :: k != key ==> Lookup(r, k) == Lookup(e, k)
  {
    SetLookup(e, key, if value == "" then Undefined else Str(value));
    Set(e, key, if value == "" then Undefined else Str(value))
  }

  /** What the search panel shows besides its filters. */
  datatype Panel = Panel(filters: Entries, error: Option<string>, results: seq<Value>)

  /** `clearFilters()`: the default filters, no error, no results. */
  function ClearFilters(p: Panel): (r: Panel)
    ensures r.error.None? && r.results == []
    ensures UniqueKeys(r.filters) && Lookup(r.filters, "limit") == Num(20.0)
    ensures forall k :: k in FilterKeys ==> !Truthy(Lookup(r.filters, k))
  {
    DefaultsUnique();
    DefaultsUnset();
    Panel(DefaultFilters, None, [])
  }

  lemma DefaultsUnique()
    ensures UniqueKeys(DefaultFilters)
  {
  }

  /** No search filter is set in the defaults, and the limit is 20. */
  lemma DefaultsUnset()
    ensures forall k :: k in FilterKeys ==> !Truthy(Lookup(DefaultFilters, k))
    ensures Lookup(DefaultFilters, "limit") == Num(20.0)
  {
  }

  // ---------------------------------------------------------------------
  // The query string
  // ---------------------------------------------------------------------

  /** The values a `SearchFilters` object holds: strings, whole numbers
      (year and limit) and `undefined`. */
  predicate FilterValue(v: Value) {
    v.Undefined? || v.Str? || (v.Num? && v.n == v.n.Floor as real)
  }

  predicate FilterValues(e: Entries) {
    forall i :: 0 <= i < |e| ==> FilterValue(e[i].1)
  }

  /** `value !== undefined && value !== ''` (a zero is kept). */
  predicate Kept(v: Value) {
    v != Undefined && v != Str("")
  }

  /** `value.toString()` on a filter value. */
  function ToText(v: Value): string
    requires FilterValue(v)
  {
    match v
    case Str(s) => s
    case Num(n) => IntToString(n.Floor)
    case _ => ""
  }

  /** The `URLSearchParams` that `searchCars` builds: one pair per kept
      filter, in property order. */
  function QueryParams(e: Entries): (r: seq<(string, string)>)
    requires FilterValues(e)
    ensures |r| <= |e|
    ensures forall i :: 0 <= i < |e| && Kept(e[i].1) ==> (e[i].0, ToText(e[i].1)) in r
    ensures forall i :: 0 <= i < |r| ==>
              exists j :: 0 <= j < |e| && Kept(e[j].1) && r[i] == (e[j].0, ToText(e[j].1))
  {
    if |e| == 0 then []
    else
      var rest := QueryParams(e[1..]);
      assert forall i :: 1 <= i < |e| ==> e[i] == e[1..][i - 1];
      if Kept(e[0].1) then [(e[0].0, ToText(e[0].1))] + rest else rest
  }

  /** The pairs keep the filters' order: the query of two filter lists
      one after the other is the two queries one after the other. */
  lemma {:induction false} QueryParamsAppend(a: Entries, b: Entries)
    requires FilterValues(a) && FilterValues(b)
    ensures FilterValues(a + b)
    ensures QueryParams(a + b) == QueryParams(a) + QueryParams(b)
  {
    assert FilterValues(a + b) by {
      assert forall i :: 0 <= i < |a + b| ==> (a + b)[i] == if i < |a| then a[i] else b[i - |a|];
    }
    if |a| > 0 {
      assert (a + b)[0] == a[0];
      assert (a + b)[1..] == a[1..] + b;
      QueryParamsAppend(a[1..], b);
    } else {
      assert a + b == b;
    }
  }

  /** Filters that are all `undefined` or empty give no query at all. */
  lemma {:induction false} NothingKept(e: Entries)
    requires FilterValues(e)
    requires forall i :: 0 <= i < |e| ==> !Kept(e[i].1)
    ensures QueryParams(e) == []
  {
    if |e| > 0 {
      NothingKept(e[1..]);
    }
  }

  /** A filter that is `undefined` or empty does not reach the query. */
  lemma ClearedFilterOmitted(e: Entries, key: string)
    requires FilterValues(e) && UniqueKeys(e)
    requires !Kept(Lookup(e, key))
    ensures forall i :: 0 <= i < |QueryParams(e)| ==> QueryParams(e)[i].0 != key
  {
    forall i | 0 <= i < |QueryParams(e)|
      ensures QueryParams(e)[i].0 != key
    {
      var j :| 0 <= j < |e| && Kept(e[j].1) && QueryParams(e)[i] == (e[j].0, ToText(e[j].1));
      KeyAt(e, j);
    }
  }

  // ---------------------------------------------------------------------
  // searchCars
  // ---------------------------------------------------------------------

  const FilterKeys: seq<string> := ["make", "model", "year", "fuel_type", "transmission"]

  const NeedFilterMessage := "Por favor, selecione pelo menos um filtro para buscar."

  /** None of the five search filters is set; the limit does not count. */
  predicate NoFilterSet(e: Entries) {
    forall k :: k in FilterKeys ==> !Truthy(Lookup(e, k))
  }

  /** How `searchCars(loadAll)` starts: it either shows the "pick a filter"
      message and stops, or sends the query. */
  datatype Step = AskForFilter(message: string) | Send(params: seq<(string, string)>)

  /** `searchCars(loadAll)` up to the request: without `loadAll` at least
      one of make, model, year, fuel type and transmission must be set;
      `loadAll` searches with every filter but the limit raised to 50. */
  function SearchCars(e: Entries, loadAll: bool): (r: Step)
    requires UniqueKeys(e) && FilterValues(e)
    ensures r.AskForFilter? <==> !loadAll && NoFilterSet(e)
    ensures r.AskForFilter? ==> r.message == NeedFilterMessage
    ensures r.Send? && !loadAll ==> r.params == QueryParams(e)
    ensures loadAll ==> r.Send? && LoadAllQuery(e, r.params)
    ensures loadAll ==> r.params == QueryParams(Set(e, "limit", Num(50.0)))
  {
    if !loadAll && NoFilterSet(e) then AskForFilter(NeedFilterMessage)
    else if loadAll then
      LoadAllParams(e);
      Send(QueryParams(Set(e, "limit", Num(50.0))))
    else Send(QueryParams(e))
  }

  /** `params` is the query of the filters `e` with the limit set to 50:
      it holds the pair ("limit", "50") and every kept filter other than the
      limit, and nothing else. */
  predicate LoadAllQuery(e: Entries, params: seq<(string, string)>)
    requires FilterValues(e)
  {
    && ("limit", "50") in params
    && (forall i :: 0 <= i < |e| && e[i].0 != "limit" && Kept(e[i].1) ==>
          (e[i].0, ToText(e[i].1)) in params)
    && (forall i :: 0 <= i < |params| ==>
          params[i] == ("limit", "50")
          || exists j :: 0 <= j < |e| && e[j].0 != "limit" && Kept(e[j].1) && params[i] == (e[j].0, ToText(e[j].1)))
  }

  /** The query "load all" sends is the load-all query of the filters. */
  lemma LoadAllParams(e: Entries)
    requires UniqueKeys(e) && FilterValues(e)
    ensures LoadAllQuery(e, QueryParams(Set(e, "limit", Num(50.0))))
  {
    LoadAllHas(e);
    LoadAllOnly(e);
  }

  /** The load-all query holds the raised limit and every other kept filter. */
  lemma LoadAllHas(e: Entries)
    requires UniqueKeys(e) && FilterValues(e)
    ensures ("limit", "50") in QueryParams(Set(e, "limit", Num(50.0)))
    ensures forall i :: 0 <= i < |e| && e[i].0 != "limit" && Kept(e[i].1) ==>
              (e[i].0, ToText(e[i].1)) in QueryParams(Set(e, "limit", Num(50.0)))
  {
    SetKeepsFilterValues(e, "limit", Num(50.0));
    SetContains(e, "limit", Num(50.0));
    assert ToText(Num(50.0)) == "50" by { NatToStringFifty(); }
  }

  /** Every pair of the load-all query is the raised limit or a kept filter
      other than the limit. */
  lemma LoadAllOnly(e: Entries)
    requires UniqueKeys(e) && FilterValues(e)
    ensures forall i :: 0 <= i < |QueryParams(Set(e, "limit", Num(50.0)))| ==>
              QueryParams(Set(e, "limit", Num(50.0)))[i] == ("limit", "50")
              || exists j :: 0 <= j < |e| && e[j].0 != "limit" && Kept(e[j].1)
                             && QueryParams(Set(e, "limit", Num(50.0)))[i] == (e[j].0, ToText(e[j].1))
  {
    var all := Set(e, "limit", Num(50.0));
    SetKeepsFilterValues(e, "limit", Num(50.0));
    SetContains(e, "limit", Num(50.0));
    assert ToText(Num(50.0)) == "50" by { NatToStringFifty(); }
    forall i | 0 <= i < |QueryParams(all)|
      ensures QueryParams(all)[i] == ("limit", "50")
              || exists j :: 0 <= j < |e| && e[j].0 != "limit" && Kept(e[j].1) && QueryParams(all)[i] == (e[j].0, ToText(e[j].1))
    {
      var k :| 0 <= k < |all| && Kept(all[k].1) && QueryParams(all)[i] == (all[k].0, ToText(all[k].1));
      if all[k] != ("limit", Num(50.0)) {
        var j :| 0 <= j < |e| && e[j] == all[k];
      }
    }
  }

  lemma NatToStringFifty()
    ensures IntToString(50) == "50"
  {
    assert NatToString(5) == "5";
  }

  /** Setting a filter value keeps the object a filter object. */
  lemma SetKeepsFilterValues(e: Entries, key: string, v: Value)
    requires UniqueKeys(e) && FilterValues(e) && FilterValue(v)
    ensures FilterValues(Set(e, key, v))
  {
    var r := Set(e, key, v);
    assert forall j :: 0 <= j < |r| ==> r[j] == (key, v) || r[j] == e[j];
  }

  /** `{ ...e, [key]: v }` holds the new entry and every entry of `e`
      under another key. */
  lemma SetContains(e: Entries, key: string, v: Value)
    requires UniqueKeys(e)
    ensures (key, v) in Set(e, key, v)
    ensures forall i :: 0 <= i < |e| && e[i].0 != key ==> e[i] in Set(e, key, v)
    ensures forall j :: 0 <= j < |Set(e, key, v)| ==>
              Set(e, key, v)[j] == (key, v) || (Set(e, key, v)[j] in e && Set(e, key, v)[j].0 != key)
  {
    var r := Set(e, key, v);
    var n := KeyIndex(e, key);
    assert r[n] == (key, v);
    assert forall i :: 0 <= i < |e| && e[i].0 != key ==> r[i] == e[i];
    assert forall j :: 0 <= j < |r| && j != n ==> r[j] == e[j] && e[j].0 != key;
  }

  /** Setting the key held at position `i` changes that entry alone. */
  lemma SetAt(e: Entries, i: nat, v: Value)
    requires UniqueKeys(e) && i < |e|
    ensures Set(e, e[i].0, v) == e[i := (e[i].0, v)]
  {
    KeyAt(e, i);
  }

  /** The limit is not one of the search filters: changing it never lets
      a search through or stops one. */
  lemma LimitAloneDoesNotCount(e: Entries, v: Value)
    requires UniqueKeys(e)
    ensures NoFilterSet(Set(e, "limit", v)) <==> NoFilterSet(e)
  {
    SetLookup(e, "limit", v);
    assert "limit" !in FilterKeys;
  }

  /** After `clearFilters` a plain search asks for a filter. */
  lemma ClearedSearchAsks(p: Panel)
    ensures SearchCars(ClearFilters(p).filters, false) == AskForFilter(NeedFilterMessage)
  {
  }

  /** "Load all" from filters that are all unset but a trailing limit
      sends the raised limit alone. */
  lemma LoadAllOnlyLimit(e: Entries)
    requires UniqueKeys(e) && FilterValues(e)
    requires |e| > 0 && e[|e| - 1].0 == "limit"
    requires forall i :: 0 <= i < |e| - 1 ==> !Kept(e[i].1)
    ensures SearchCars(e, true) == Send([("limit", "50")])
  {
    RaisedLimitLast(e);
    LimitAloneParams(e[..|e| - 1]);
  }

  /** Raising a trailing limit replaces the last entry. */
  lemma RaisedLimitLast(e: Entries)
    requires UniqueKeys(e)
    requires |e| > 0 && e[|e| - 1].0 == "limit"
    ensures Set(e, "limit", Num(50.0)) == e[..|e| - 1] + [("limit", Num(50.0))]
  {
    SetAt(e, |e| - 1, Num(50.0));
    assert e[|e| - 1 := ("limit", Num(50.0))] == e[..|e| - 1] + [("limit", Num(50.0))];
  }

  /** Unset filters followed by the raised limit give the limit alone. */
  lemma LimitAloneParams(pre: Entries)
    requires FilterValues(pre)
    requires forall i :: 0 <= i < |pre| ==> !Kept(pre[i].1)
    ensures FilterValues(pre + [("limit", Num(50.0))])
    ensures QueryParams(pre + [("limit", Num(50.0))]) == [("limit", "50")]
  {
    NothingKept(pre);
    RaisedLimitParams();
    QueryParamsAppend(pre, [("limit", Num(50.0))]);
  }

  lemma RaisedLimitParams()
    ensures FilterValues([("limit", Num(50.0))])
    ensures QueryParams([("limit", Num(50.0))]) == [("limit", "50")]
  {
    OneParam("limit", Num(50.0));
    NatToStringFifty();
  }

  /** A single kept filter gives a single pair. */
  lemma OneParam(key: string, v: Value)
    requires FilterValue(v) && Kept(v)
    ensures QueryParams([(key, v)]) == [(key, ToText(v))]
  {
    assert [(key, v)][1..] == [];
  }

  /** After `clearFilters`, "load all" sends only the raised limit. */
  lemma ClearedLoadAll(p: Panel)
    ensures SearchCars(ClearFilters(p).filters, true) == Send([("limit", "50")])
  {
    var d := ClearFilters(p).filters;
    assert FilterValues(d);
    LoadAllOnlyLimit(d);
  }

  // ---------------------------------------------------------------------
  // isCarSelected
  // ---------------------------------------------------------------------

  /** The comparison inside `isCarSelected`: by id when both cars have a
      truthy id, otherwise by make, model and year. */
  predicate SameCar(selected: Value, car: Value) {
    if Truthy(Get(selected, "id")) && Truthy(Get(car, "id")) then Get(selected, "id") == Get(car, "id")
    else Get(selected, "make") == Get(car, "make") && Get(selected, "model") == Get(car, "model")
         && Get(selected, "year") == Get(car, "year")
  }

  /** `isCarSelected(car)`: some selected car is the same car. */
  function IsCarSelected(selected: seq<Value>, car: Value): (r: bool)
    ensures r <==> exists i :: 0 <= i < |selected| && SameCar(selected[i], car)
  {
    if |selected| == 0 then false
    else
      assert forall i :: 1 <= i < |selected| ==> selected[i] == selected[1..][i - 1];
      SameCar(selected[0], car) || IsCarSelected(selected[1..], car)
  }

  /** A car added to the selection is shown as selected, and the relation
      is symmetric. */
  lemma SelectedOnceAdded(selected: seq<Value>, car: Value, other: Value)
    ensures IsCarSelected(selected + [car], car)
    ensures SameCar(car, other) <==> SameCar(other, car)
  {
    assert (selected + [car])[|selected|] == car;
  }

  /** Two cars with different truthy ids are never taken for each other,
      even when make, model and year agree. */
  lemma IdsDecide(a: Value, b: Value)
    requires Truthy(Get(a, "id")) && Truthy(Get(b, "id")) && Get(a, "id") != Get(b, "id")
    ensures !SameCar(a, b)
  {
  }
}

=== FILE: catalogue.dfy ===
/** The catalogue queries of src/services/vehicleService.js, run against the
    in-memory list of FIPE vehicles (a parameter here): the price-range
    search, the filtered name search with its relevance order, and the
    summary of the filters the catalogue offers. */
module Catalogue {
  import opened Wrappers
  import opened JsText
  import opened Arrays
  import opened FipeData
  import opened BrlPrice

  /** A number read from the request. `Text(n)` is a query-string value, the
      decimal text of `n`; `Absent` selects the default. */
  datatype QueryNumber = Absent | Number(n: int) | Text(value: nat)

  function NumberOr(q: QueryNumber, d: int): int {
    match q
    case Absent => d
    case Number(n) => n
    case Text(v) => v
  }

  /** One page of results and the size of the whole result list. */
  datatype Page = Page(total: nat, page: int, limit: int, data: seq<FipeVehicle>)

  /** `results.slice((page - 1) * limit, (page - 1) * limit + limit)`: for a
      page from 1 on, at most `limit` results, exactly `limit` while the
      results last, taken in order from the page's first position. */
  function Paginate(results: seq<FipeVehicle>, page: int, limit: int): (r: seq<FipeVehicle>)
    ensures page >= 1 && limit >= 0 ==> |r| <= limit
    ensures page >= 1 && limit >= 0 && (page - 1) * limit + limit <= |results| ==> |r| == limit
    ensures page >= 1 && limit >= 0 ==> forall i :: 0 <= i < |r| ==>
              (page - 1) * limit + i < |results| && r[i] == results[(page - 1) * limit + i]
  {
    var r := Slice(results, (page - 1) * limit, (page - 1) * limit + limit);
    PageWindowFacts(results, page, limit, r);
    r
  }

  lemma PageWindowFacts(results: seq<FipeVehicle>, page: int, limit: int, r: seq<FipeVehicle>)
    requires r == Slice(results, (page - 1) * limit, (page - 1) * limit + limit)
    ensures page >= 1 && limit >= 0 ==> |r| <= limit
    ensures page >= 1 && limit >= 0 && (page - 1) * limit + limit <= |results| ==> |r| == limit
    ensures page >= 1 && limit >= 0 ==> forall i :: 0 <= i < |r| ==>
              (page - 1) * limit + i < |results| && r[i] == results[(page - 1) * limit + i]
  {
    if page >= 1 && limit >= 0 {
      var start := (page - 1) * limit;
      PageStart(page, limit);
      Window(results, start, limit, r);
    }
  }

  /** The slice `r` from `start` of length `limit`, in terms of positions. */
  lemma Window(results: seq<FipeVehicle>, start: nat, limit: nat, r: seq<FipeVehicle>)
    requires r == Slice(results, start, start + limit)
    ensures |r| <= limit
    ensures start + limit <= |results| ==> |r| == limit
    ensures forall i :: 0 <= i < |r| ==> start + i < |results| && r[i] == results[start + i]
  {
    SliceClamped(results, start, start + limit);
  }

  /** For a page from 1 on and a limit that is not negative, the page is the
      window `[(page - 1) * limit, page * limit)` of the results, cut at
      their end. */
  lemma PageWindow(results: seq<FipeVehicle>, page: int, limit: int)
    requires page >= 1 && limit >= 0
    ensures Paginate(results, page, limit)
         == results[Min((page - 1) * limit, |results|)..Min(page * limit, |results|)]
  {
    PageStart(page, limit);
    SliceClamped(results, (page - 1) * limit, (page - 1) * limit + limit);
  }

  function Min(a: int, b: int): int { if a <= b then a else b }

  lemma PageStart(page: int, limit: int)
    requires page >= 1 && limit >= 0
    ensures (page - 1) * limit >= 0 && (page - 1) * limit + limit == page * limit
  {
  }

  /** `slice` with bounds in order and not negative: both are clamped to
      the length. */
  lemma SliceClamped<T>(s: seq<T>, start: nat, end: int)
    requires start <= end
    ensures Slice(s, start, end) == s[Min(start, |s|)..Min(end, |s|)]
  {
  }

  // ---------------------------------------------------------------------
  // searchByPriceRange
  // ---------------------------------------------------------------------

  const PriceTypes: seq<string> := ["carros", "motos", "caminhoes"]

  /** `valorNumerico >= minPrice && valorNumerico <= maxPrice`; a price that
      does not parse is NaN and fails both. `maxPrice` None is `Infinity`. */
  predicate InPriceRange(v: FipeVehicle, tipo: string, minPrice: real, maxPrice: Option<real>) {
    v.tipo == tipo
    && ParseValor(v.valor).Some?
    && minPrice <= ParseValor(v.valor).value
    && (maxPrice.None? || ParseValor(v.valor).value <= maxPrice.value)
  }

  /** The vehicles `filter` keeps: each kept vehicle as often as the
      catalogue holds it, and no other. */
  function PriceMatches(cat: seq<FipeVehicle>, tipo: string, minPrice: real, maxPrice: Option<real>): (r: seq<FipeVehicle>)
    ensures forall v :: v in r <==> v in cat && InPriceRange(v, tipo, minPrice, maxPrice)
    ensures forall v :: multiset(r)[v] == if InPriceRange(v, tipo, minPrice, maxPrice) then multiset(cat)[v] else 0
    ensures |r| <= |cat|
  {
    var r := Filter(cat, PriceTest(tipo, minPrice, maxPrice));
    PriceFilterFacts(cat, tipo, minPrice, maxPrice, r);
    r
  }

  /** The callback given to `filter` in `searchByPriceRange`. */
  function PriceTest(tipo: string, minPrice: real, maxPrice: Option<real>): FipeVehicle -> bool {
    v => InPriceRange(v, tipo, minPrice, maxPrice)
  }

  /** What `filter` with the price callback keeps, by value and by count. */
  lemma PriceFilterFacts(cat: seq<FipeVehicle>, tipo: string, minPrice: real, maxPrice: Option<real>, r: seq<FipeVehicle>)
    requires r == Filter(cat, PriceTest(tipo, minPrice, maxPrice))
    ensures forall v :: v in r <==> v in cat && InPriceRange(v, tipo, minPrice, maxPrice)
    ensures forall v :: multiset(r)[v] == if InPriceRange(v, tipo, minPrice, maxPrice) then multiset(cat)[v] else 0
  {
    forall v | v in r ensures v in cat && InPriceRange(v, tipo, minPrice, maxPrice) {
      var i :| 0 <= i < |r| && r[i] == v;
    }
    forall v ensures multiset(r)[v] == if InPriceRange(v, tipo, minPrice, maxPrice) then multiset(cat)[v] else 0 {
      FilterCount(cat, PriceTest(tipo, minPrice, maxPrice), v);
    }
  }

  /** The matches keep catalogue order: those of a concatenation are the
      matches of each part in turn. */
  lemma PriceMatchesAppend(a: seq<FipeVehicle>, b: seq<FipeVehicle>, tipo: string, minPrice: real, maxPrice: Option<real>)
    ensures PriceMatches(a + b, tipo, minPrice, maxPrice) == PriceMatches(a, tipo, minPrice, maxPrice) + PriceMatches(b, tipo, minPrice, maxPrice)
  {
    FilterAppend(a, b, PriceTest(tipo, minPrice, maxPrice));
  }

  /** A single vehicle is kept exactly when it is in range. */
  lemma PriceMatchesOne(v: FipeVehicle, tipo: string, minPrice: real, maxPrice: Option<real>)
    ensures PriceMatches([v], tipo, minPrice, maxPrice) == if InPriceRange(v, tipo, minPrice, maxPrice) then [v] else []
  {
    assert [v][1..] == [];
  }

  /** `searchByPriceRange({type, minPrice = 0, maxPrice = Infinity, page = 1, limit = 10})`. */
  function SearchByPriceRange(cat: seq<FipeVehicle>, tipo: string, minPrice: Option<real>,
                              maxPrice: Option<real>, page: QueryNumber, limit: QueryNumber): (r: Result<Page>)
    ensures r.Err? <==> tipo !in PriceTypes
    ensures r.Err? ==> r.error == "Tipo inválido. Esperado: carros, motos, caminhoes"
    ensures r.Ok? ==> r.value.total == |PriceMatches(cat, tipo, minPrice.GetOr(0.0), maxPrice)|
    ensures r.Ok? ==> r.value.data == Paginate(PriceMatches(cat, tipo, minPrice.GetOr(0.0), maxPrice), NumberOr(page, 1), NumberOr(limit, 10))
    ensures r.Ok? ==> r.value.page == NumberOr(page, 1) && r.value.limit == NumberOr(limit, 10)
    ensures r.Ok? ==> forall v :: v in r.value.data ==>
              v in cat && v.tipo == tipo && InPriceRange(v, tipo, minPrice.GetOr(0.0), maxPrice)
    ensures r.Ok? && NumberOr(limit, 10) >= 0 ==> |r.value.data| <= NumberOr(limit, 10)
  {
    if tipo !in PriceTypes then
      PriceTypesMessage();
      Err("Tipo inválido. Esperado: " + Join(PriceTypes, ", "))
    else
      var results := PriceMatches(cat, tipo, minPrice.GetOr(0.0), maxPrice);
      var p := NumberOr(page, 1);
      var l := NumberOr(limit, 10);
      PageOfMatches(cat, tipo, minPrice.GetOr(0.0), maxPrice, p, l);
      Ok(Page(|results|, p, l, Paginate(results, p, l)))
  }

  /** `searchByPriceRange` as written when `page` and `limit` may arrive as
      form text: the page is cut by `PaginateAsWritten`, so a text `limit`
      makes `start + limit` concatenate. It agrees with the numeric search
      whenever `limit` is not text. */
  function SearchByPriceRangeAsWritten(cat: seq<FipeVehicle>, tipo: string, minPrice: Option<real>,
                                       maxPrice: Option<real>, page: QueryNumber, limit: QueryNumber): (r: Result<Page>)
    ensures r.Err? <==> tipo !in PriceTypes
    ensures r.Err? ==> r.error == "Tipo inválido. Esperado: carros, motos, caminhoes"
    ensures r.Ok? ==> r.value.total == |PriceMatches(cat, tipo, minPrice.GetOr(0.0), maxPrice)|
    ensures r.Ok? ==> r.value.data == PaginateAsWritten(PriceMatches(cat, tipo, minPrice.GetOr(0.0), maxPrice), page, limit)
    ensures !limit.Text? ==> r == SearchByPriceRange(cat, tipo, minPrice, maxPrice, page, limit)
  {
    match SearchByPriceRange(cat, tipo, minPrice, maxPrice, page, limit)
    case Err(e) => Err(e)
    case Ok(p) => Ok(p.(data := PaginateAsWritten(PriceMatches(cat, tipo, minPrice.GetOr(0.0), maxPrice), page, limit)))
  }

  /** With `page` "2" and `limit` "5" over twelve matches the price-range
      search as written answers with seven vehicles, where the numeric
      search answers with five. */
  lemma PriceRangePageTwoOfFiveOverflows(cat: seq<FipeVehicle>, tipo: string, minPrice: Option<real>, maxPrice: Option<real>)
    requires tipo in PriceTypes
    ensures |PriceMatches(cat, tipo, minPrice.GetOr(0.0), maxPrice)| == 12 ==>
              |SearchByPriceRangeAsWritten(cat, tipo, minPrice, maxPrice, Text(2), Text(5)).value.data| == 7
              && |SearchByPriceRange(cat, tipo, minPrice, maxPrice, Text(2), Text(5)).value.data| == 5
  {
    if |PriceMatches(cat, tipo, minPrice.GetOr(0.0), maxPrice)| == 12 {
      PageTwoOfFiveOverflows(PriceMatches(cat, tipo, minPrice.GetOr(0.0), maxPrice));
    }
  }

  /** The error message lists the three accepted types. */
  lemma PriceTypesMessage()
    ensures "Tipo inválido. Esperado: " + Join(PriceTypes, ", ")
         == "Tipo inválido. Esperado: carros, motos, caminhoes"
  {
    assert Join(PriceTypes, ", ") == "carros, motos, caminhoes";
  }

  /** A page of the price matches holds only matching catalogue vehicles,
      and at most `limit` of them. */
  lemma PageOfMatches(cat: seq<FipeVehicle>, tipo: string, minPrice: real, maxPrice: Option<real>,
                      page: int, limit: int)
    ensures forall v :: v in Paginate(PriceMatches(cat, tipo, minPrice, maxPrice), page, limit) ==>
              v in cat && v.tipo == tipo && InPriceRange(v, tipo, minPrice, maxPrice)
    ensures limit >= 0 ==> |Paginate(PriceMatches(cat, tipo, minPrice, maxPrice), page, limit)| <= limit
  {
    var results := PriceMatches(cat, tipo, minPrice, maxPrice);
    var data := Paginate(results, page, limit);
    assert forall v :: v in data ==> v in results;
  }

  // ---------------------------------------------------------------------
  // searchVehicleByName
  // ---------------------------------------------------------------------

  /** The query of `searchVehicleByName`. Text filters are query-string
      values; "" stands for an absent (null) one. */
  datatype NameQuery = NameQuery(
    name: string, tipo: string, marca: string, anoMin: string, anoMax: string,
    precoMin: string, precoMax: string, page: QueryNumber, limit: QueryNumber)

  /** `a < b` where either side may be NaN (None): NaN compares false. */
  predicate LtNum(a: Option<real>, b: Option<real>) {
    a.Some? && b.Some? && a.value < b.value
  }

  predicate YearBelow(v: FipeVehicle, anoMin: string) {
    anoMin != "" && ParseInt(anoMin).Some? && v.anoModelo < ParseInt(anoMin).value
  }

  predicate YearAbove(v: FipeVehicle, anoMax: string) {
    anoMax != "" && ParseInt(anoMax).Some? && v.anoModelo > ParseInt(anoMax).value
  }

  /** The body of the `filter` callback: every filter that is set must
      accept the vehicle. `busca` is the normalised query. */
  predicate PassesFilters(v: FipeVehicle, q: NameQuery, busca: string) {
    (busca == "" || Includes(Normalize(v.marca + " " + v.modelo), busca))
    && (q.tipo == "" || v.tipo == q.tipo)
    && (q.marca == "" || Normalize(v.marca) == Normalize(q.marca))
    && !YearBelow(v, q.anoMin)
    && !YearAbove(v, q.anoMax)
    && (q.precoMin == "" || !LtNum(ParseValor(v.valor), ParseFloat(q.precoMin)))
    && (q.precoMax == "" || !LtNum(ParseFloat(q.precoMax), ParseValor(v.valor)))
  }

  /** The vehicles `filter` keeps, in catalogue order: written as its own
      recursion and shown to be `Filter` with the callback. */
  function NameMatches(cat: seq<FipeVehicle>, q: NameQuery, busca: string): (r: seq<FipeVehicle>)
    ensures forall v :: v in r <==> v in cat && PassesFilters(v, q, busca)
    ensures multiset(r) <= multiset(cat)
    ensures r == Filter(cat, v => PassesFilters(v, q, busca))
  {
    if |cat| == 0 then []
    else
      var rest := NameMatches(cat[1..], q, busca);
      assert cat == [cat[0]] + cat[1..];
      if PassesFilters(cat[0], q, busca) then [cat[0]] + rest else rest
  }

  /** The relevance order: vehicles whose normalised brand contains the
      query come first (rank 0), then by brand name. */
  function RelevanceKey(busca: string): FipeVehicle -> Key {
    (v: FipeVehicle) => Key(if busca != "" && Includes(Normalize(v.marca), busca) then 0 else 1, v.marca)
  }

  /** The comparator given to `sort`: with a query, a vehicle whose brand
      contains it goes before one whose brand does not; otherwise the
      brands are compared. Negative puts `a` first. */
  function RelevanceCompare(a: FipeVehicle, b: FipeVehicle, busca: string): int {
    var aMarca := busca != "" && Includes(Normalize(a.marca), busca);
    var bMarca := busca != "" && Includes(Normalize(b.marca), busca);
    if aMarca && !bMarca then -1
    else if !aMarca && bMarca then 1
    else LocaleCompare(a.marca, b.marca)
  }

  /** `a.localeCompare(b)`, by code point. */
  function LocaleCompare(a: string, b: string): int {
    if StrLt(a, b) then -1 else if a == b then 0 else 1
  }

  /** Sorting by `RelevanceKey` is sorting with the comparator: `a` goes
      first exactly when its key is smaller, and they tie exactly when the
      keys are equal. */
  lemma RelevanceKeyIsComparator(a: FipeVehicle, b: FipeVehicle, busca: string)
    ensures RelevanceCompare(a, b, busca) < 0 <==> KeyLt(RelevanceKey(busca)(a), RelevanceKey(busca)(b))
    ensures RelevanceCompare(a, b, busca) == 0 <==> RelevanceKey(busca)(a) == RelevanceKey(busca)(b)
  {
    StrLtIrreflexive(a.marca);
    if StrLt(a.marca, b.marca) {
      StrLtAsymmetric(a.marca, b.marca);
    }
  }

  /** A query that sets no filter keeps the whole catalogue, in order. */
  lemma {:induction false} UnsetFiltersKeepAll(cat: seq<FipeVehicle>, q: NameQuery)
    requires q.tipo == "" && q.marca == "" && q.anoMin == "" && q.anoMax == ""
    requires q.precoMin == "" && q.precoMax == ""
    ensures NameMatches(cat, q, "") == cat
  {
    FilterAll(cat, v => PassesFilters(v, q, ""));
  }

  /** The `filters` summary: the catalogue's types in first-seen order, its
      brands deduplicated and sorted, and its range of model years (None
      on an empty catalogue, where `Math.min()` is `Infinity`). */
  datatype Filters = Filters(tipos: seq<string>, marcas: seq<string>, anoMin: Option<int>, anoMax: Option<int>)

  function ByName(): string -> Key {
    (s: string) => Key(0, s)
  }

  lemma DistinctTipos(cat: seq<FipeVehicle>)
    ensures forall t :: t in Distinct(Tipos(cat)) <==> exists v :: v in cat && v.tipo == t
  {
    var tipos := Distinct(Tipos(cat));
    forall t | t in tipos ensures exists v :: v in cat && v.tipo == t {
      var i :| 0 <= i < |tipos| && tipos[i] == t;
      var j :| 0 <= j < |Tipos(cat)| && Tipos(cat)[j] == t;
      assert cat[j] in cat;
    }
    forall t | exists v :: v in cat && v.tipo == t ensures t in tipos {
      var v :| v in cat && v.tipo == t;
      var i :| 0 <= i < |cat| && cat[i] == v;
      assert Tipos(cat)[i] == t;
    }
  }

  lemma SortedMarcas(cat: seq<FipeVehicle>)
    ensures forall m :: m in SortBy(Distinct(Marcas(cat)), ByName()) <==> exists v :: v in cat && v.marca == m
  {
    var marcas := Distinct(Marcas(cat));
    var sorted := SortBy(marcas, ByName());
    forall m ensures m in sorted <==> m in marcas {
      assert m in sorted <==> m in multiset(sorted);
    }
    forall m | m in marcas ensures exists v :: v in cat && v.marca == m {
      var i :| 0 <= i < |marcas| && marcas[i] == m;
      var j :| 0 <= j < |Marcas(cat)| && Marcas(cat)[j] == m;
      assert cat[j] in cat;
    }
    forall m | exists v :: v in cat && v.marca == m ensures m in marcas {
      var v :| v in cat && v.marca == m;
      var i :| 0 <= i < |cat| && cat[i] == v;
      assert Marcas(cat)[i] == m;
    }
  }

  lemma AnosCover(cat: seq<FipeVehicle>)
    ensures forall v :: v in cat ==> v.anoModelo in Anos(cat)
    ensures forall y :: y in Anos(cat) ==> exists v :: v in cat && v.anoModelo == y
  {
    forall v | v in cat ensures v.anoModelo in Anos(cat) {
      var i :| 0 <= i < |cat| && cat[i] == v;
      assert Anos(cat)[i] == v.anoModelo;
    }
    forall y | y in Anos(cat) ensures exists v :: v in cat && v.anoModelo == y {
      var i :| 0 <= i < |Anos(cat)| && Anos(cat)[i] == y;
      assert cat[i] in cat;
    }
  }

  /** The year range of the catalogue: it exists exactly for a non-empty
      catalogue, its ends are years of some vehicle, and it contains every
      vehicle's year. */
  lemma YearRange(cat: seq<FipeVehicle>)
    ensures MinInt(Anos(cat)).Some? <==> |cat| > 0
    ensures MaxInt(Anos(cat)).Some? <==> |cat| > 0
    ensures |cat| > 0 ==> MinInt(Anos(cat)).value <= MaxInt(Anos(cat)).value
    ensures |cat| > 0 ==> forall v :: v in cat ==> MinInt(Anos(cat)).value <= v.anoModelo <= MaxInt(Anos(cat)).value
    ensures |cat| > 0 ==> exists v :: v in cat && v.anoModelo == MinInt(Anos(cat)).value
    ensures |cat| > 0 ==> exists v :: v in cat && v.anoModelo == MaxInt(Anos(cat)).value
  {
    AnosCover(cat);
    if |cat| > 0 {
      assert cat[0] in cat;
    }
  }

  function FiltersOf(cat: seq<FipeVehicle>): (r: Filters)
    ensures NoDuplicates(r.tipos) && forall t :: t in r.tipos <==> exists v :: v in cat && v.tipo == t
    ensures forall i, j :: 0 <= i < j < |r.tipos| ==> FirstIndex(Tipos(cat), r.tipos[i]) < FirstIndex(Tipos(cat), r.tipos[j])
    ensures SortedBy(r.marcas, ByName())
    ensures forall m :: m in r.marcas <==> exists v :: v in cat && v.marca == m
    ensures r.anoMin.Some? <==> |cat| > 0
    ensures r.anoMin.Some? ==> r.anoMax.Some? && r.anoMin.value <= r.anoMax.value
    ensures r.anoMin.Some? ==> forall v :: v in cat ==> r.anoMin.value <= v.anoModelo <= r.anoMax.value
    ensures r.anoMin.Some? ==> exists v :: v in cat && v.anoModelo == r.anoMin.value
    ensures r.anoMax.Some? ==> exists v :: v in cat && v.anoModelo == r.anoMax.value
  {
    DistinctTipos(cat);
    DistinctFirstSeen(Tipos(cat));
    SortedMarcas(cat);
    YearRange(cat);
    Filters(Distinct(Tipos(cat)), SortBy(Distinct(Marcas(cat)), ByName()), MinInt(Anos(cat)), MaxInt(Anos(cat)))
  }

  /** The result of `searchVehicleByName`. */
  datatype NameResult = NameResult(total: nat, page: int, limit: int, data: seq<FipeVehicle>, filters: Filters)

  /** `searchVehicleByName(query)`, with the page bounds computed as numbers
      (see `PageEndAsWritten` for what the source computes when `limit`
      arrives as query text). */
  function SearchVehicleByName(cat: seq<FipeVehicle>, q: NameQuery): (r: NameResult)
    ensures var busca := Normalize(q.name);
            var matches := NameMatches(cat, q, busca);
            var ordered := SortBy(matches, RelevanceKey(busca));
            && r.total == |matches|
            && r.data == Paginate(ordered, NumberOr(q.page, 1), NumberOr(q.limit, 10))
    ensures forall v :: v in r.data ==> v in cat && PassesFilters(v, q, Normalize(q.name))
    ensures r.filters == FiltersOf(cat)
  {
    var busca := Normalize(q.name);
    var matches := NameMatches(cat, q, busca);
    var ordered := SortBy(matches, RelevanceKey(busca));
    var p := NumberOr(q.page, 1);
    var l := NumberOr(q.limit, 10);
    var data := Paginate(ordered, p, l);
    assert forall v :: v in data ==> v in ordered;
    assert forall v :: v in ordered ==> v in matches by {
      forall v | v in ordered ensures v in matches {
        assert v in multiset(ordered);
      }
    }
    NameResult(|matches|, p, l, data, FiltersOf(cat))
  }

  /** The results are ordered as the comparator asks: brand matches of the
      query before the others, brands in order within each group, and
      vehicles with the same key in catalogue order. */
  lemma NameSearchOrder(cat: seq<FipeVehicle>, q: NameQuery)
    ensures var busca := Normalize(q.name);
            var ordered := SortBy(NameMatches(cat, q, busca), RelevanceKey(busca));
            && SortedBy(ordered, RelevanceKey(busca))
            && multiset(ordered) == multiset(NameMatches(cat, q, busca))
            && forall k :: WithKey(ordered, RelevanceKey(busca), k) == WithKey(NameMatches(cat, q, busca), RelevanceKey(busca), k)
  {
  }

  /** The filter summary ignores the query: it is the same for every query. */
  lemma FiltersIgnoreQuery(cat: seq<FipeVehicle>, q1: NameQuery, q2: NameQuery)
    ensures SearchVehicleByName(cat, q1).filters == SearchVehicleByName(cat, q2).filters
  {
  }

  // ---------------------------------------------------------------------
  // The page end as the source computes it
  // ---------------------------------------------------------------------

  /** `start + limit` when `limit` is query text: JavaScript concatenates
      the decimal text of `start` with the text of `limit`, and `slice`
      reads the result back as a number. */
  function PageEndAsWritten(start: int, limit: QueryNumber): int {
    match limit
    case Text(l) => ParseInt(IntToString(start) + NatToString(l)).GetOr(0)
    case _ => start + NumberOr(limit, 10)
  }

  /** The page the source returns. It is the numeric page whenever `limit`
      is not query text. */
  function PaginateAsWritten(results: seq<FipeVehicle>, page: QueryNumber, limit: QueryNumber): (r: seq<FipeVehicle>)
    ensures !limit.Text? ==> r == Paginate(results, NumberOr(page, 1), NumberOr(limit, 10))
  {
    var start := (NumberOr(page, 1) - 1) * NumberOr(limit, 10);
    Slice(results, start, PageEndAsWritten(start, limit))
  }

  /** With `?page=2&limit=5` over twelve results the source returns the
      seven results from the sixth on, not five: the end index is "5" + "5",
      that is 55. */
  lemma PageTwoOfFiveOverflows(results: seq<FipeVehicle>)
    requires |results| == 12
    ensures |PaginateAsWritten(results, Text(2), Text(5))| == 7
    ensures |Paginate(results, 2, 5)| == 5
  {
    PageTwoEndsAtFiftyFive(results);
    SliceToEnd(results, 5, 55);
    PageWindow(results, 2, 5);
  }

  lemma PageTwoEndsAtFiftyFive(results: seq<FipeVehicle>)
    ensures PaginateAsWritten(results, Text(2), Text(5)) == Slice(results, 5, 55)
  {
    StartFive();
    EndFiftyFive();
  }

  lemma StartFive()
    ensures (NumberOr(Text(2), 1) - 1) * NumberOr(Text(5), 10) == 5
  {
  }

  /** A slice whose end lies past the array runs to the array's end. */
  lemma SliceToEnd<T>(s: seq<T>, start: nat, end: int)
    requires start <= |s| <= end
    ensures Slice(s, start, end) == s[start..]
  {
  }

  lemma EndFiftyFive()
    ensures PageEndAsWritten(5, Text(5)) == 55
  {
    assert IntToString(5) == "5" == NatToString(5);
    assert NatToString(55) == "55";
    ParseIntNat(55);
  }

  /** The corrected page never holds more than `limit` results. */
  lemma PageAtMostLimit(results: seq<FipeVehicle>, page: int, limit: int)
    requires page >= 1 && limit >= 0
    ensures |Paginate(results, page, limit)| <= limit
  {
  }

  // ---------------------------------------------------------------------
  // getSearchFilters
  // ---------------------------------------------------------------------

  /** `vehicles.map(v => parseValor(v.Valor))`, None standing for NaN. */
  function Valores(cat: seq<FipeVehicle>): (r: seq<Option<real>>)
    ensures |r| == |cat| && forall i :: 0 <= i < |cat| ==> r[i] == ParseValor(cat[i].valor)
  {
    ParsedPrices(cat, ParseValor)
  }

  /** The price text of each vehicle read by `parse`, in catalogue order. */
  function ParsedPrices(cat: seq<FipeVehicle>, parse: string -> Option<real>): (r: seq<Option<real>>)
    ensures |r| == |cat| && forall i :: 0 <= i < |cat| ==> r[i] == parse(cat[i].valor)
  {
    if |cat| == 0 then [] else [parse(cat[0].valor)] + ParsedPrices(cat[1..], parse)
  }

  /** The numbers among `xs` (`filter(p => !isNaN(p))`). */
  function Numbers(xs: seq<Option<real>>): (r: seq<real>)
    ensures forall x :: x in r <==> Some(x) in xs
  {
    if |xs| == 0 then []
    else
      assert xs == [xs[0]] + xs[1..];
      match xs[0]
      case Some(x) => [x] + Numbers(xs[1..])
      case None => Numbers(xs[1..])
  }

  datatype SearchFilters = SearchFilters(filters: Filters, precoMin: Option<real>, precoMax: Option<real>)

  lemma PricesCover(cat: seq<FipeVehicle>)
    ensures forall v :: v in cat && ParseValor(v.valor).Some? ==> ParseValor(v.valor).value in Numbers(Valores(cat))
    ensures forall x :: x in Numbers(Valores(cat)) ==> exists v :: v in cat && ParseValor(v.valor) == Some(x)
    ensures (exists v :: v in cat && ParseValor(v.valor).Some?) <==> |Numbers(Valores(cat))| > 0
  {
    var valores := Valores(cat);
    forall x | x in Numbers(valores) ensures exists v :: v in cat && ParseValor(v.valor) == Some(x) {
      var i :| 0 <= i < |valores| && valores[i] == Some(x);
      assert cat[i] in cat;
    }
    forall v | v in cat && ParseValor(v.valor).Some?
      ensures ParseValor(v.valor).value in Numbers(valores)
    {
      var i :| 0 <= i < |cat| && cat[i] == v;
      assert valores[i] == Some(ParseValor(v.valor).value);
    }
    if |Numbers(valores)| > 0 {
      var x := Numbers(valores)[0];
      assert Some(x) in valores;
      var i :| 0 <= i < |valores| && valores[i] == Some(x);
      assert cat[i] in cat && ParseValor(cat[i].valor).Some?;
    }
  }

  /** `getSearchFilters()`. Price bounds are None when no price parses. */
  function GetSearchFilters(cat: seq<FipeVehicle>): (r: SearchFilters)
    ensures r.filters == FiltersOf(cat)
    ensures r.precoMin.Some? <==> exists v :: v in cat && ParseValor(v.valor).Some?
    ensures r.precoMin.Some? ==> r.precoMax.Some? && r.precoMin.value <= r.precoMax.value
    ensures r.precoMin.Some? ==> forall v :: v in cat && ParseValor(v.valor).Some? ==>
              r.precoMin.value <= ParseValor(v.valor).value <= r.precoMax.value
    ensures r.precoMin.Some? ==> exists v :: v in cat && ParseValor(v.valor) == r.precoMin
    ensures r.precoMax.Some? ==> exists v :: v in cat && ParseValor(v.valor) == r.precoMax
  {
    var valores := Valores(cat);
    var precos := Numbers(valores);
    PricesCover(cat);
    if |precos| == 0 then SearchFilters(FiltersOf(cat), None, None)
    else
      MinLeMax(precos);
      SearchFilters(FiltersOf(cat), Some(MinOf(precos)), Some(MaxOf(precos)))
  }
}

=== FILE: comparison_repository.dfy ===
/** src/repositories/comparisonRepository.js: an append-only, in-memory log
    of comparisons, with summary statistics and a newest-first history. The
    module-level array is threaded through explicitly as a `Log`. */
module ComparisonRepository {
  import opened Wrappers
  import opened JsText
  import opened FipeData

  /** A saved comparison: the pair form `{vehicle1, vehicle2, comparedAt}`
      written by `compareVehicles`, or the list form `{vehicles, comparedAt}`
      written by `compareMultipleVehicles`. An absent field is None. */
  datatype Comparison = Comparison(
    vehicle1: Option<FipeVehicle>,
    vehicle2: Option<FipeVehicle>,
    vehicles: Option<seq<FipeVehicle>>,
    comparedAt: int
  )

  type Log = seq<Comparison>

  /** `saveComparison(c)`: the record is appended and returned unchanged. */
  function SaveComparison(log: Log, c: Comparison): (r: (Comparison, Log))
    ensures r.0 == c
    ensures |r.1| == |log| + 1 && r.1[..|log|] == log && r.1[|log|] == c
  {
    (c, log + [c])
  }

  /** The array in the opposite order (`[...a].reverse()`). */
  function Reverse<T>(s: seq<T>): (r: seq<T>)
    ensures |r| == |s|
    ensures forall i :: 0 <= i < |s| ==> r[i] == s[|s| - 1 - i]
  {
    if |s| == 0 then [] else Reverse(s[1..]) + [s[0]]
  }

  lemma {:induction false} ReverseReverse<T>(s: seq<T>)
    ensures Reverse(Reverse(s)) == s
  {
    var r := Reverse(s);
    assert forall i :: 0 <= i < |s| ==> Reverse(r)[i] == r[|r| - 1 - i] == s[i];
  }

  /** The brands one saved comparison contributes to the tally, in the
      order they are counted: the pair form wins over the list form. */
  function BrandsOf(c: Comparison): (r: seq<string>)
    ensures c.vehicle1.Some? && c.vehicle2.Some? ==> r == [c.vehicle1.value.marca, c.vehicle2.value.marca]
    ensures !(c.vehicle1.Some? && c.vehicle2.Some?) && c.vehicles.Some? ==>
              |r| == |c.vehicles.value| && forall i :: 0 <= i < |r| ==> r[i] == c.vehicles.value[i].marca
    ensures !(c.vehicle1.Some? && c.vehicle2.Some?) && c.vehicles.None? ==> r == []
  {
    if c.vehicle1.Some? && c.vehicle2.Some? then [c.vehicle1.value.marca, c.vehicle2.value.marca]
    else if c.vehicles.Some? then Marcas(c.vehicles.value)
    else []
  }

  /** Every brand counted over the whole log, in `forEach` order. */
  function AllBrands(log: Log): seq<string> {
    if |log| == 0 then [] else AllBrands(log[..|log| - 1]) + BrandsOf(log[|log| - 1])
  }

  /** `counts[k] = (counts[k] || 0) + 1` over a sequence of keys: each key
      that occurs maps to the number of its occurrences, and no other key
      is present. */
  function Tally(keys: seq<string>): (r: map<string, nat>)
    ensures forall k :: k in r <==> k in keys
    ensures forall k :: k in r ==> r[k] == multiset(keys)[k]
  {
    if |keys| == 0 then map[]
    else
      var init := keys[..|keys| - 1];
      var last := keys[|keys| - 1];
      var t := Tally(init);
      assert keys == init + [last];
      var n: nat := if last in t then t[last] else 0;
      t[last := n + 1]
  }

  datatype Stats = Stats(totalComparisons: nat, mostComparedBrands: map<string, nat>, lastCompared: seq<Comparison>)

  /** `getStats()`. */
  function GetStats(log: Log): (r: Stats)
    ensures r.totalComparisons == |log|
    ensures |r.lastCompared| == if |log| < 5 then |log| else 5
    ensures forall i :: 0 <= i < |r.lastCompared| ==> r.lastCompared[i] == log[|log| - 1 - i]
    ensures forall b :: b in r.mostComparedBrands ==> r.mostComparedBrands[b] == multiset(AllBrands(log))[b]
    ensures forall b :: b in r.mostComparedBrands <==> b in AllBrands(log)
  {
    var last := Slice(log, -5, |log|);
    assert last == if 5 <= |log| then log[|log| - 5..] else log by {
      SliceLast(log, 5);
    }
    ReverseSuffix(log, last);
    Stats(|log|, Tally(AllBrands(log)), Reverse(last))
  }

  /** The newest `k` records, newest first, are the log read backwards. */
  lemma ReverseSuffix<T>(s: seq<T>, t: seq<T>)
    requires |t| <= |s| && t == s[|s| - |t|..]
    ensures forall i :: 0 <= i < |t| ==> Reverse(t)[i] == s[|s| - 1 - i]
  {
    var k := |t|;
    forall i | 0 <= i < k
      ensures Reverse(t)[i] == s[|s| - 1 - i]
    {
      var j := k - 1 - i;
      assert Reverse(t)[i] == t[j];
      assert t[j] == s[|s| - k + j];
    }
  }

  /** `getHistory()`: every record, newest first; the log is not changed. */
  function GetHistory(log: Log): (r: seq<Comparison>)
    ensures |r| == |log|
    ensures forall i :: 0 <= i < |log| ==> r[i] == log[|log| - 1 - i]
  {
    Reverse(log)
  }

  /** Saving one comparison adds exactly its brands to the tally and puts
      it at the head of both newest-first views. */
  lemma SaveThenStats(log: Log, c: Comparison)
    ensures var after := SaveComparison(log, c).1;
            GetStats(after).totalComparisons == GetStats(log).totalComparisons + 1
            && GetStats(after).lastCompared[0] == c
            && GetHistory(after)[0] == c
            && multiset(AllBrands(after)) == multiset(AllBrands(log)) + multiset(BrandsOf(c))
  {
    var after := log + [c];
    assert after[..|after| - 1] == log;
  }
}

=== FILE: favorites_repository.dfy ===
/** src/repositories/favoritesRepository.js: an ordered, in-memory list of
    favourite vehicles. The id (`Date.now().toString()`) and the timestamp
    (`new Date()`) are parameters. */
module FavoritesRepository {
  import opened Wrappers
  import opened JsValue

  /** A favourite: the properties of the spread object literal. */
  type Favorite = map<string, Value>

  type Favorites = seq<Favorite>

  /** `{ id, ...vehicle, addedAt }`: later properties override earlier ones. */
  function MakeFavorite(id: string, vehicle: Value, addedAt: real): (r: Favorite)
    ensures r.Keys == {"id", "addedAt"} + Spread(vehicle).Keys
    ensures r["addedAt"] == Num(addedAt)
    ensures r["id"] == if "id" in Spread(vehicle) then Spread(vehicle)["id"] else Str(id)
    ensures forall k :: k in Spread(vehicle) && k != "addedAt" ==> r[k] == Spread(vehicle)[k]
  {
    map["id" := Str(id)] + Spread(vehicle) + map["addedAt" := Num(addedAt)]
  }

  /** `addFavorite(vehicle)`: appends exactly one record and returns it. */
  function AddFavorite(favs: Favorites, id: string, vehicle: Value, addedAt: real): (r: (Favorite, Favorites))
    ensures r.1 == favs + [r.0]
    ensures r.0 == MakeFavorite(id, vehicle, addedAt)
  {
    var f := MakeFavorite(id, vehicle, addedAt);
    (f, favs + [f])
  }

  /** `getFavorites()`: a copy, in insertion order. */
  function GetFavorites(favs: Favorites): (r: Favorites)
    ensures |r| == |favs| && forall i :: 0 <= i < |favs| ==> r[i] == favs[i]
  {
    favs[..]
  }

  /** `f.id === id` (properties absent from the record read as undefined). */
  predicate HasId(f: Favorite, id: Value) {
    (if "id" in f then f["id"] else Undefined) == id
  }

  /** `findIndex(f => f.id === id)`, -1 when there is none. */
  function FindIndex(favs: Favorites, id: Value): (r: int)
    ensures -1 <= r < |favs|
    ensures r == -1 <==> forall i :: 0 <= i < |favs| ==> !HasId(favs[i], id)
    ensures r >= 0 ==> HasId(favs[r], id) && forall i :: 0 <= i < r ==> !HasId(favs[i], id)
  {
    if |favs| == 0 then -1
    else if HasId(favs[0], id) then 0
    else
      var k := FindIndex(favs[1..], id);
      if k == -1 then -1 else k + 1
  }

  /** `deleteFavorite(id)`: removes the first record carrying the id and
      returns it; with no such record, returns null and changes nothing. */
  function DeleteFavorite(favs: Favorites, id: Value): (r: (Option<Favorite>, Favorites))
    ensures r.0.None? <==> forall i :: 0 <= i < |favs| ==> !HasId(favs[i], id)
    ensures r.0.None? ==> r.1 == favs
    ensures r.0.Some? ==> HasId(r.0.value, id) && |r.1| == |favs| - 1
    ensures r.0.Some? ==> exists k :: 0 <= k < |favs| && favs[k] == r.0.value
                            && (forall i :: 0 <= i < k ==> !HasId(favs[i], id))
                            && r.1 == favs[..k] + favs[k + 1..]
  {
    var k := FindIndex(favs, id);
    if k == -1 then (None, favs)
    else (Some(favs[k]), favs[..k] + favs[k + 1..])
  }

  /** Deleting right after adding a record whose id is fresh takes that
      record back out and restores the list. */
  lemma AddThenDelete(favs: Favorites, id: string, vehicle: Value, addedAt: real)
    requires forall i :: 0 <= i < |favs| ==> !HasId(favs[i], MakeFavorite(id, vehicle, addedAt)["id"])
    ensures var (f, after) := AddFavorite(favs, id, vehicle, addedAt);
            DeleteFavorite(after, f["id"]) == (Some(f), favs)
  {
    var (f, after) := AddFavorite(favs, id, vehicle, addedAt);
    var k := FindIndex(after, f["id"]);
    assert after[|favs|] == f;
    assert HasId(after[|favs|], f["id"]);
    assert forall i :: 0 <= i < |favs| ==> after[i] == favs[i];
    assert k == |favs|;
    assert after[..k] == favs;
    assert after[k + 1..] == [];
    assert after[..k] + after[k + 1..] == favs;
    assert DeleteFavorite(after, f["id"]) == (Some(f), favs);
  }

  /** Deleting removes one record and keeps the others in their order:
      only records carrying the id can disappear. */
  lemma DeleteKeepsOthers(favs: Favorites, id: Value)
    ensures multiset(DeleteFavorite(favs, id).1) <= multiset(favs)
    ensures forall f :: f in favs && !HasId(f, id) ==> f in DeleteFavorite(favs, id).1
  {
    var k := FindIndex(favs, id);
    if k >= 0 {
      assert favs == favs[..k] + [favs[k]] + favs[k + 1..];
      forall f | f in favs && !HasId(f, id)
        ensures f in favs[..k] + favs[k + 1..]
      {
        var j :| 0 <= j < |favs| && favs[j] == f;
        if j < k { assert favs[..k][j] == f; }
        else { assert j != k; assert favs[k + 1..][j - k - 1] == f; }
      }
    }
  }
}

=== FILE: fipe_data.dfy ===
/** The FIPE vehicle record as the services of src/services/vehicleService.js
    hold it, and the `normalize` used to compare brand and model names. */
module FipeData {
  import opened JsText

  /** A FIPE price-table entry, with every field present. The catalogue
      entries always carry all seven; the input objects of the comparisons
      may not, and an absent string field is written "" there. */
  datatype FipeVehicle = FipeVehicle(
    tipo: string,         // 'carros', 'motos' or 'caminhoes' in the catalogue
    valor: string,        // "R$ 45.000,00"
    marca: string,
    modelo: string,
    anoModelo: int,
    combustivel: string,
    codigoFipe: string
  )

  /** `vehicles.map(v => v.Marca)`. */
  function Marcas(vs: seq<FipeVehicle>): (r: seq<string>)
    ensures |r| == |vs| && forall i :: 0 <= i < |vs| ==> r[i] == vs[i].marca
  {
    if |vs| == 0 then [] else [vs[0].marca] + Marcas(vs[1..])
  }

  /** `vehicles.map(v => v.tipo)`. */
  function Tipos(vs: seq<FipeVehicle>): (r: seq<string>)
    ensures |r| == |vs| && forall i :: 0 <= i < |vs| ==> r[i] == vs[i].tipo
  {
    if |vs| == 0 then [] else [vs[0].tipo] + Tipos(vs[1..])
  }

  /** `vehicles.map(v => v.AnoModelo)`. */
  function Anos(vs: seq<FipeVehicle>): (r: seq<int>)
    ensures |r| == |vs| && forall i :: 0 <= i < |vs| ==> r[i] == vs[i].anoModelo
  {
    if |vs| == 0 then [] else [vs[0].anoModelo] + Anos(vs[1..])
  }

  // ---------------------------------------------------------------------
  // normalize: NFD decomposition, combining marks dropped, lower case
  // ---------------------------------------------------------------------

  /** The block U+0300..U+036F that `normalize` deletes after decomposing. */
  predicate IsCombiningMark(c: char) {
    0x300 <= c as int <= 0x36F
  }

  /** The base letter a Latin-1 letter decomposes to under NFD (its accent
      being a combining mark that is then dropped); other characters map to
      themselves. */
  function BaseLetter(c: char): (r: char)
    ensures !IsCombiningMark(r)  || r == c
    ensures IsCombiningMark(c) ==> r == c
  {
    var n := c as int;
    if 0xC0 <= n <= 0xC5 then 'A'
    else if n == 0xC7 then 'C'
    else if 0xC8 <= n <= 0xCB then 'E'
    else if 0xCC <= n <= 0xCF then 'I'
    else if n == 0xD1 then 'N'
    else if 0xD2 <= n <= 0xD6 then 'O'
    else if 0xD9 <= n <= 0xDC then 'U'
    else if n == 0xDD then 'Y'
    else if 0xE0 <= n <= 0xE5 then 'a'
    else if n == 0xE7 then 'c'
    else if 0xE8 <= n <= 0xEB then 'e'
    else if 0xEC <= n <= 0xEF then 'i'
    else if n == 0xF1 then 'n'
    else if 0xF2 <= n <= 0xF6 then 'o'
    else if 0xF9 <= n <= 0xFC then 'u'
    else if n == 0xFD || n == 0xFF then 'y'
    else c
  }

  /** A character `normalize` leaves alone. */
  predicate IsPlain(c: char) {
    !IsCombiningMark(c) && BaseLetter(c) == c && !IsUpper(c)
  }

  /** `normalize(text)`: every accented letter replaced by its lower-case
      base letter, combining marks removed, everything else lower-cased. */
  function Normalize(s: string): (r: string)
    ensures |r| <= |s|
    ensures forall i :: 0 <= i < |r| ==> IsPlain(r[i])
    ensures |s| == 1 && IsCombiningMark(s[0]) ==> r == []
    ensures |s| == 1 && !IsCombiningMark(s[0]) ==> r == [LowerChar(BaseLetter(s[0]))]
  {
    if |s| == 0 then []
    else if IsCombiningMark(s[0]) then Normalize(s[1..])
    else [LowerChar(BaseLetter(s[0]))] + Normalize(s[1..])
  }

  /** `normalize` works character by character: the normal form of a
      concatenation is the concatenation of the normal forms. With the
      one-character case of `Normalize`'s contract this fixes the result
      of every string. */
  lemma {:induction false} NormalizeAppend(a: string, b: string)
    ensures Normalize(a + b) == Normalize(a) + Normalize(b)
  {
    if |a| == 0 {
      assert a + b == b;
    } else {
      assert (a + b)[0] == a[0];
      assert (a + b)[1..] == a[1..] + b;
      NormalizeAppend(a[1..], b);
    }
  }

  /** A string of plain characters is its own normal form. */
  lemma {:induction false} NormalizePlain(s: string)
    requires forall i :: 0 <= i < |s| ==> IsPlain(s[i])
    ensures Normalize(s) == s
  {
    if |s| > 0 {
      NormalizePlain(s[1..]);
    }
  }

  /** `normalize` is idempotent. */
  lemma NormalizeIdempotent(s: string)
    ensures Normalize(Normalize(s)) == Normalize(s)
  {
    NormalizePlain(Normalize(s));
  }

  /** Case does not matter: lower-casing first gives the same normal form. */
  lemma {:induction false} NormalizeIgnoresCase(s: string)
    ensures Normalize(Lower(s)) == Normalize(s)
  {
    if |s| > 0 {
      assert Lower(s)[0] == LowerChar(s[0]);
      assert Lower(s)[1..] == Lower(s[1..]);
      LowerCharFolds(s[0]);
      NormalizeIgnoresCase(s[1..]);
    }
  }

  /** Accents do not matter: a letter and its base letter have the same
      normal form (and, by `NormalizeAppend`, so do words differing only in
      accents). */
  lemma AccentsDoNotMatter(c: char)
    ensures Normalize([BaseLetter(c)]) == Normalize([c])
  {
  }

  lemma LowerCharFolds(c: char)
    ensures IsCombiningMark(LowerChar(c)) == IsCombiningMark(c)
    ensures LowerChar(BaseLetter(LowerChar(c))) == LowerChar(BaseLetter(c))
  {
  }
}

=== FILE: fipe_helpers.dfy ===
/** The total lookup helpers of src/services/carApiServiceBrazil.js that turn
    a raw FIPE answer into the app's vocabulary: the price-string parse of
    `enrichFipeVehicleData`, fuel and vehicle-type normalisation, brand
    origin and warranty, feature tiers and seat estimates. */
module FipeHelpers {
  import opened Wrappers
  import opened JsText
  import BrlPrice
  import Arrays

  // ---------------------------------------------------------------------
  // Price parse in enrichFipeVehicleData
  // ---------------------------------------------------------------------

  /** The characters of the class `[R$\s.]` deleted before parsing. */
  predicate IsPriceNoise(c: char) {
    c == 'R' || c == '$' || IsSpace(c) || c == '.'
  }

  const DefaultPrice: string := "R$ 0,00"

  /** `parseFloat((price || 'R$ 0,00').replace(/[R$\s.]/g, '').replace(',', '.')) || 0`:
      an absent price ("") reads as the default, and a string with no
      number in it reads as 0. */
  function PriceNumber(price: string): (r: real)
    ensures ParseFloat(ReplaceFirst(RemoveWhere(if price == "" then DefaultPrice else price, IsPriceNoise), ",", ".")).None? ==> r == 0.0
    ensures ParseFloat(ReplaceFirst(RemoveWhere(if price == "" then DefaultPrice else price, IsPriceNoise), ",", ".")).Some? ==>
              r == ParseFloat(ReplaceFirst(RemoveWhere(if price == "" then DefaultPrice else price, IsPriceNoise), ",", ".")).value
    ensures NoDigit(price) && price != "" ==> r == 0.0
  {
    var s := if price == "" then DefaultPrice else price;
    NoiseFreeNoDigit(s);
    match ParseFloat(ReplaceFirst(RemoveWhere(s, IsPriceNoise), ",", "."))
    case None => 0.0
    case Some(v) => v
  }

  /** Deleting noise and swapping the comma adds no digit. */
  lemma NoiseFreeNoDigit(s: string)
    ensures NoDigit(s) ==> NoDigit(ReplaceFirst(RemoveWhere(s, IsPriceNoise), ",", "."))
  {
    if NoDigit(s) {
      RemoveWhereNoDigit(s, IsPriceNoise);
      ReplaceFirstNoDigit(RemoveWhere(s, IsPriceNoise), ",", ".");
    }
  }

  /** Deleting the noise class from a string whose only noise characters are
      dots is deleting the dots. */
  lemma {:induction false} NoiseIsDots(s: string)
    requires forall i :: 0 <= i < |s| ==> IsDigit(s[i]) || s[i] == '.'
    ensures RemoveWhere(s, IsPriceNoise) == RemoveWhere(s, BrlPrice.IsDot)
  {
    if |s| > 0 {
      NoiseIsDots(s[1..]);
    }
  }

  /** The noise-free tail ",dd" is kept as it is. */
  lemma CommaTailKept(p: string)
    requires AllDigits(p)
    ensures RemoveWhere("," + p, IsPriceNoise) == "," + p
  {
    RemoveWhereNone("," + p, IsPriceNoise);
  }

  /** "R$ " is pure noise. */
  lemma PrefixIsNoise()
    ensures RemoveWhere(BrlPrice.Prefix, IsPriceNoise) == ""
  {
    assert BrlPrice.Prefix[1..][1..][1..] == "";
  }

  /** A FIPE price rendered as "R$ 45.000,00" reads back as its amount. */
  lemma PriceNumberReadsFormatted(centavos: nat)
    ensures PriceNumber(BrlPrice.FormatValor(centavos)) == centavos as real / 100.0
  {
    var d := NatToString(centavos / 100);
    var p := BrlPrice.Pad2(centavos % 100);
    var g := BrlPrice.Group(d);
    var s := BrlPrice.FormatValor(centavos);
    assert s == BrlPrice.Prefix + (g + ("," + p));
    RemoveWhereAppend(BrlPrice.Prefix, g + ("," + p), IsPriceNoise);
    RemoveWhereAppend(g, "," + p, IsPriceNoise);
    PrefixIsNoise();
    NoiseIsDots(g);
    BrlPrice.GroupUndots(d);
    CommaTailKept(p);
    assert RemoveWhere(s, IsPriceNoise) == d + "," + p;
    BrlPrice.CommaToPoint(d, p);
    ParseFloatDecimal(d, p);
    BrlPrice.AmountValue(centavos);
  }

  /** The default price is the rendering of zero. */
  lemma DefaultIsZero()
    ensures BrlPrice.FormatValor(0) == DefaultPrice
  {
    assert NatToString(0) == "0";
    assert BrlPrice.Group("0") == "0";
    assert BrlPrice.Pad2(0) == "00";
  }

  /** A missing price is worth 0. */
  lemma MissingPriceIsZero()
    ensures PriceNumber("") == 0.0
  {
    assert PriceNumber("") == PriceNumber(DefaultPrice);
    DefaultIsZero();
    PriceNumberReadsFormatted(0);
  }

  // ---------------------------------------------------------------------
  // normalizeFuelType
  // ---------------------------------------------------------------------

  const FuelMap: map<string, string> :=
    map["Gasolina" := "Gasolina", "Álcool" := "Etanol", "Diesel" := "Diesel",
        "Flex" := "Flex", "Gas" := "Gasolina"]

  /** `fuelMap[fipeFuel] || 'Flex'`. */
  function NormalizeFuelType(fuel: string): (r: string)
    ensures r in {"Gasolina", "Etanol", "Diesel", "Flex"}
    ensures r == "Gasolina" <==> fuel == "Gasolina" || fuel == "Gas"
    ensures r == "Etanol" <==> fuel == "Álcool"
    ensures r == "Diesel" <==> fuel == "Diesel"
  {
    if fuel in FuelMap then FuelMap[fuel] else "Flex"
  }

  /** The fuels normalisation leaves unchanged are exactly Gasolina, Diesel
      and Flex: "Etanol", its own output, is not a key and becomes "Flex". */
  lemma NormalizeFuelFixedPoints(fuel: string)
    ensures NormalizeFuelType(fuel) == fuel <==> fuel in {"Gasolina", "Diesel", "Flex"}
  {
  }

  // ---------------------------------------------------------------------
  // getVehicleTypeFromFipe
  // ---------------------------------------------------------------------

  /** The FIPE vehicle-type code as the API sends it. A property lookup
      converts the key to a string, so the number 1 and the text "1" both
      find `typeMap[1]`. */
  datatype TypeCode = Number(n: int) | Text(s: string) | Missing

  function TypeKey(v: TypeCode): string {
    match v
    case Number(n) => IntToString(n)
    case Text(s) => s
    case Missing => "undefined"
  }

  /** `typeMap[vehicleType] || 'Carro'`. */
  function GetVehicleTypeFromFipe(v: TypeCode): (r: string)
    ensures r in {"Carro", "Moto", "Caminhão"}
    ensures r == "Moto" <==> TypeKey(v) == "2"
    ensures r == "Caminhão" <==> TypeKey(v) == "3"
  {
    var k := TypeKey(v);
    if k == "2" then "Moto" else if k == "3" then "Caminhão" else "Carro"
  }

  /** The numeric codes 1, 2 and 3 name car, motorcycle and truck, and any
      other number defaults to car. */
  lemma VehicleTypeCodes(n: int)
    ensures GetVehicleTypeFromFipe(Number(1)) == "Carro"
    ensures GetVehicleTypeFromFipe(Number(2)) == "Moto"
    ensures GetVehicleTypeFromFipe(Number(3)) == "Caminhão"
    ensures n != 2 && n != 3 ==> GetVehicleTypeFromFipe(Number(n)) == "Carro"
  {
    assert NatToString(1) == "1";
    assert NatToString(2) == "2";
    assert NatToString(3) == "3";
    if n != 2 && n != 3 {
      if 0 <= n < 10 {
        assert NatToString(n) == [DigitChar(n)];
      } else if n >= 10 {
        NatToStringValue(n);
      } else {
        assert IntToString(n)[0] == '-';
      }
    }
  }

  // ---------------------------------------------------------------------
  // getBrandOrigin, getBrandWarranty
  // ---------------------------------------------------------------------

  const NationalBrands: seq<string> := ["Volkswagen", "Chevrolet", "Fiat", "Ford"]
  const ImportedBrands: seq<string> := ["Toyota", "Honda", "Hyundai", "Nissan"]

  /** `brand.toLowerCase().includes(name.toLowerCase())`. */
  predicate Mentions(brand: string, name: string) {
    Includes(Lower(brand), Lower(name))
  }

  /** The index of the first name whose lower-cased form occurs in the
      lower-cased brand (`find` / `some` over a name list), if any. */
  function FirstMention(brand: string, names: seq<string>): (r: Option<nat>)
    ensures r.None? <==> forall i :: 0 <= i < |names| ==> !Mentions(brand, names[i])
    ensures r.Some? ==> r.value < |names| && Mentions(brand, names[r.value])
                        && forall j :: 0 <= j < r.value ==> !Mentions(brand, names[j])
  {
    Arrays.First(names, name => Mentions(brand, name))
  }

  /** `names.some(b => brand.toLowerCase().includes(b.toLowerCase()))`. */
  predicate MentionsAny(brand: string, names: seq<string>) {
    exists i :: 0 <= i < |names| && Includes(Lower(brand), Lower(names[i]))
  }

  /** `getBrandOrigin(brand)`: the national list is checked first, and a
      brand on neither list counts as national. */
  function GetBrandOrigin(brand: string): (r: string)
    ensures r == "Importado" <==> !MentionsAny(brand, NationalBrands) && MentionsAny(brand, ImportedBrands)
    ensures r != "Importado" ==> r == "Nacional"
  {
    if FirstMention(brand, NationalBrands).Some? then "Nacional"
    else if FirstMention(brand, ImportedBrands).Some? then "Importado"
    else "Nacional"
  }

  /** The keys of the warranty table, in its insertion order. Every entry
      maps to "3 anos" except the last, Hyundai, which maps to "5 anos". */
  const WarrantyBrands: seq<string> :=
    ["Volkswagen", "Chevrolet", "Fiat", "Ford", "Toyota", "Honda", "Hyundai"]

  /** `getBrandWarranty(brand)`: five years only for a Hyundai that no
      earlier entry claims; three years for everything else. */
  function GetBrandWarranty(brand: string): (r: string)
    ensures r == "5 anos" <==>
              Mentions(brand, WarrantyBrands[6]) && forall i :: 0 <= i < 6 ==> !Mentions(brand, WarrantyBrands[i])
    ensures r != "5 anos" ==> r == "3 anos"
  {
    FirstMentionIsLast(brand, WarrantyBrands);
    if FirstMention(brand, WarrantyBrands) == Some(6) then "5 anos" else "3 anos"
  }

  /** The last name is the first one mentioned exactly when it is
      mentioned and no earlier name is. */
  lemma FirstMentionIsLast(brand: string, names: seq<string>)
    requires |names| > 0
    ensures FirstMention(brand, names) == Some(|names| - 1) <==>
              Mentions(brand, names[|names| - 1]) && forall i :: 0 <= i < |names| - 1 ==> !Mentions(brand, names[i])
  {
  }

  // ---------------------------------------------------------------------
  // getBrazilianFeatures
  // ---------------------------------------------------------------------

  const BasicFeatures: seq<string> := ["Direção hidráulica", "Vidros elétricos", "Trava elétrica"]
  const MidFeatures: seq<string> := BasicFeatures + ["Ar condicionado", "Som MP3", "Airbag duplo"]
  const PremiumFeatures: seq<string> :=
    MidFeatures + ["Central multimídia", "Câmera de ré", "Sensores de estacionamento", "Controle de estabilidade"]

  /** `getBrazilianFeatures(model, price)`; the model is not consulted. */
  function GetBrazilianFeatures(price: real): (r: seq<string>)
    ensures BasicFeatures <= r
    ensures |r| == 3 <==> price <= 40000.0
    ensures price > 40000.0 ==> MidFeatures <= r
    ensures r == PremiumFeatures <==> price > 80000.0
  {
    if price > 80000.0 then PremiumFeatures
    else if price > 40000.0 then MidFeatures
    else BasicFeatures
  }

  /** A dearer car never gets fewer features: the tiers are prefixes of one
      another, so the cheaper list is a prefix of the dearer one. */
  lemma FeaturesMonotone(p: real, q: real)
    requires p <= q
    ensures GetBrazilianFeatures(p) <= GetBrazilianFeatures(q)
  {
  }

  // ---------------------------------------------------------------------
  // estimateSeatsFromModel, estimateSeatsFromType
  // ---------------------------------------------------------------------

  /** `estimateSeatsFromModel(model)`: seven seats for vans, five otherwise
      (the pickup/SUV branch also answers five). */
  function EstimateSeatsFromModel(model: string): (r: nat)
    ensures r == 7 <==> Includes(Lower(model), "van") || Includes(Lower(model), "kombi")
    ensures r != 7 ==> r == 5
  {
    var m := Lower(model);
    if Includes(m, "van") || Includes(m, "kombi") then 7
    else if Includes(m, "pickup") || Includes(m, "suv") then 5
    else 5
  }

  /** `estimateSeatsFromType(vehicleType)` on the English type names. */
  function EstimateSeatsFromType(vehicleType: string): (r: nat)
    ensures r == 2 <==> vehicleType == "motorcycles"
    ensures r == 3 <==> vehicleType == "trucks"
    ensures r in {2, 3, 5}
  {
    if vehicleType == "motorcycles" then 2
    else if vehicleType == "trucks" then 3
    else 5
  }
}

=== FILE: fipe_search.dfy ===
/** The FIPE search orchestration of src/services/carApiServiceBrazil.js:
    `smartCarSearch` and the three searches it dispatches to, with the
    catch-all fallback. The FIPE endpoints (behind the TTL cache) are
    parameters: each either answers or throws. */
module FipeSearch {
  import opened Wrappers
  import opened JsText
  import opened JsValue
  import opened Arrays
  import BrlPrice
  import FipeHelpers
  import CarImages

  /** An entry of a FIPE list: a brand, a model or a year, `{code, name}`. */
  datatype Named = Named(code: string, name: string)

  function NamedValue(n: Named): Value {
    Obj(map["code" := Str(n.code), "name" := Str(n.name)])
  }

  function NamedValues(ns: seq<Named>): (r: seq<Value>)
    ensures |r| == |ns| && forall i :: 0 <= i < |ns| ==> r[i] == NamedValue(ns[i])
  {
    if |ns| == 0 then [] else [NamedValue(ns[0])] + NamedValues(ns[1..])
  }

  /** The object every search resolves to. `data` is an array, except for a
      search by FIPE code, whose data is the single vehicle and which carries
      neither `total` nor `message`. */
  datatype SearchResult = SearchResult(
    success: bool,
    data: Value,
    total: Option<nat>,
    source: string,
    message: Option<string>
  )

  const FipeApi: string := "fipe_api"

  /** The FIPE endpoints as seen through the cache. `Err` is a thrown error
      (network failure, timeout, non-2xx answer, or the empty year list of
      an unknown FIPE code). `details` and `byCode` are the raw vehicle the
      API answers; `enrich` is `enrichFipeVehicleData` given the price
      formatter it calls, whose fallback id and estimates are drawn at
      random; `create` is `createVehicleFromFipeModel`, whose year, price
      and performance figures are drawn at random. */
  datatype Upstream = Upstream(
    brands: string -> Result<seq<Named>>,
    models: (string, string) -> Result<seq<Named>>,
    years: (string, string, string) -> Result<seq<Named>>,
    details: (string, string, string, string) -> Result<Value>,
    byCode: (string, string) -> Result<Value>,
    enrich: (Value, real -> string) -> Value,
    create: (Named, Named, string) -> Value
  )

  /** A fetched vehicle passed through `enrichFipeVehicleData`, which calls
      `formatPriceBRL`: the call throws a TypeError when the formatter is
      undefined (None). Only an enriched answer is ever cached. */
  function Enriched(fetched: Result<Value>, formatter: Option<real -> string>, up: Upstream): (r: Result<Value>)
    ensures r.Ok? <==> fetched.Ok? && formatter.Some?
    ensures fetched.Err? ==> r == fetched
    ensures r.Ok? ==> r.value == up.enrich(fetched.value, formatter.value)
  {
    match fetched
    case Err(e) => Err(e)
    case Ok(raw) =>
      match formatter
      case None => Err(NotAFunction)
      case Some(format) => Ok(up.enrich(raw, format))
  }

  const NotAFunction: string := "TypeError: formatPriceBRL is not a function"

  /** `getFipeVehicleDetails(type, brand, model, year)`. */
  function FipeVehicleDetails(vehicleType: string, brand: string, model: string, year: string,
                              formatter: Option<real -> string>, up: Upstream): (r: Result<Value>)
    ensures r.Ok? <==> up.details(vehicleType, brand, model, year).Ok? && formatter.Some?
    ensures r.Ok? ==> r.value == up.enrich(up.details(vehicleType, brand, model, year).value, formatter.value)
  {
    Enriched(up.details(vehicleType, brand, model, year), formatter, up)
  }

  /** `getFipeByCode(code, type)`. */
  function FipeByCode(code: string, vehicleType: string, formatter: Option<real -> string>, up: Upstream): (r: Result<Value>)
    ensures r.Ok? <==> up.byCode(code, vehicleType).Ok? && formatter.Some?
    ensures r.Ok? ==> r.value == up.enrich(up.byCode(code, vehicleType).value, formatter.value)
  {
    Enriched(up.byCode(code, vehicleType), formatter, up)
  }

  /** The query filters; "" is an absent (falsy) text, and `limit` is the raw
      query text, None when absent. */
  datatype Filters = Filters(
    vehicleType: string,
    fipeCode: string,
    make: string,
    model: string,
    limit: Option<string>
  )

  // ---------------------------------------------------------------------
  // Name matching
  // ---------------------------------------------------------------------

  /** `name.toLowerCase().includes(query.toLowerCase())`. */
  predicate NameContains(name: string, query: string) {
    Includes(Lower(name), Lower(query))
  }

  /** The make-only test: the name contains the query or the query contains
      the name. */
  predicate MatchesEither(query: string, name: string) {
    NameContains(name, query) || NameContains(query, name)
  }

  /** The brand a make-only search settles on: the first one matching in
      either direction. */
  function MakeOnlyBrand(make: string, brands: seq<Named>): (r: Option<Named>)
    ensures r.None? <==> forall i :: 0 <= i < |brands| ==> !MatchesEither(make, brands[i].name)
    ensures r.Some? ==> exists i :: 0 <= i < |brands| && brands[i] == r.value
                          && MatchesEither(make, r.value.name)
                          && forall j :: 0 <= j < i ==> !MatchesEither(make, brands[j].name)
  {
    match First(brands, (b: Named) => MatchesEither(make, b.name))
    case None => None
    case Some(i) => Some(brands[i])
  }

  /** The first entry whose name contains the query (one direction only),
      as the make-and-model search looks up both the brand and the model. */
  function FirstContaining(query: string, entries: seq<Named>): (r: Option<Named>)
    ensures r.None? <==> forall i :: 0 <= i < |entries| ==> !NameContains(entries[i].name, query)
    ensures r.Some? ==> exists i :: 0 <= i < |entries| && entries[i] == r.value
                          && NameContains(r.value.name, query)
                          && forall j :: 0 <= j < i ==> !NameContains(entries[j].name, query)
  {
    match First(entries, (e: Named) => NameContains(e.name, query))
    case None => None
    case Some(i) => Some(entries[i])
  }

  /** A query that strictly contains a brand's name finds it in a make-only
      search but not in a make-and-model search. */
  lemma OnlyMakeOnlyMatchesBothWays(make: string, b: Named)
    requires NameContains(make, b.name) && |b.name| < |make|
    ensures MakeOnlyBrand(make, [b]) == Some(b)
    ensures FirstContaining(make, [b]) == None
  {
    var k := IndexOf(Lower(b.name), Lower(make));
    assert k == -1;
  }

  // ---------------------------------------------------------------------
  // searchVehiclesByMake
  // ---------------------------------------------------------------------

  const MakeDefaultLimit: int := 10
  const MakeModelDefaultLimit: int := 5

  /** `models.map(model => createVehicleFromFipeModel(brand, model, type))`. */
  function CreateAll(brand: Named, models: seq<Named>, vehicleType: string, create: (Named, Named, string) -> Value): (r: seq<Value>)
    ensures |r| == |models|
    ensures forall i :: 0 <= i < |models| ==> r[i] == create(brand, models[i], vehicleType)
  {
    if |models| == 0 then []
    else [create(brand, models[0], vehicleType)] + CreateAll(brand, models[1..], vehicleType, create)
  }

  /** `searchVehiclesByMake(make, type, filters)`: the first brand matching in
      either direction, then the first `limit` of its models (default 10),
      each turned into a vehicle; `total` is the number returned. */
  function SearchVehiclesByMake(make: string, vehicleType: string, limit: Option<string>, up: Upstream): (r: Result<SearchResult>)
    ensures up.brands(vehicleType).Err? ==> r == Err(up.brands(vehicleType).error)
    ensures up.brands(vehicleType).Ok? && MakeOnlyBrand(make, up.brands(vehicleType).value).None? ==>
              r == Err("Marca " + make + " não encontrada")
    ensures r.Ok? ==>
              up.brands(vehicleType).Ok?
              && var brand := MakeOnlyBrand(make, up.brands(vehicleType).value);
                 brand.Some?
                 && up.models(vehicleType, brand.value.code).Ok?
                 && var models := up.models(vehicleType, brand.value.code).value;
                    var lim := IntOr(limit, MakeDefaultLimit);
                    r.value.success && r.value.source == FipeApi
                    && r.value.data.Arr? && r.value.total == Some(|r.value.data.items|)
                    && |r.value.data.items| == |Slice(models, 0, lim)|
                    && (lim >= 0 ==> |r.value.data.items| == if lim < |models| then lim else |models|)
                    && forall i :: 0 <= i < |r.value.data.items| ==>
                         r.value.data.items[i] == up.create(brand.value, models[i], vehicleType)
  {
    match up.brands(vehicleType)
    case Err(e) => Err(e)
    case Ok(brands) =>
      match MakeOnlyBrand(make, brands)
      case None => Err("Marca " + make + " não encontrada")
      case Some(brand) =>
        match up.models(vehicleType, brand.code)
        case Err(e) => Err(e)
        case Ok(models) =>
          var picked := Slice(models, 0, IntOr(limit, MakeDefaultLimit));
          var vehicles := CreateAll(brand, picked, vehicleType, up.create);
          Ok(SearchResult(true, Arr(vehicles), Some(|vehicles|), FipeApi,
                          Some(NatToString(|vehicles|) + " veículos encontrados para " + brand.name)))
  }

  // ---------------------------------------------------------------------
  // searchVehiclesByMakeModel
  // ---------------------------------------------------------------------

  predicate Succeeded<T>(x: Result<T>) {
    x.Ok?
  }

  /** The values of the calls that returned, in order; the ones that threw
      are skipped. */
  function OkValues<T>(rs: seq<Result<T>>): (r: seq<T>)
    ensures |r| <= |rs|
    ensures |r| == |Filter(rs, Succeeded)|
    ensures forall k :: 0 <= k < |r| ==> Filter(rs, Succeeded)[k] == Ok(r[k])
    ensures (forall i :: 0 <= i < |rs| ==> rs[i].Ok?) ==> |r| == |rs| && forall i :: 0 <= i < |rs| ==> rs[i] == Ok(r[i])
    ensures (forall i :: 0 <= i < |rs| ==> rs[i].Err?) ==> r == []
  {
    if |rs| == 0 then []
    else
      var rest := OkValues(rs[1..]);
      var r := if rs[0].Ok? then [rs[0].value] + rest else rest;
      OkValuesStep(rs, rest, r);
      OkValuesUniform(rs, rest, r);
      r
  }

  /** One step of `OkValues` when every call returned, or every call threw. */
  lemma OkValuesUniform<T>(rs: seq<Result<T>>, rest: seq<T>, r: seq<T>)
    requires |rs| > 0
    requires (forall i :: 0 <= i < |rs| - 1 ==> rs[1..][i].Ok?) ==>
               |rest| == |rs| - 1 && forall i :: 0 <= i < |rs| - 1 ==> rs[1..][i] == Ok(rest[i])
    requires (forall i :: 0 <= i < |rs| - 1 ==> rs[1..][i].Err?) ==> rest == []
    requires r == if rs[0].Ok? then [rs[0].value] + rest else rest
    ensures (forall i :: 0 <= i < |rs| ==> rs[i].Ok?) ==> |r| == |rs| && forall i :: 0 <= i < |rs| ==> rs[i] == Ok(r[i])
    ensures (forall i :: 0 <= i < |rs| ==> rs[i].Err?) ==> r == []
  {
    if forall i :: 0 <= i < |rs| ==> rs[i].Ok? {
      assert forall i :: 0 <= i < |rs| - 1 ==> rs[1..][i].Ok?;
      assert forall i :: 1 <= i < |rs| ==> rs[i] == rs[1..][i - 1];
    }
    if forall i :: 0 <= i < |rs| ==> rs[i].Err? {
      assert forall i :: 0 <= i < |rs| - 1 ==> rs[1..][i].Err?;
    }
  }

  /** One step of `OkValues`: from what holds of the tail's values to what
      holds of the whole sequence's. */
  lemma OkValuesStep<T>(rs: seq<Result<T>>, rest: seq<T>, r: seq<T>)
    requires |rs| > 0
    requires |rest| == |Filter(rs[1..], Succeeded)|
    requires forall k :: 0 <= k < |rest| ==> Filter(rs[1..], Succeeded)[k] == Ok(rest[k])
    requires r == if rs[0].Ok? then [rs[0].value] + rest else rest
    ensures |r| == |Filter(rs, Succeeded)|
    ensures forall k :: 0 <= k < |r| ==> Filter(rs, Succeeded)[k] == Ok(r[k])
  {
    var tail := Filter(rs[1..], Succeeded);
    if rs[0].Ok? {
      FilterCons(rs, Succeeded);
      ConsValues(rs[0], tail, rest);
    } else {
      FilterCons(rs, Succeeded);
    }
  }

  lemma ConsValues<T>(x: Result<T>, tail: seq<Result<T>>, rest: seq<T>)
    requires x.Ok? && |rest| == |tail| && forall k :: 0 <= k < |rest| ==> tail[k] == Ok(rest[k])
    ensures |[x.value] + rest| == |[x] + tail|
    ensures forall k :: 0 <= k < |[x] + tail| ==> ([x] + tail)[k] == Ok(([x.value] + rest)[k])
  {
  }

  /** The detail fetch for each year, in order. */
  function DetailCalls(vehicleType: string, brand: Named, model: Named, years: seq<Named>,
                       formatter: Option<real -> string>, up: Upstream): (r: seq<Result<Value>>)
    ensures |r| == |years|
    ensures forall i :: 0 <= i < |years| ==> r[i] == FipeVehicleDetails(vehicleType, brand.code, model.code, years[i].code, formatter, up)
  {
    seq(|years|, i requires 0 <= i < |years| => FipeVehicleDetails(vehicleType, brand.code, model.code, years[i].code, formatter, up))
  }

  /** The `for ... of` over the recent years with a `try` around each detail
      fetch: the enriched vehicles of the years whose fetch returns, in
      year order; a year whose fetch throws is skipped. */
  function CollectDetails(vehicleType: string, brand: Named, model: Named, years: seq<Named>,
                          formatter: Option<real -> string>, up: Upstream): (r: seq<Value>)
    ensures |r| <= |years|
    ensures var calls := DetailCalls(vehicleType, brand, model, years, formatter, up);
            |r| == |Filter(calls, Succeeded)| && forall k :: 0 <= k < |r| ==> Filter(calls, Succeeded)[k] == Ok(r[k])
    ensures (forall i :: 0 <= i < |years| ==> up.details(vehicleType, brand.code, model.code, years[i].code).Ok?) && formatter.Some? ==>
              |r| == |years| && forall i :: 0 <= i < |years| ==>
                r[i] == up.enrich(up.details(vehicleType, brand.code, model.code, years[i].code).value, formatter.value)
    ensures formatter.None? ==> r == []
  {
    OkValues(DetailCalls(vehicleType, brand, model, years, formatter, up))
  }

  const NoYears: string := "Nenhum ano encontrado para este modelo"

  /** `searchVehiclesByMakeModel(make, model, type, filters)`: brand and
      model are looked up by containment in one direction only; an empty
      year list is an error; the details of the first `limit` years
      (default 5) are fetched and the ones that fail are left out. A failed
      brand, model or year fetch rejects with its own error. */
  function SearchVehiclesByMakeModel(make: string, model: string, vehicleType: string, limit: Option<string>,
                                     formatter: Option<real -> string>, up: Upstream): (r: Result<SearchResult>)
    ensures up.brands(vehicleType).Err? ==> r == Err(up.brands(vehicleType).error)
    ensures up.brands(vehicleType).Ok? && FirstContaining(make, up.brands(vehicleType).value).None? ==>
              r == Err("Marca " + make + " não encontrada")
    ensures up.brands(vehicleType).Ok? && FirstContaining(make, up.brands(vehicleType).value).Some? ==>
              var brand := FirstContaining(make, up.brands(vehicleType).value).value;
              && (up.models(vehicleType, brand.code).Err? ==> r == Err(up.models(vehicleType, brand.code).error))
              && (up.models(vehicleType, brand.code).Ok? && FirstContaining(model, up.models(vehicleType, brand.code).value).None? ==>
                    r == Err("Modelo " + model + " não encontrado"))
              && (up.models(vehicleType, brand.code).Ok? && FirstContaining(model, up.models(vehicleType, brand.code).value).Some? ==>
                    var m := FirstContaining(model, up.models(vehicleType, brand.code).value).value;
                    && (up.years(vehicleType, brand.code, m.code).Err? ==> r == Err(up.years(vehicleType, brand.code, m.code).error))
                    && (up.years(vehicleType, brand.code, m.code) == Ok([]) ==> r == Err(NoYears))
                    && (up.years(vehicleType, brand.code, m.code).Ok? && |up.years(vehicleType, brand.code, m.code).value| > 0 ==> r.Ok?))
    ensures r.Ok? ==>
              up.brands(vehicleType).Ok?
              && var brand := FirstContaining(make, up.brands(vehicleType).value);
                 brand.Some?
                 && up.models(vehicleType, brand.value.code).Ok?
                 && var m := FirstContaining(model, up.models(vehicleType, brand.value.code).value);
                    m.Some?
                    && up.years(vehicleType, brand.value.code, m.value.code).Ok?
                    && var years := up.years(vehicleType, brand.value.code, m.value.code).value;
                       |years| > 0
                       && r.value.success && r.value.source == FipeApi
                       && r.value.data == Arr(CollectDetails(vehicleType, brand.value, m.value,
                                                             Slice(years, 0, IntOr(limit, MakeModelDefaultLimit)), formatter, up))
                       && r.value.total == Some(|r.value.data.items|)
                       && |r.value.data.items| <= |Slice(years, 0, IntOr(limit, MakeModelDefaultLimit))|
  {
    match up.brands(vehicleType)
    case Err(e) => Err(e)
    case Ok(brands) =>
      match FirstContaining(make, brands)
      case None => Err("Marca " + make + " não encontrada")
      case Some(brand) =>
        match up.models(vehicleType, brand.code)
        case Err(e) => Err(e)
        case Ok(models) =>
          match FirstContaining(model, models)
          case None => Err("Modelo " + model + " não encontrado")
          case Some(m) =>
            match up.years(vehicleType, brand.code, m.code)
            case Err(e) => Err(e)
            case Ok(years) =>
              if |years| == 0 then Err(NoYears)
              else
                var recent := Slice(years, 0, IntOr(limit, MakeModelDefaultLimit));
                var vehicles := CollectDetails(vehicleType, brand, m, recent, formatter, up);
                Ok(SearchResult(true, Arr(vehicles), Some(|vehicles|), FipeApi,
                                Some(NatToString(|vehicles|) + " versões encontradas para " + brand.name + " " + m.name)))
  }

  // ---------------------------------------------------------------------
  // getPopularBrands
  // ---------------------------------------------------------------------

  const PopularBrandNames: seq<string> :=
    ["Volkswagen", "Chevrolet", "Fiat", "Ford", "Toyota", "Honda", "Hyundai", "Nissan", "Renault", "Peugeot"]

  predicate IsPopular(b: Named) {
    FipeHelpers.MentionsAny(b.name, PopularBrandNames)
  }

  const PopularShown: int := 10

  /** `getPopularBrands(type)`: the brands naming one of the ten popular
      makes, at most ten of them in the data, while `total` counts them all. */
  function GetPopularBrands(vehicleType: string, up: Upstream): (r: Result<SearchResult>)
    ensures r.Err? <==> up.brands(vehicleType).Err?
    ensures r.Ok? ==>
              var popular := Filter(up.brands(vehicleType).value, IsPopular);
              r.value.success && r.value.source == FipeApi
              && r.value.total == Some(|popular|)
              && r.value.data.Arr? && |r.value.data.items| == (if |popular| < 10 then |popular| else 10)
              && forall i :: 0 <= i < |r.value.data.items| ==>
                   r.value.data.items[i] == NamedValue(popular[i])
                   && popular[i] in up.brands(vehicleType).value && IsPopular(popular[i])
  {
    match up.brands(vehicleType)
    case Err(e) => Err(e)
    case Ok(brands) =>
      var popular := Filter(brands, IsPopular);
      var shown := Slice(popular, 0, PopularShown);
      Ok(SearchResult(true, Arr(NamedValues(shown)), Some(|popular|), FipeApi, Some("Marcas populares no Brasil")))
  }

  /** A brand counts as popular exactly when its name mentions one of the
      ten makes, and every such brand of the FIPE list is counted. */
  lemma PopularBrandsCounted(vehicleType: string, up: Upstream, b: Named)
    requires up.brands(vehicleType).Ok? && b in up.brands(vehicleType).value && IsPopular(b)
    ensures b in Filter(up.brands(vehicleType).value, IsPopular)
  {
    var brands := up.brands(vehicleType).value;
    var i :| 0 <= i < |brands| && brands[i] == b;
  }

  // ---------------------------------------------------------------------
  // generateFallbackCars
  // ---------------------------------------------------------------------

  function FallbackCar(id: string, brand: string, model: string, price: string, priceNumber: real,
                       fipeCode: string, features: seq<string>, city: real, highway: real, combined: real,
                       power: real, torque: real, acceleration: real, maxSpeed: real, image: string): Value {
    Obj(map[
      "id" := Str(id), "brand" := Str(brand), "model" := Str(model), "year" := Num(2023.0),
      "price" := Str(price), "priceNumber" := Num(priceNumber), "fipeCode" := Str(fipeCode),
      "vehicleType" := Str("Carro"), "fuel" := Str("Flex"), "transmission" := Str("Manual"),
      "doors" := Num(4.0), "seats" := Num(5.0), "origin" := Str("Nacional"), "warranty" := Str("3 anos"),
      "features" := Arr(CarImages.StrValues(features)),
      "consumption" := Obj(map["city" := Num(city), "highway" := Num(highway), "combined" := Num(combined)]),
      "performance" := Obj(map["power" := Num(power), "torque" := Num(torque),
                               "acceleration" := Num(acceleration), "maxSpeed" := Num(maxSpeed)]),
      "image" := Str(image)
    ])
  }

  /** The two built-in cars, their prices rendered by `format` and their
      pictures chosen by `imageOf(make, model)`. */
  function FallbackCarsWith(format: real -> string, imageOf: (string, string) -> string): (r: seq<Value>)
    ensures |r| == 2
  {
    [FallbackCar("fallback_1", "Volkswagen", "Gol 1.0", format(45000.0), 45000.0, "FALLBACK001",
                 ["Direção hidráulica", "Vidros elétricos"], 12.0, 15.0, 13.0, 80.0, 110.0, 12.5, 170.0,
                 imageOf("Volkswagen", "Gol")),
     FallbackCar("fallback_2", "Chevrolet", "Onix 1.0", format(48000.0), 48000.0, "FALLBACK002",
                 ["Ar condicionado", "Central multimídia"], 13.0, 16.0, 14.0, 82.0, 112.0, 12.8, 175.0,
                 imageOf("Chevrolet", "Onix"))]
  }

  /** The price rendering the fallback cars are meant to carry:
      "R$ 45.000,00". */
  function FormatPriceBrl(x: real): string {
    BrlPrice.FormatAmount(x)
  }

  const FallbackCars: seq<Value> := FallbackCarsWith(FormatPriceBrl, CarImages.GetCarImage)

  const FallbackSource: string := "fallback"

  /** `slice(0, n)` of an array: a prefix, the whole array once `n` reaches
      its length. */
  lemma SlicePrefix<T>(s: seq<T>, n: int)
    ensures |Slice(s, 0, n)| <= |s|
    ensures forall i :: 0 <= i < |Slice(s, 0, n)| ==> Slice(s, 0, n)[i] == s[i]
    ensures n >= |s| ==> Slice(s, 0, n) == s
    ensures 0 < n < |s| ==> Slice(s, 0, n) == s[..n]
  {
  }

  /** The answer built from the car list: always a success from the
      fallback source counting every car, whose data is the first `limit`
      of them (default 10). */
  function FallbackResult(cars: seq<Value>, limit: Option<string>): (r: SearchResult)
    ensures r.success && r.source == FallbackSource && r.total == Some(|cars|)
    ensures r.message == Some("Dados de exemplo (fallback)")
    ensures r.data.Arr? && |r.data.items| <= |cars|
    ensures forall i :: 0 <= i < |r.data.items| ==> r.data.items[i] == cars[i]
    ensures IntOr(limit, 10) >= |cars| ==> r.data.items == cars
    ensures 0 < IntOr(limit, 10) < |cars| ==> r.data.items == cars[..IntOr(limit, 10)]
  {
    var lim := IntOr(limit, 10);
    SlicePrefix(cars, lim);
    SearchResult(true, Arr(Slice(cars, 0, lim)), Some(|cars|), FallbackSource, Some("Dados de exemplo (fallback)"))
  }

  /** `generateFallbackCars(filters)` with `formatPriceBRL` bound to
      `formatter`: building the car list calls the formatter, which throws
      a TypeError when it is undefined (None). */
  function GenerateFallbackCarsWith(formatter: Option<real -> string>, limit: Option<string>): (r: Result<SearchResult>)
    ensures r.Err? <==> formatter.None?
    ensures r.Ok? ==> r.value == FallbackResult(FallbackCarsWith(formatter.value, CarImages.GetCarImage), limit)
  {
    match formatter
    case None => Err("TypeError: formatPriceBRL is not a function")
    case Some(format) => Ok(FallbackResult(FallbackCarsWith(format, CarImages.GetCarImage), limit))
  }

  /** The module's `formatPriceBRL` as written: the name is destructured from
      the exports of src/services/carImageService.js, which do not include
      it, so it is `undefined`. */
  const ImportedPriceFormatter: Option<real -> string> := None

  /** `generateFallbackCars(filters)` as written. */
  function GenerateFallbackCarsAsWritten(limit: Option<string>): (r: Result<SearchResult>)
    ensures r.Err?
  {
    GenerateFallbackCarsWith(ImportedPriceFormatter, limit)
  }

  /** `generateFallbackCars(filters)` with the intended formatter, which
      renders 45000 as "R$ 45.000,00": both cars when no limit is given,
      only the first when the limit is 1. */
  function GenerateFallbackCars(limit: Option<string>): (r: SearchResult)
    ensures r.success && r.source == FallbackSource && r.total == Some(2)
    ensures r.data.Arr? && |r.data.items| <= 2
    ensures IntOr(limit, 10) >= 2 ==> r.data.items == FallbackCars
    ensures IntOr(limit, 10) == 1 ==> |r.data.items| == 1 && r.data.items[0] == FallbackCars[0]
    ensures limit.None? ==> r.data.items == FallbackCars
  {
    FallbackResult(FallbackCars, limit)
  }

  // ---------------------------------------------------------------------
  // smartCarSearch
  // ---------------------------------------------------------------------

  datatype Branch = ByCode | ByMake | ByMakeModel | Popular

  /** Which search `smartCarSearch` runs: a FIPE code wins; then a make
      without a model; then a make with a model; anything else (a model
      without a make included) lists the popular brands. */
  function Dispatch(f: Filters): (b: Branch)
    ensures b == ByCode <==> f.fipeCode != ""
    ensures b == ByMake <==> f.fipeCode == "" && f.make != "" && f.model == ""
    ensures b == ByMakeModel <==> f.fipeCode == "" && f.make != "" && f.model != ""
    ensures b == Popular <==> f.fipeCode == "" && f.make == ""
  {
    if f.fipeCode != "" then ByCode
    else if f.make != "" && f.model == "" then ByMake
    else if f.make != "" && f.model != "" then ByMakeModel
    else Popular
  }

  /** `filters.type || 'cars'`. */
  function VehicleTypeOf(f: Filters): (r: string)
    ensures r != ""
    ensures f.vehicleType != "" ==> r == f.vehicleType
    ensures r == "cars" <==> f.vehicleType == "" || f.vehicleType == "cars"
  {
    if f.vehicleType == "" then "cars" else f.vehicleType
  }

  /** The dispatched search, which may throw, with `formatPriceBRL` bound to
      `formatter`. */
  function RunBranch(f: Filters, formatter: Option<real -> string>, up: Upstream): (r: Result<SearchResult>)
    ensures r.Ok? ==> r.value.success && r.value.source == FipeApi
    ensures Dispatch(f) == ByCode ==> (r.Ok? <==> up.byCode(f.fipeCode, VehicleTypeOf(f)).Ok? && formatter.Some?)
    ensures Dispatch(f) == ByCode && r.Ok? ==>
              r.value == SearchResult(true, up.enrich(up.byCode(f.fipeCode, VehicleTypeOf(f)).value, formatter.value), None, FipeApi, None)
    ensures Dispatch(f) == ByMake ==> r == SearchVehiclesByMake(f.make, VehicleTypeOf(f), f.limit, up)
    ensures Dispatch(f) == ByMakeModel ==> r == SearchVehiclesByMakeModel(f.make, f.model, VehicleTypeOf(f), f.limit, formatter, up)
    ensures Dispatch(f) == Popular ==> r == GetPopularBrands(VehicleTypeOf(f), up)
    ensures Dispatch(f) == Popular ==> (r.Ok? <==> up.brands(VehicleTypeOf(f)).Ok?)
  {
    var t := VehicleTypeOf(f);
    match Dispatch(f)
    case ByCode =>
      (match FipeByCode(f.fipeCode, t, formatter, up)
       case Err(e) => Err(e)
       case Ok(v) => Ok(SearchResult(true, v, None, FipeApi, None)))
    case ByMake => SearchVehiclesByMake(f.make, t, f.limit, up)
    case ByMakeModel => SearchVehiclesByMakeModel(f.make, f.model, t, f.limit, formatter, up)
    case Popular => GetPopularBrands(t, up)
  }

  /** The formatter the module is meant to have in scope. */
  const IntendedFormatter: Option<real -> string> := Some(FormatPriceBrl)

  /** `smartCarSearch(filters)` with the price formatter in scope: always a
      success; the answer of the chosen search when it does not throw, and
      the fallback cars, and only those, when it does. */
  function SmartCarSearch(f: Filters, up: Upstream): (r: SearchResult)
    ensures r.success
    ensures r.source == FallbackSource <==> RunBranch(f, IntendedFormatter, up).Err?
    ensures RunBranch(f, IntendedFormatter, up).Ok? ==> r == RunBranch(f, IntendedFormatter, up).value
    ensures RunBranch(f, IntendedFormatter, up).Err? ==> r == GenerateFallbackCars(f.limit)
  {
    match RunBranch(f, IntendedFormatter, up)
    case Ok(res) => res
    case Err(_) => GenerateFallbackCars(f.limit)
  }

  /** `smartCarSearch` as written, with `formatPriceBRL` undefined: the
      enrichment of a fetched vehicle throws, and the `catch` calls the
      throwing `generateFallbackCars`, so a failed search rejects instead of
      degrading to the fallback cars. */
  function SmartCarSearchAsWritten(f: Filters, up: Upstream): (r: Result<SearchResult>)
    ensures RunBranch(f, ImportedPriceFormatter, up).Ok? ==> r == RunBranch(f, ImportedPriceFormatter, up)
    ensures RunBranch(f, ImportedPriceFormatter, up).Err? ==> r.Err?
  {
    match RunBranch(f, ImportedPriceFormatter, up)
    case Ok(res) => Ok(res)
    case Err(_) => GenerateFallbackCarsAsWritten(f.limit)
  }

  /** When every FIPE endpoint throws, the search as written rejects, while
      the intended search still answers with the fallback cars. */
  lemma FallbackAsWrittenThrows(f: Filters, up: Upstream)
    requires forall t :: up.brands(t).Err?
    requires forall c, t :: up.byCode(c, t).Err?
    ensures SmartCarSearchAsWritten(f, up).Err?
    ensures SmartCarSearch(f, up).success && SmartCarSearch(f, up).source == FallbackSource
    ensures SmartCarSearch(f, up) == GenerateFallbackCars(f.limit)
  {
    assert RunBranch(f, IntendedFormatter, up).Err? by {
      var t := VehicleTypeOf(f);
      match Dispatch(f)
      case ByCode =>
      case ByMake =>
        assert up.brands(t).Err?;
      case ByMakeModel =>
        assert up.brands(t).Err?;
      case Popular =>
    }
  }

  /** As written, a search by FIPE code never answers, whatever the API
      returns: the enrichment calls the undefined formatter, and so does the
      fallback. */
  lemma ByCodeAsWrittenRejects(f: Filters, up: Upstream)
    requires f.fipeCode != ""
    ensures RunBranch(f, ImportedPriceFormatter, up).Err?
    ensures SmartCarSearchAsWritten(f, up).Err?
  {
  }

  /** As written, a make-and-model search that answers lists no vehicle:
      every detail fetch throws in the enrichment and is skipped. */
  lemma MakeModelAsWrittenEmpty(f: Filters, up: Upstream)
    requires Dispatch(f) == ByMakeModel && RunBranch(f, ImportedPriceFormatter, up).Ok?
    ensures RunBranch(f, ImportedPriceFormatter, up).value.data == Arr([])
    ensures RunBranch(f, ImportedPriceFormatter, up).value.total == Some(0)
  {
  }

  /** With the formatter in scope, a FIPE code the API knows is answered
      with its enriched vehicle. */
  lemma ByCodeAnswers(f: Filters, up: Upstream)
    requires f.fipeCode != "" && up.byCode(f.fipeCode, VehicleTypeOf(f)).Ok?
    ensures SmartCarSearch(f, up)
         == SearchResult(true, up.enrich(up.byCode(f.fipeCode, VehicleTypeOf(f)).value, FormatPriceBrl), None, FipeApi, None)
  {
  }

  /** A model given without a make is ignored: the popular brands are listed. */
  lemma ModelWithoutMakeListsPopular(f: Filters, formatter: Option<real -> string>, up: Upstream)
    requires f.fipeCode == "" && f.make == "" && f.model != ""
    ensures RunBranch(f, formatter, up) == GetPopularBrands(VehicleTypeOf(f), up)
  {
  }
}

=== FILE: js_text.dfy ===
/** The JavaScript string and array built-ins the services lean on, stated
    over Dafny strings (`seq<char>`, one element per Unicode scalar value).

    Case mapping covers ASCII and the Latin-1 letters (the alphabet of the
    Brazilian catalogue); other scripts are outside the model. */
module JsText {
  import opened Wrappers

  // ---------------------------------------------------------------------
  // Characters
  // ---------------------------------------------------------------------

  predicate IsUpper(c: char) {
    ('A' <= c <= 'Z') || ('À' <= c <= 'Þ' && c != '×')
  }

  /** `String.prototype.toLowerCase` on one character. */
  function LowerChar(c: char): (r: char)
    ensures !IsUpper(c) ==> r == c
    ensures IsUpper(c) ==> r as int == c as int + 32
  {
    if IsUpper(c) then (c as int + 32) as char else c
  }

  /** `String.prototype.toLowerCase`. */
  function Lower(s: string): (r: string)
    ensures |r| == |s|
    ensures forall i :: 0 <= i < |s| ==> r[i] == LowerChar(s[i])
  {
    if |s| == 0 then [] else [LowerChar(s[0])] + Lower(s[1..])
  }

  lemma LowerAppend(a: string, b: string)
    ensures Lower(a + b) == Lower(a) + Lower(b)
  {
    assert forall i :: 0 <= i < |a + b| ==> Lower(a + b)[i] == (Lower(a) + Lower(b))[i];
  }

  /** Lower-casing twice is lower-casing once. */
  lemma LowerIdempotent(s: string)
    ensures Lower(Lower(s)) == Lower(s)
  {
  }

  /** The characters `\s` matches and `trim` removes: WhiteSpace and
      LineTerminator of the ECMAScript grammar. */
  predicate IsSpace(c: char) {
    var n := c as int;
    n == 0x09 || n == 0x0A || n == 0x0B || n == 0x0C || n == 0x0D || n == 0x20
    || n == 0xA0 || n == 0x1680 || (0x2000 <= n <= 0x200A)
    || n == 0x2028 || n == 0x2029 || n == 0x202F || n == 0x205F
    || n == 0x3000 || n == 0xFEFF
  }

  predicate IsDigit(c: char) {
    '0' <= c <= '9'
  }

  predicate AllDigits(s: string) {
    forall i :: 0 <= i < |s| ==> IsDigit(s[i])
  }

  /** A text without a single digit. */
  predicate NoDigit(s: string) {
    forall i :: 0 <= i < |s| ==> !IsDigit(s[i])
  }

  // ---------------------------------------------------------------------
  // Searching and replacing
  // ---------------------------------------------------------------------

  /** `pat` occurs in `s` at position `i`. */
  predicate OccursAt(s: string, pat: string, i: int) {
    0 <= i && i + |pat| <= |s| && s[i..i + |pat|] == pat
  }

  /** `String.prototype.indexOf`: the first position of `pat`, or -1. */
  function IndexOf(s: string, pat: string): (r: int)
    ensures -1 <= r <= |s|
    ensures r >= 0 ==> OccursAt(s, pat, r) && forall j :: 0 <= j < r ==> !OccursAt(s, pat, j)
    ensures r == -1 ==> forall j :: !OccursAt(s, pat, j)
  {
    IndexFrom(s, pat, 0)
  }

  function IndexFrom(s: string, pat: string, k: nat): (r: int)
    requires k <= |s|
    ensures r == -1 || k <= r <= |s|
    ensures r >= 0 ==> OccursAt(s, pat, r) && forall j :: k <= j < r ==> !OccursAt(s, pat, j)
    ensures r == -1 ==> forall j :: k <= j ==> !OccursAt(s, pat, j)
    decreases |s| - k
  {
    if k + |pat| > |s| then -1
    else if s[k..k + |pat|] == pat then k
    else IndexFrom(s, pat, k + 1)
  }

  /** A position where `pat` occurs, with no occurrence before it, is what
      `indexOf` returns. */
  lemma IndexOfIs(s: string, pat: string, k: nat)
    requires OccursAt(s, pat, k)
    requires forall j :: 0 <= j < k ==> !OccursAt(s, pat, j)
    ensures IndexOf(s, pat) == k
  {
  }

  /** `String.prototype.includes`. */
  predicate Includes(s: string, pat: string) {
    IndexOf(s, pat) >= 0
  }

  lemma IncludesIff(s: string, pat: string)
    ensures Includes(s, pat) <==> exists i :: OccursAt(s, pat, i)
  {
  }

  /** A pattern holding a character the text lacks does not occur in it. */
  lemma LacksChar(s: string, pat: string, k: nat)
    requires k < |pat| && pat[k] !in s
    ensures !Includes(s, pat)
  {
    var i := IndexOf(s, pat);
    if i >= 0 {
      assert false;
    }
  }

  lemma IncludesSelf(s: string)
    ensures Includes(s, s)
  {
    assert OccursAt(s, s, 0);
  }

  /** `String.prototype.replace` with a string pattern: only the FIRST
      occurrence is replaced; an absent pattern leaves `s` unchanged. */
  function ReplaceFirst(s: string, pat: string, rep: string): string {
    var i := IndexOf(s, pat);
    if i < 0 then s else s[..i] + rep + s[i + |pat|..]
  }

  /** Replacing by a text without digits adds no digit. */
  lemma ReplaceFirstNoDigit(s: string, pat: string, rep: string)
    requires NoDigit(s) && NoDigit(rep)
    ensures NoDigit(ReplaceFirst(s, pat, rep))
  {
    var i := IndexOf(s, pat);
    if i >= 0 {
      var r := ReplaceFirst(s, pat, rep);
      assert r == s[..i] + rep + s[i + |pat|..];
      forall k | 0 <= k < |r| ensures !IsDigit(r[k]) {
        if k < i {
          assert r[k] == s[k];
        } else if k < i + |rep| {
          assert r[k] == rep[k - i];
        } else {
          assert r[k] == s[k - i - |rep| + i + |pat|];
        }
      }
    }
  }

  /** Dropping characters adds no digit. */
  lemma RemoveWhereNoDigit(s: string, drop: char -> bool)
    requires NoDigit(s)
    ensures NoDigit(RemoveWhere(s, drop))
  {
    var r := RemoveWhere(s, drop);
    forall k | 0 <= k < |r| ensures !IsDigit(r[k]) {
      assert r[k] in r;
    }
  }

  /** `s.replace(/[set]/g, '')`: drops every character `drop` selects. */
  function RemoveWhere(s: string, drop: char -> bool): (r: string)
    ensures |r| <= |s|
    ensures forall i :: 0 <= i < |r| ==> !drop(r[i])
    ensures forall c :: c in r ==> c in s
  {
    if |s| == 0 then []
    else if drop(s[0]) then RemoveWhere(s[1..], drop)
    else [s[0]] + RemoveWhere(s[1..], drop)
  }

  lemma RemoveWhereAppend(a: string, b: string, drop: char -> bool)
    ensures RemoveWhere(a + b, drop) == RemoveWhere(a, drop) + RemoveWhere(b, drop)
  {
    if |a| > 0 {
      assert (a + b)[1..] == a[1..] + b;
      RemoveWhereAppend(a[1..], b, drop);
    } else {
      assert a + b == b;
    }
  }

  lemma RemoveWhereNone(s: string, drop: char -> bool)
    requires forall i :: 0 <= i < |s| ==> !drop(s[i])
    ensures RemoveWhere(s, drop) == s
  {
  }

  /** `String.prototype.trimStart`. */
  function TrimStart(s: string): (r: string)
    ensures |r| <= |s| && r == s[|s| - |r|..]
    ensures |r| > 0 ==> !IsSpace(r[0])
    ensures forall i :: 0 <= i < |s| - |r| ==> IsSpace(s[i])
  {
    if |s| > 0 && IsSpace(s[0]) then TrimStart(s[1..]) else s
  }

  /** `String.prototype.trimEnd`. */
  function TrimEnd(s: string): (r: string)
    ensures |r| <= |s| && r == s[..|r|]
    ensures |r| > 0 ==> !IsSpace(r[|r| - 1])
    ensures forall i :: |r| <= i < |s| ==> IsSpace(s[i])
  {
    if |s| > 0 && IsSpace(s[|s| - 1]) then TrimEnd(s[..|s| - 1]) else s
  }

  /** `String.prototype.trim`. */
  function Trim(s: string): (r: string)
    ensures |r| <= |s|
    ensures |r| > 0 ==> !IsSpace(r[0]) && !IsSpace(r[|r| - 1])
    ensures (forall i :: 0 <= i < |s| ==> !IsSpace(s[i])) ==> r == s
  {
    TrimEnd(TrimStart(s))
  }

  /** `Array.prototype.join`. */
  function Join(parts: seq<string>, sep: string): string {
    if |parts| == 0 then ""
    else if |parts| == 1 then parts[0]
    else parts[0] + sep + Join(parts[1..], sep)
  }

  // ---------------------------------------------------------------------
  // Array.prototype.slice
  // ---------------------------------------------------------------------

  /** How `slice` turns a relative index into an absolute one: a negative
      index counts from the end, and both ends are clamped to the length. */
  function RelIndex(i: int, len: nat): (r: nat)
    ensures r <= len
    ensures 0 <= i ==> r == if i < len then i else len
    ensures i < 0 ==> r == if len + i > 0 then len + i else 0
  {
    if i < 0 then (if len + i > 0 then len + i else 0)
    else if i < len then i else len
  }

  /** `Array.prototype.slice(start, end)`. */
  function Slice<T>(s: seq<T>, start: int, end: int): (r: seq<T>)
    ensures |r| <= |s|
    ensures r == if RelIndex(start, |s|) < RelIndex(end, |s|)
                 then s[RelIndex(start, |s|)..RelIndex(end, |s|)] else []
  {
    var from := RelIndex(start, |s|);
    var to := RelIndex(end, |s|);
    if from < to then s[from..to] else []
  }

  lemma SliceFromZero<T>(s: seq<T>, n: nat)
    ensures Slice(s, 0, n) == if n < |s| then s[..n] else s
  {
  }

  /** `slice(-k)` keeps the last min(k, |s|) elements. */
  lemma SliceLast<T>(s: seq<T>, k: nat)
    requires k > 0
    ensures Slice(s, -(k as int), |s|) == if k <= |s| then s[|s| - k..] else s
  {
  }

  // ---------------------------------------------------------------------
  // Numbers
  // ---------------------------------------------------------------------

  function DigitValue(c: char): (r: nat)
    requires IsDigit(c)
    ensures r < 10
  {
    c as int - '0' as int
  }

  function DigitChar(d: nat): (c: char)
    requires d < 10
    ensures IsDigit(c) && DigitValue(c) == d
  {
    ('0' as int + d) as char
  }

  /** The value of a string of decimal digits. */
  function DigitsValue(d: string): nat
    requires AllDigits(d)
  {
    if |d| == 0 then 0 else DigitsValue(d[..|d| - 1]) * 10 + DigitValue(d[|d| - 1])
  }

  /** Decimal rendering of a natural number (`String(n)`), no leading zeros. */
  function NatToString(n: nat): (r: string)
    ensures |r| > 0 && AllDigits(r)
    ensures |r| > 1 ==> r[0] != '0'
  {
    if n < 10 then [DigitChar(n)] else NatToString(n / 10) + [DigitChar(n % 10)]
  }

  lemma {:induction false} NatToStringValue(n: nat)
    ensures DigitsValue(NatToString(n)) == n
  {
    if n >= 10 {
      var s := NatToString(n / 10) + [DigitChar(n % 10)];
      assert s[..|s| - 1] == NatToString(n / 10);
      NatToStringValue(n / 10);
    }
  }

  /** `String(n)` for an integer. */
  function IntToString(n: int): string {
    if n < 0 then "-" + NatToString(-n) else NatToString(n)
  }

  /** A printed integer starts with a minus sign exactly when it is
      negative. */
  lemma IntToStringSign(n: int)
    ensures |IntToString(n)| > 0
    ensures IntToString(n)[0] == '-' <==> n < 0
  {
    if n >= 0 {
      assert IsDigit(NatToString(n)[0]);
    }
  }

  /** Different integers print differently. */
  lemma IntToStringInjective(x: int, y: int)
    requires IntToString(x) == IntToString(y)
    ensures x == y
  {
    IntToStringSign(x);
    IntToStringSign(y);
    if x < 0 {
      assert NatToString(-x) == IntToString(x)[1..] == NatToString(-y);
      NatToStringValue(-x);
      NatToStringValue(-y);
    } else {
      NatToStringValue(x);
      NatToStringValue(y);
    }
  }

  /** The longest prefix of `s` made of decimal digits. */
  function LeadingDigits(s: string): (r: string)
    ensures |r| <= |s| && r == s[..|r|] && AllDigits(r)
    ensures |r| < |s| ==> !IsDigit(s[|r|])
  {
    if |s| > 0 && IsDigit(s[0]) then [s[0]] + LeadingDigits(s[1..]) else []
  }

  lemma {:induction false} LeadingDigitsAll(d: string, rest: string)
    requires AllDigits(d)
    requires |rest| == 0 || !IsDigit(rest[0])
    ensures LeadingDigits(d + rest) == d
  {
    if |d| > 0 {
      var s := d + rest;
      assert s[0] == d[0] && IsDigit(s[0]);
      assert s[1..] == d[1..] + rest;
      LeadingDigitsAll(d[1..], rest);
      assert LeadingDigits(s) == [d[0]] + d[1..];
      assert [d[0]] + d[1..] == d;
    } else {
      assert d + rest == rest;
    }
  }

  function Pow10(n: nat): (r: nat)
    ensures r >= 1
  {
    if n == 0 then 1 else 10 * Pow10(n - 1)
  }

  /** The value of the digits after a decimal point: `0.fracPart`. */
  function FracValue(fracPart: string): (r: real)
    requires AllDigits(fracPart)
    ensures 0.0 <= r <= 1.0
  {
    if |fracPart| == 0 then 0.0
    else (DigitValue(fracPart[0]) as real + FracValue(fracPart[1..])) / 10.0
  }

  /** The numeric value of `intPart.fracPart`. */
  function DecimalValue(intPart: string, fracPart: string): real
    requires AllDigits(intPart) && AllDigits(fracPart)
  {
    DigitsValue(intPart) as real + FracValue(fracPart)
  }

  /** The exponent suffix `e[+-]digits` of a decimal literal, when present:
      its signed value and its length. */
  function ExponentPart(s: string): (r: (int, nat))
    ensures r.1 <= |s|
  {
    if |s| >= 2 && (s[0] == 'e' || s[0] == 'E') then
      var signed := s[1] == '+' || s[1] == '-';
      var body := if signed then s[2..] else s[1..];
      var d := LeadingDigits(body);
      if |d| == 0 then (0, 0)
      else
        var v := DigitsValue(d);
        (if s[1] == '-' then -(v as int) else v, |d| + (if signed then 2 else 1))
    else (0, 0)
  }

  function Scale(x: real, e: int): real
    decreases if e < 0 then -e else e
  {
    if e == 0 then x else if e > 0 then Scale(x * 10.0, e - 1) else Scale(x / 10.0, e + 1)
  }

  /** The value of an unsigned decimal literal at the head of `s`, as
      `parseFloat` reads it; None when there is no digit (NaN). */
  function UnsignedDecimal(s: string): Option<real> {
    var intPart := LeadingDigits(s);
    var rest := s[|intPart|..];
    var fracPart := if |rest| > 0 && rest[0] == '.' then LeadingDigits(rest[1..]) else [];
    if |intPart| == 0 && |fracPart| == 0 then None
    else
      var afterFrac := if |rest| > 0 && rest[0] == '.' then rest[1 + |fracPart|..] else rest;
      var e := ExponentPart(afterFrac).0;
      Some(Scale(DecimalValue(intPart, fracPart), e))
  }

  /** A text without digits is no decimal literal. */
  lemma UnsignedDecimalNeedsDigit(s: string)
    ensures NoDigit(s) ==> UnsignedDecimal(s) == None
  {
    if NoDigit(s) {
      var intPart := LeadingDigits(s);
      assert |intPart| == 0;
      if |s| > 1 && s[0] == '.' {
        assert !IsDigit(s[1..][0]);
      }
    }
  }

  lemma SuffixNoDigit(s: string, k: nat)
    requires NoDigit(s) && k <= |s|
    ensures NoDigit(s[k..])
  {
    assert forall i :: 0 <= i < |s| - k ==> s[k..][i] == s[k + i];
  }

  /** Neither the trimmed text nor what follows its sign holds a decimal
      literal when the text has no digit. */
  lemma TrimmedNeedsDigit(s: string)
    ensures NoDigit(s) ==> UnsignedDecimal(TrimStart(s)) == None
    ensures NoDigit(s) && |TrimStart(s)| > 0 ==> UnsignedDecimal(TrimStart(s)[1..]) == None
  {
    var t := TrimStart(s);
    if NoDigit(s) {
      SuffixNoDigit(s, |s| - |t|);
      UnsignedDecimalNeedsDigit(t);
      if |t| > 0 {
        SuffixNoDigit(t, 1);
        UnsignedDecimalNeedsDigit(t[1..]);
      }
    }
  }

  /** `parseFloat`: leading white space, an optional sign, then the longest
      decimal literal (digits, fraction, exponent). None stands for NaN.
      A literal spelled `Infinity` is outside the model and reads as NaN. */
  function ParseFloat(s: string): (r: Option<real>)
    ensures |s| == 0 ==> r == None
    ensures NoDigit(s) ==> r == None
  {
    var t := TrimStart(s);
    TrimmedNeedsDigit(s);
    if |t| > 0 && (t[0] == '-' || t[0] == '+') then
      match UnsignedDecimal(t[1..])
      case None => None
      case Some(v) => Some(if t[0] == '-' then -v else v)
    else UnsignedDecimal(t)
  }

  lemma ParseFloatDecimal(intPart: string, fracPart: string)
    requires AllDigits(intPart) && AllDigits(fracPart)
    requires |intPart| > 0
    ensures ParseFloat(intPart + "." + fracPart) == Some(DecimalValue(intPart, fracPart))
  {
    var s := intPart + "." + fracPart;
    assert !IsSpace(s[0]) && s[0] != '-' && s[0] != '+';
    assert TrimStart(s) == s;
    assert s == intPart + ("." + fracPart);
    LeadingDigitsAll(intPart, "." + fracPart);
    assert LeadingDigits(s) == intPart;
    var rest := s[|intPart|..];
    assert rest == "." + fracPart;
    LeadingDigitsAll(fracPart, []);
    assert rest[1..] == fracPart + [];
    assert LeadingDigits(rest[1..]) == fracPart;
    assert rest[1 + |fracPart|..] == [];
    assert ExponentPart([]) == (0, 0);
    assert UnsignedDecimal(s) == Some(Scale(DecimalValue(intPart, fracPart), 0));
  }

  predicate IsHexDigit(c: char) {
    IsDigit(c) || ('a' <= c <= 'f') || ('A' <= c <= 'F')
  }

  function HexValue(c: char): (r: nat)
    requires IsHexDigit(c)
    ensures r < 16
  {
    if IsDigit(c) then DigitValue(c)
    else if 'a' <= c <= 'f' then c as int - 'a' as int + 10
    else c as int - 'A' as int + 10
  }

  function LeadingHex(s: string): (r: string)
    ensures |r| <= |s| && r == s[..|r|]
    ensures forall i :: 0 <= i < |r| ==> IsHexDigit(r[i])
  {
    if |s| > 0 && IsHexDigit(s[0]) then [s[0]] + LeadingHex(s[1..]) else []
  }

  function HexDigitsValue(d: string): nat
    requires forall i :: 0 <= i < |d| ==> IsHexDigit(d[i])
  {
    if |d| == 0 then 0 else HexDigitsValue(d[..|d| - 1]) * 16 + HexValue(d[|d| - 1])
  }

  /** `parseInt(s)` with no radix: leading white space, an optional sign, a
      `0x`/`0X` prefix selecting hexadecimal, then the longest run of
      digits. None stands for NaN (no digit at all). */
  function ParseInt(s: string): (r: Option<int>)
    ensures |s| == 0 ==> r == None
  {
    var t := TrimStart(s);
    var neg := |t| > 0 && t[0] == '-';
    var u := if |t| > 0 && (t[0] == '-' || t[0] == '+') then t[1..] else t;
    var magnitude: Option<nat> :=
      if |u| >= 2 && u[0] == '0' && (u[1] == 'x' || u[1] == 'X') then
        var h := LeadingHex(u[2..]);
        if |h| == 0 then None else Some(HexDigitsValue(h))
      else
        var d := LeadingDigits(u);
        if |d| == 0 then None else Some(DigitsValue(d));
    match magnitude
    case None => None
    case Some(m) => Some(if neg then -(m as int) else m)
  }

  lemma {:induction false} ParseIntNat(n: nat)
    ensures ParseInt(NatToString(n)) == Some(n)
  {
    var s := NatToString(n);
    assert !IsSpace(s[0]) && s[0] != '-' && s[0] != '+';
    assert TrimStart(s) == s;
    if |s| >= 2 {
      assert s[0] != '0';
    }
    LeadingDigitsAll(s, []);
    assert s + [] == s;
    NatToStringValue(n);
  }

  /** `parseInt(x) || d`: NaN and 0 both fall back to the default. */
  function IntOr(x: Option<string>, d: int): (r: int)
    ensures x.None? ==> r == d
    ensures r == d || (x.Some? && ParseInt(x.value) == Some(r) && r != 0)
  {
    match x
    case None => d
    case Some(s) =>
      match ParseInt(s)
      case None => d
      case Some(v) => if v == 0 then d else v
  }
}

=== FILE: js_value.dfy ===
/** Dynamically typed JavaScript values, as they arrive in request bodies,
    query strings and spread objects, with JavaScript's truthiness. */
module JsValue {
  import opened Wrappers

  datatype Value =
    | Undefined
    | Null
    | Bool(b: bool)
    | Num(n: real)
    | Str(s: string)
    | Arr(items: seq<Value>)
    | Obj(fields: map<string, Value>)

  /** `!!v`. NaN is not representable, so the only falsy numbers are zeros. */
  predicate Truthy(v: Value) {
    match v
    case Undefined => false
    case Null => false
    case Bool(b) => b
    case Num(n) => n != 0.0
    case Str(s) => |s| > 0
    case Arr(_) => true
    case Obj(_) => true
  }

  /** `typeof v === 'object'` (arrays and null included). */
  predicate IsObjectType(v: Value) {
    v.Null? || v.Arr? || v.Obj?
  }

  /** Property read `v[key]`: absent properties are `undefined`. Arrays and
      primitives carry none of the named properties the services read. */
  function Get(v: Value, key: string): (r: Value)
    ensures v.Obj? && key in v.fields ==> r == v.fields[key]
    ensures !(v.Obj? && key in v.fields) ==> r == Undefined
  {
    if v.Obj? && key in v.fields then v.fields[key] else Undefined
  }

  /** A string-valued property, None when absent or not a string. */
  function GetStr(v: Value, key: string): (r: Option<string>)
    ensures r.Some? <==> Get(v, key).Str?
    ensures r.Some? ==> Get(v, key) == Str(r.value)
  {
    match Get(v, key)
    case Str(s) => Some(s)
    case _ => None
  }

  /** The own enumerable properties an object spread `{...v}` copies. An
      object contributes its fields; `null`, `undefined`, booleans and
      numbers contribute none. A string or an array would contribute its
      index keys ("0", "1", ...); the model gives them none. */
  function Spread(v: Value): map<string, Value> {
    if v.Obj? then v.fields else map[]
  }
}

=== FILE: rate_limiter.dfy ===
/** The request counter of src/services/vehicleService.js: `makeRequest`
    refuses once ten requests were made since the last reset, counts every
    attempt it lets through, and retries only on HTTP 429. The periodic
    `setTimeout` re-arm becomes an explicit `Reset`; the outcome of the
    n-th HTTP attempt is a parameter. */
module RateLimiter {

  const MaxRequestsPerMinute: nat := 10
  const DefaultRetries: nat := 2

  /** What one HTTP attempt returned. */
  datatype Attempt = Success | HttpError(status: int) | NetworkError

  datatype Failure = RateLimited | Upstream(attempt: Attempt)

  /** What a `makeRequest` call settles with: the response, or the error
      it throws. */
  datatype Reply = Answered | Failed(failure: Failure)

  /** The reply of a `makeRequest` call, the counter after it and the
      number of HTTP attempts it made. */
  datatype Outcome = Outcome(reply: Reply, count: nat, attempts: nat)

  /** `resetRequestCount`. */
  function Reset(count: nat): (r: nat)
    ensures r == 0
  {
    0
  }

  /** The attempt outcomes seen by the retry: the i-th attempt of the retry
      is the (i + 1)-th of the call. */
  function Shift(attempt: nat -> Attempt): nat -> Attempt {
    (i: nat) => attempt(i + 1)
  }

  /** `makeRequest(url, retries)` with the counter at `count`; `attempt(i)`
      is what the i-th HTTP call made by this request returns. */
  function MakeRequest(count: nat, retries: nat, attempt: nat -> Attempt): (r: Outcome)
    ensures count >= MaxRequestsPerMinute ==> r.reply == Failed(RateLimited) && r.attempts == 0
    ensures r.count == count + r.attempts
    ensures r.attempts <= retries + 1
    ensures count <= MaxRequestsPerMinute ==> r.count <= MaxRequestsPerMinute
    ensures r.reply.Failed? && r.reply.failure.Upstream? ==>
              r.attempts > 0 && attempt(r.attempts - 1) == r.reply.failure.attempt
              && (r.reply.failure.attempt == HttpError(429) ==> r.attempts == retries + 1)
    ensures forall i: nat :: i < r.attempts - 1 ==> attempt(i) == HttpError(429)
    ensures count < MaxRequestsPerMinute ==> r.attempts >= 1
    ensures r.reply == Answered <==> r.attempts > 0 && attempt(r.attempts - 1) == Success
    ensures r.reply == Failed(RateLimited) ==> r.count >= MaxRequestsPerMinute
    ensures r.attempts > 0 && attempt(r.attempts - 1) == HttpError(429) && r.attempts <= retries ==>
              r.reply == Failed(RateLimited) && r.count >= MaxRequestsPerMinute
    ensures count < MaxRequestsPerMinute && attempt(0) != Success && (attempt(0) != HttpError(429) || retries == 0) ==>
              r == Outcome(Failed(Upstream(attempt(0))), count + 1, 1)
    decreases retries
  {
    if count >= MaxRequestsPerMinute then Outcome(Failed(RateLimited), count, 0)
    else
      var a := attempt(0);
      if a == Success then Outcome(Answered, count + 1, 1)
      else if a == HttpError(429) && retries > 0 then
        var next := Shift(attempt);
        var rest := MakeRequest(count + 1, retries - 1, next);
        assert forall i: nat :: i < rest.attempts ==> attempt(i) == HttpError(429) by {
          forall i: nat | i < rest.attempts
            ensures attempt(i) == HttpError(429)
          {
            if i > 0 { assert next(i - 1) == attempt(i); }
          }
        }
        Outcome(rest.reply, rest.count, rest.attempts + 1)
      else Outcome(Failed(Upstream(a)), count + 1, 1)
  }

  /** A request under the limit whose first `k` attempts get a 429 and whose
      next attempt succeeds is answered after `k` retries, as long as the
      retries and the counter allow them. It follows from the contract of
      `MakeRequest` alone. */
  lemma SucceedsAfterRetries(count: nat, retries: nat, attempt: nat -> Attempt, k: nat)
    requires k <= retries && count + k < MaxRequestsPerMinute
    requires forall i: nat :: i < k ==> attempt(i) == HttpError(429)
    requires attempt(k) == Success
    ensures MakeRequest(count, retries, attempt) == Outcome(Answered, count + k + 1, k + 1)
  {
  }

  /** A burst of calls, each with its own retry budget and attempt outcomes. */
  datatype Call = Call(retries: nat, attempt: nat -> Attempt)

  /** Runs the calls one after another from counter `count`, returning the
      final counter and the total number of HTTP attempts admitted. */
  function RunCalls(count: nat, calls: seq<Call>): (nat, nat)
    decreases |calls|
  {
    if |calls| == 0 then (count, 0)
    else
      var o := MakeRequest(count, calls[0].retries, calls[0].attempt);
      var rest := RunCalls(o.count, calls[1..]);
      (rest.0, o.attempts + rest.1)
  }

  /** Between two resets at most ten HTTP attempts get through, however
      many calls are made and however they retry. */
  lemma {:induction false} AtMostTenBetweenResets(count: nat, calls: seq<Call>)
    requires count <= MaxRequestsPerMinute
    ensures RunCalls(count, calls).0 == count + RunCalls(count, calls).1
    ensures RunCalls(count, calls).0 <= MaxRequestsPerMinute
    ensures RunCalls(Reset(count), calls).1 <= MaxRequestsPerMinute
    decreases |calls|
  {
    if |calls| > 0 {
      var o := MakeRequest(count, calls[0].retries, calls[0].attempt);
      AtMostTenBetweenResets(o.count, calls[1..]);
      var o0 := MakeRequest(0, calls[0].retries, calls[0].attempt);
      AtMostTenBetweenResets(o0.count, calls[1..]);
    }
  }
}

=== FILE: scoring.dfy ===
/** The comparison screen of the single-page app (frontend/src/App.tsx):
    the list of up to three selected cars, the four sub-scores and the
    weighted total, and the choice of a winner. Scores are exact reals. */
module Scoring {
  import opened Wrappers

  datatype Car = Car(
    id: string,
    make: string,
    model: string,
    year: int,
    price: real,
    accel: real,        // 0-100 km/h time in seconds
    kmplCity: real,
    kmplHighway: real)

  const MaxSelected: nat := 3

  // ---------------------------------------------------------------------
  // Selection list
  // ---------------------------------------------------------------------

  predicate HasId(cars: seq<Car>, id: string) {
    exists i :: 0 <= i < |cars| && cars[i].id == id
  }

  predicate UniqueIds(cars: seq<Car>) {
    forall i, j :: 0 <= i < j < |cars| ==> cars[i].id != cars[j].id
  }

  /** A selection the app can reach: at most three cars, no id twice. */
  predicate ValidSelection(cars: seq<Car>) {
    |cars| <= MaxSelected && UniqueIds(cars)
  }

  /** `handleAddToComparison`: appends only when fewer than three cars are
      selected and none shares the new car's id. */
  function AddToComparison(selected: seq<Car>, car: Car): (r: seq<Car>)
    ensures |selected| < MaxSelected && !HasId(selected, car.id) ==> r == selected + [car]
    ensures |selected| >= MaxSelected || HasId(selected, car.id) ==> r == selected
    ensures ValidSelection(selected) ==> ValidSelection(r)
  {
    if |selected| < MaxSelected && !HasId(selected, car.id) then selected + [car] else selected
  }

  /** `handleRemoveFromComparison`: keeps exactly the cars whose id differs,
      in their original order. */
  function RemoveFromComparison(selected: seq<Car>, id: string): (r: seq<Car>)
    ensures |r| <= |selected|
    ensures !HasId(r, id)
    ensures forall c :: c in r <==> c in selected && c.id != id
    ensures !HasId(selected, id) ==> r == selected
    ensures ValidSelection(selected) ==> ValidSelection(r)
  {
    if |selected| == 0 then []
    else if selected[0].id == id then RemoveFromComparison(selected[1..], id)
    else [selected[0]] + RemoveFromComparison(selected[1..], id)
  }

  /** Removal keeps the survivors in order: the result is a subsequence. */
  predicate IsSubsequence(a: seq<Car>, b: seq<Car>) {
    |a| == 0 || (|b| > 0 && ((a[0] == b[0] && IsSubsequence(a[1..], b[1..])) || IsSubsequence(a, b[1..])))
  }

  lemma {:induction false} RemoveKeepsOrder(selected: seq<Car>, id: string)
    ensures IsSubsequence(RemoveFromComparison(selected, id), selected)
  {
    if |selected| > 0 {
      RemoveKeepsOrder(selected[1..], id);
      var rest := RemoveFromComparison(selected[1..], id);
      if selected[0].id != id {
        assert ([selected[0]] + rest)[1..] == rest;
      }
    }
  }

  // ---------------------------------------------------------------------
  // Scores
  // ---------------------------------------------------------------------

  function Max(a: real, b: real): real { if a >= b then a else b }
  function Min(a: real, b: real): real { if a <= b then a else b }

  /** Faster cars score higher; never negative, and at most 100 for a
      non-negative time. */
  function AccelerationScore(car: Car): (r: real)
    ensures r >= 0.0
    ensures car.accel >= 0.0 ==> r <= 100.0
    ensures r > 0.0 <==> car.accel < 10.0
  {
    Max(0.0, 100.0 - car.accel * 10.0)
  }

  /** Capped above at 100 only: negative consumption gives a negative score. */
  function EconomyScore(car: Car): (r: real)
    ensures r <= 100.0
    ensures car.kmplCity >= 0.0 && car.kmplHighway >= 0.0 ==> r >= 0.0
    ensures car.kmplCity + car.kmplHighway < 0.0 ==> r < 0.0
  {
    Min(100.0, ((car.kmplCity + car.kmplHighway) / 2.0) * 5.0)
  }

  /** Capped above at 100 only: years before 2000 score below zero. */
  function YearScore(car: Car): (r: real)
    ensures r <= 100.0
    ensures car.year >= 2000 ==> r >= 0.0
    ensures car.year < 2000 ==> r < 0.0
    ensures car.year >= 2024 ==> r == 100.0
  {
    Min(100.0, ((car.year - 2000) as real / 24.0) * 100.0)
  }

  /** Cheaper cars score higher; never negative, at most 100 for a
      non-negative price. */
  function ValueScore(car: Car): (r: real)
    ensures r >= 0.0
    ensures car.price >= 0.0 ==> r <= 100.0
    ensures r == 0.0 <==> car.price >= 100000.0
  {
    Max(0.0, 100.0 - car.price / 1000.0)
  }

  datatype Breakdown = Breakdown(acceleration: real, economy: real, year: real, value: real)

  datatype CarScore = CarScore(score: real, breakdown: Breakdown)

  const WeightAcceleration: real := 0.3
  const WeightEconomy: real := 0.25
  const WeightYear: real := 0.25
  const WeightValue: real := 0.2

  predicate InRange(x: real) { 0.0 <= x <= 100.0 }

  /** The weighted total of four sub-scores. The weights sum to one, so the
      total lies between the smallest and the largest sub-score. */
  function WeightedTotal(b: Breakdown): (r: real)
    ensures var lo := Min(Min(b.acceleration, b.economy), Min(b.year, b.value));
            var hi := Max(Max(b.acceleration, b.economy), Max(b.year, b.value));
            lo <= r <= hi
    ensures InRange(b.acceleration) && InRange(b.economy) && InRange(b.year) && InRange(b.value)
            ==> InRange(r)
  {
    b.acceleration * WeightAcceleration + b.economy * WeightEconomy
      + b.year * WeightYear + b.value * WeightValue
  }

  lemma WeightsSumToOne()
    ensures WeightAcceleration + WeightEconomy + WeightYear + WeightValue == 1.0
  {
  }

  /** `calculateCarScore`. */
  function CalculateCarScore(car: Car): (r: CarScore)
    ensures r.breakdown == Breakdown(AccelerationScore(car), EconomyScore(car), YearScore(car), ValueScore(car))
    ensures r.score == WeightedTotal(r.breakdown)
    ensures (car.accel >= 0.0 && car.price >= 0.0 && car.year >= 2000
             && car.kmplCity >= 0.0 && car.kmplHighway >= 0.0) ==> InRange(r.score)
  {
    var b := Breakdown(AccelerationScore(car), EconomyScore(car), YearScore(car), ValueScore(car));
    CarScore(WeightedTotal(b), b)
  }

  // ---------------------------------------------------------------------
  // Winner
  // ---------------------------------------------------------------------

  function Score(car: Car): real { CalculateCarScore(car).score }

  /** The total score of every car, in selection order. */
  function Scores(cars: seq<Car>): (r: seq<real>)
    ensures |r| == |cars|
    ensures forall i :: 0 <= i < |cars| ==> r[i] == Score(cars[i])
  {
    if |cars| == 0 then [] else [Score(cars[0])] + Scores(cars[1..])
  }

  /** The loop of `compareCarss` over the scores: the running best starts
      at 0 (not at the first car's score) and only a strictly greater score
      replaces it. Returns the index of the winner. */
  function WinnerLoop(scores: seq<real>, k: nat, best: nat, highest: real): (r: nat)
    requires best < |scores| && k <= |scores|
    ensures r < |scores|
    ensures r == best || (k <= r && scores[r] > highest)
    ensures forall i :: k <= i < |scores| ==> scores[i] <= highest || scores[i] <= scores[r]
    decreases |scores| - k
  {
    if k == |scores| then best
    else if scores[k] > highest then WinnerLoop(scores, k + 1, k, scores[k])
    else WinnerLoop(scores, k + 1, best, highest)
  }

  function WinnerIndex(cars: seq<Car>): (r: nat)
    requires |cars| > 0
    ensures r < |cars|
  {
    WinnerLoop(Scores(cars), 0, 0, 0.0)
  }

  /** Reference definition of the winner: the first position holding the
      maximum, when that maximum is positive; the first position otherwise. */
  ghost predicate IsIntendedWinner(scores: seq<real>, w: nat) {
    w < |scores| &&
    if exists i :: 0 <= i < |scores| && scores[i] > 0.0 then
      (forall i :: 0 <= i < |scores| ==> scores[i] <= scores[w])
      && (forall i :: 0 <= i < w ==> scores[i] < scores[w])
    else w == 0
  }

  /** Invariant of `WinnerLoop` over the prefix already seen. */
  ghost predicate LoopState(scores: seq<real>, k: nat, best: nat, highest: real) {
    k <= |scores| && best < |scores| &&
    if exists i :: 0 <= i < k && scores[i] > 0.0 then
      best < k && highest == scores[best]
      && (forall i :: 0 <= i < k ==> scores[i] <= highest)
      && (forall i :: 0 <= i < best ==> scores[i] < highest)
    else best == 0 && highest == 0.0
  }

  lemma {:induction false} WinnerLoopCorrect(scores: seq<real>, k: nat, best: nat, highest: real)
    requires LoopState(scores, k, best, highest)
    ensures IsIntendedWinner(scores, WinnerLoop(scores, k, best, highest))
    decreases |scores| - k
  {
    if k < |scores| {
      if scores[k] > highest {
        LoopStepTakes(scores, k, best, highest);
        WinnerLoopCorrect(scores, k + 1, k, scores[k]);
      } else {
        LoopStepKeeps(scores, k, best, highest);
        WinnerLoopCorrect(scores, k + 1, best, highest);
      }
    }
  }

  /** A score above the running highest becomes the new running best. */
  lemma LoopStepTakes(scores: seq<real>, k: nat, best: nat, highest: real)
    requires LoopState(scores, k, best, highest) && k < |scores| && scores[k] > highest
    ensures LoopState(scores, k + 1, k, scores[k])
  {
    assert scores[k] > 0.0;
  }

  /** A score not above the running highest leaves the running best. */
  lemma LoopStepKeeps(scores: seq<real>, k: nat, best: nat, highest: real)
    requires LoopState(scores, k, best, highest) && k < |scores| && scores[k] <= highest
    ensures LoopState(scores, k + 1, best, highest)
  {
    var seen := exists i :: 0 <= i < k && scores[i] > 0.0;
  }

  /** The winner the app announces is the intended one: the first car with
      the maximum score when that maximum is positive, the first car
      otherwise; ties keep the earlier car. */
  lemma WinnerIsFirstMaximum(cars: seq<Car>)
    requires |cars| > 0
    ensures IsIntendedWinner(Scores(cars), WinnerIndex(cars))
  {
    assert LoopState(Scores(cars), 0, 0, 0.0);
    WinnerLoopCorrect(Scores(cars), 0, 0, 0.0);
  }

  datatype ScoreEntry = ScoreEntry(car: Car, score: CarScore)

  datatype ComparisonResult = ComparisonResult(winner: Car, scores: map<string, ScoreEntry>)

  /** The score map of `compareCarss`: one entry per selected car, keyed by
      its id; a later car with the same id overwrites an earlier one. */
  function ScoreMap(cars: seq<Car>): (r: map<string, ScoreEntry>)
    ensures r.Keys == set c | c in cars :: c.id
    ensures forall id :: id in r ==> r[id].car in cars && r[id].car.id == id
                                      && r[id].score == CalculateCarScore(r[id].car)
  {
    if |cars| == 0 then map[]
    else
      var last := cars[|cars| - 1];
      var m := ScoreMap(cars[..|cars| - 1]);
      assert forall c :: c in cars <==> c in cars[..|cars| - 1] || c == last;
      m[last.id := ScoreEntry(last, CalculateCarScore(last))]
  }

  lemma {:induction false} ScoreMapUnique(cars: seq<Car>, i: nat)
    requires UniqueIds(cars) && i < |cars|
    ensures cars[i].id in ScoreMap(cars)
    ensures ScoreMap(cars)[cars[i].id] == ScoreEntry(cars[i], CalculateCarScore(cars[i]))
  {
    var n := |cars| - 1;
    ScoreMapLast(cars);
    if i < n {
      ScoreMapUnique(cars[..n], i);
      assert cars[n].id != cars[i].id;
    }
  }

  /** The last car's entry is written over the map of the others. */
  lemma ScoreMapLast(cars: seq<Car>)
    requires |cars| > 0
    ensures ScoreMap(cars) == ScoreMap(cars[..|cars| - 1])[cars[|cars| - 1].id := ScoreEntry(cars[|cars| - 1], CalculateCarScore(cars[|cars| - 1]))]
  {
  }

  /** `compareCarss`: nothing happens with fewer than two cars; otherwise
      every selected car gets its score entry and the winner is the car the
      reference definition names. */
  function CompareCars(selected: seq<Car>): (r: Option<ComparisonResult>)
    ensures |selected| < 2 <==> r.None?
    ensures r.Some? ==> r.value.winner == selected[WinnerIndex(selected)]
    ensures r.Some? ==> r.value.scores.Keys == set c | c in selected :: c.id
  {
    if |selected| < 2 then None
    else Some(ComparisonResult(selected[WinnerIndex(selected)], ScoreMap(selected)))
  }

  /** With a valid selection (unique ids) every selected car receives
      exactly its own score entry. */
  lemma CompareCarsScoresEachCar(selected: seq<Car>)
    requires ValidSelection(selected) && |selected| >= 2
    ensures var r := CompareCars(selected).value;
            (forall i :: 0 <= i < |selected| ==>
               selected[i].id in r.scores
               && r.scores[selected[i].id] == ScoreEntry(selected[i], CalculateCarScore(selected[i])))
  {
    var r := CompareCars(selected).value;
    assert r.scores == ScoreMap(selected);
    forall i | 0 <= i < |selected|
      ensures selected[i].id in r.scores
      ensures r.scores[selected[i].id] == ScoreEntry(selected[i], CalculateCarScore(selected[i]))
    {
      ScoreMapUnique(selected, i);
    }
  }
}

=== FILE: search_repository.dfy ===
/** `searchByName` of src/repositories/searchRepository.js: a scan of every
    model of every brand of the three vehicle types for a name containing
    the query, ignoring case. The FIPE fetchers are parameters: `brandsOf(t)`
    is what `fetchBrands(t)` resolves to and `modelsOf(t, code)` what
    `fetchModels(t, code)` resolves to. */
module SearchRepository {
  import opened JsText

  const Types: seq<string> := ["carros", "motos", "caminhões"]

  /** A FIPE brand or model: `{ nome, codigo }`. */
  datatype Named = Named(nome: string, codigo: string)

  /** One result record. */
  datatype Hit = Hit(vehicleType: string, brand: string, model: string, brandCode: string, modelCode: string)

  predicate Matches(model: Named, name: string) {
    Includes(Lower(model.nome), Lower(name))
  }

  function MakeHit(t: string, b: Named, m: Named): Hit {
    Hit(t, b.nome, m.nome, b.codigo, m.codigo)
  }

  /** The hits among the models of one brand, in fetched order. */
  function ModelHits(t: string, b: Named, models: seq<Named>, name: string): seq<Hit> {
    if |models| == 0 then []
    else
      var init := ModelHits(t, b, models[..|models| - 1], name);
      var m := models[|models| - 1];
      if Matches(m, name) then init + [MakeHit(t, b, m)] else init
  }

  /** The hits of the given brands of one type, brand by brand. */
  function BrandHits(t: string, brands: seq<Named>, modelsOf: (string, string) -> seq<Named>, name: string): seq<Hit> {
    if |brands| == 0 then []
    else
      var b := brands[|brands| - 1];
      BrandHits(t, brands[..|brands| - 1], modelsOf, name) + ModelHits(t, b, modelsOf(t, b.codigo), name)
  }

  /** The hits of the given types, type by type. */
  function TypeHits(types: seq<string>, brandsOf: string -> seq<Named>,
                    modelsOf: (string, string) -> seq<Named>, name: string): seq<Hit> {
    if |types| == 0 then []
    else
      var t := types[|types| - 1];
      TypeHits(types[..|types| - 1], brandsOf, modelsOf, name) + BrandHits(t, brandsOf(t), modelsOf, name)
  }

  /** `searchByName(name)`: the loop over the three types of the source. */
  method SearchByName(name: string, brandsOf: string -> seq<Named>, modelsOf: (string, string) -> seq<Named>)
    returns (results: seq<Hit>)
    ensures results == TypeHits(Types, brandsOf, modelsOf, name)
  {
    results := [];
    for i := 0 to |Types|
      invariant results == TypeHits(Types[..i], brandsOf, modelsOf, name)
    {
      var t := Types[i];
      var hits := SearchBrands(t, brandsOf(t), modelsOf, name);
      results := results + hits;
      assert Types[..i + 1][..i] == Types[..i];
    }
    assert Types[..|Types|] == Types;
  }

  /** The loop over the brands of one type. */
  method SearchBrands(t: string, brands: seq<Named>, modelsOf: (string, string) -> seq<Named>, name: string)
    returns (results: seq<Hit>)
    ensures results == BrandHits(t, brands, modelsOf, name)
  {
    results := [];
    for j := 0 to |brands|
      invariant results == BrandHits(t, brands[..j], modelsOf, name)
    {
      var b := brands[j];
      var hits := SearchModels(t, b, modelsOf(t, b.codigo), name);
      results := results + hits;
      assert brands[..j + 1][..j] == brands[..j];
    }
    assert brands[..|brands|] == brands;
  }

  /** The loop over the models of one brand. */
  method SearchModels(t: string, b: Named, models: seq<Named>, name: string)
    returns (results: seq<Hit>)
    ensures results == ModelHits(t, b, models, name)
  {
    results := [];
    for k := 0 to |models|
      invariant results == ModelHits(t, b, models[..k], name)
    {
      var m := models[k];
      if Includes(Lower(m.nome), Lower(name)) {
        results := results + [MakeHit(t, b, m)];
      }
      assert models[..k + 1][..k] == models[..k];
    }
    assert models[..|models|] == models;
  }

  /** Exactly the matching models become hits, each copying its own names
      and codes: a hit is in the result iff its model matches. */
  lemma {:induction false} ModelHitsExact(t: string, b: Named, models: seq<Named>, name: string)
    ensures forall h :: h in ModelHits(t, b, models, name) <==>
              exists m :: m in models && Matches(m, name) && h == MakeHit(t, b, m)
    ensures |ModelHits(t, b, models, name)| <= |models|
  {
    if |models| > 0 {
      var init := models[..|models| - 1];
      ModelHitsExact(t, b, init, name);
      assert models == init + [models[|models| - 1]];
    }
  }

  /** With the empty query every model of the brand is a hit, in order. */
  lemma {:induction false} EmptyQueryKeepsAll(t: string, b: Named, models: seq<Named>)
    ensures |ModelHits(t, b, models, "")| == |models|
    ensures forall i :: 0 <= i < |models| ==> ModelHits(t, b, models, "")[i] == MakeHit(t, b, models[i])
  {
    if |models| > 0 {
      var m := models[|models| - 1];
      assert OccursAt(Lower(m.nome), Lower(""), 0);
      EmptyQueryKeepsAll(t, b, models[..|models| - 1]);
    }
  }

  /** Every hit of the search carries a model name containing the query
      (ignoring case) and one of the three types. */
  lemma {:induction false} TypeHitsSound(types: seq<string>, brandsOf: string -> seq<Named>,
                                         modelsOf: (string, string) -> seq<Named>, name: string)
    ensures forall h :: h in TypeHits(types, brandsOf, modelsOf, name) ==>
              h.vehicleType in types && Includes(Lower(h.model), Lower(name))
  {
    if |types| > 0 {
      var t := types[|types| - 1];
      TypeHitsSound(types[..|types| - 1], brandsOf, modelsOf, name);
      BrandHitsSound(t, brandsOf(t), modelsOf, name);
    }
  }

  lemma {:induction false} BrandHitsSound(t: string, brands: seq<Named>,
                                          modelsOf: (string, string) -> seq<Named>, name: string)
    ensures forall h :: h in BrandHits(t, brands, modelsOf, name) ==>
              h.vehicleType == t && Includes(Lower(h.model), Lower(name))
  {
    if |brands| > 0 {
      var b := brands[|brands| - 1];
      BrandHitsSound(t, brands[..|brands| - 1], modelsOf, name);
      ModelHitsExact(t, b, modelsOf(t, b.codigo), name);
    }
  }
}

=== FILE: ttl_cache.dfy ===
/** The in-memory cache of src/services/carApiServiceBrazil.js: a map from
    keys to a value with an absolute expiry time. Entries are evicted lazily,
    only when a `get` finds them expired. The clock (`Date.now()`) is an
    explicit `now` parameter, in milliseconds. */
module TtlCache {
  import opened Wrappers

  /** One hour, the default time to live. */
  const DefaultTtl: int := 3600000

  datatype Entry<V> = Entry(value: V, expiry: int)

  datatype Cache<K, V> = Cache(data: map<K, Entry<V>>)

  function Empty<K, V>(): (c: Cache<K, V>)
    ensures |c.data| == 0
  {
    Cache(map[])
  }

  /** `cache.set(key, value, ttl)` at time `now`: the key is (re)written
      with expiry `now + ttl`; every other key is untouched. */
  function Set<K, V>(c: Cache<K, V>, key: K, value: V, ttl: int, now: int): (r: Cache<K, V>)
    ensures key in r.data && r.data[key].value == value && r.data[key].expiry == now + ttl
    ensures r.data.Keys == c.data.Keys + {key}
    ensures forall k :: k in c.data && k != key ==> r.data[k] == c.data[k]
  {
    Cache(c.data[key := Entry(value, now + ttl)])
  }

  /** `cache.get(key)` at time `now`: the value and the cache afterwards.
      An entry is live while `now` does not exceed its expiry; an expired
      entry is deleted and reads as null. */
  function Get<K, V>(c: Cache<K, V>, key: K, now: int): (r: (Option<V>, Cache<K, V>))
    ensures key !in c.data ==> r.0 == None && r.1 == c
    ensures key in c.data && now <= c.data[key].expiry ==> r.0 == Some(c.data[key].value) && r.1 == c
    ensures key in c.data && now > c.data[key].expiry ==>
              r.0 == None && r.1.data.Keys == c.data.Keys - {key}
    ensures forall k :: k in r.1.data ==> k in c.data && r.1.data[k] == c.data[k]
  {
    if key !in c.data then (None, c)
    else
      var item := c.data[key];
      if now > item.expiry then (None, Cache(c.data - {key}))
      else (Some(item.value), c)
  }

  /** `cache.clear()`. */
  function Clear<K, V>(c: Cache<K, V>): (r: Cache<K, V>)
    ensures forall k :: k !in r.data
  {
    Cache(map[])
  }

  /** The set/get round trip: a value set at `t` with time to live `ttl` is
      read back exactly while `now <= t + ttl`, and reads as null (and is
      gone) afterwards, whatever the cache held before. */
  lemma SetThenGet<K, V>(c: Cache<K, V>, key: K, value: V, ttl: int, t: int, now: int)
    ensures Get(Set(c, key, value, ttl, t), key, now).0 == Some(value) <==> now <= t + ttl
    ensures now > t + ttl ==>
              Get(Set(c, key, value, ttl, t), key, now).0 == None
              && key !in Get(Set(c, key, value, ttl, t), key, now).1.data
  {
  }

  /** With the default time to live a value lives exactly one hour. */
  lemma DefaultTtlHour<K, V>(c: Cache<K, V>, key: K, value: V, t: int)
    ensures Get(Set(c, key, value, DefaultTtl, t), key, t + 3600000).0 == Some(value)
    ensures Get(Set(c, key, value, DefaultTtl, t), key, t + 3600001).0 == None
  {
  }

  /** Setting one key does not change what another key reads. */
  lemma SetOtherKey<K, V>(c: Cache<K, V>, key: K, other: K, value: V, ttl: int, t: int, now: int)
    requires other != key
    ensures Get(Set(c, key, value, ttl, t), other, now).0 == Get(c, other, now).0
  {
  }

  /** After `clear` every key reads as null. */
  lemma ClearThenGet<K, V>(c: Cache<K, V>, key: K, now: int)
    ensures Get(Clear(c), key, now).0 == None
  {
  }

  /** A `get` that found the entry expired leaves a cache in which the key
      stays null at every later time. */
  lemma ExpiredStaysGone<K, V>(c: Cache<K, V>, key: K, now: int, later: int)
    requires key in c.data && now > c.data[key].expiry
    ensures Get(Get(c, key, now).1, key, later).0 == None
  {
  }
}

=== FILE: ui_utils.dfy ===
/** The helpers of frontend/src/utils/index.ts that the comparison view
    uses: the relative difference of two prices, and the label and icon of
    a vehicle type. The label and icon texts are kept exactly as the file
    holds them, which is UTF-8 read back as Mac Roman ("Caminh\U{221A}\U{B5}es"
    for "Caminhões"). */
module UiUtils {
  // ---------------------------------------------------------------------
  // calculatePercentageDifference
  // ---------------------------------------------------------------------

  /** `calculatePercentageDifference(value1, value2)`: how far `value2` is
      from `value1`, in percent of `value1`; 0 when `value1` is 0. */
  function PercentageDifference(value1: real, value2: real): (r: real)
    ensures value1 == 0.0 ==> r == 0.0
    ensures value1 != 0.0 ==> value2 == value1 + value1 * r / 100.0
    ensures value1 == value2 ==> r == 0.0
    ensures value1 > 0.0 ==> (r > 0.0 <==> value2 > value1) && (r < 0.0 <==> value2 < value1)
    ensures value1 < 0.0 ==> (r > 0.0 <==> value2 < value1) && (r < 0.0 <==> value2 > value1)
  {
    if value1 == 0.0 then 0.0 else (value2 - value1) / value1 * 100.0
  }

  /** Applying the difference to the first value gives back the second:
      the percentage is the inverse of a percent change. */
  function ApplyPercent(value1: real, percent: real): (r: real)
    ensures value1 > 0.0 && percent > 0.0 ==> r > value1
  {
    value1 + value1 * percent / 100.0
  }

  lemma PercentRoundTrip(value1: real, value2: real, percent: real)
    ensures value1 != 0.0 ==> ApplyPercent(value1, PercentageDifference(value1, value2)) == value2
    ensures value1 != 0.0 ==> PercentageDifference(value1, ApplyPercent(value1, percent)) == percent
  {
    if value1 != 0.0 {
      var p := ApplyPercent(value1, percent);
      assert p - value1 == value1 * percent / 100.0;
      assert (p - value1) / value1 == percent / 100.0;
    }
  }

  // ---------------------------------------------------------------------
  // getVehicleTypeLabel, getVehicleTypeIcon
  // ---------------------------------------------------------------------

  const TypeLabels: map<string, string> := map[
    "carros" := "Carros", "motos" := "Motos", "caminhoes" := "Caminh\U{221A}\U{B5}es"]

  const CarIcon := "\U{F8FF}\U{FC}\U{F6}\U{F3}"

  const TypeIcons: map<string, string> := map[
    "carros" := CarIcon, "motos" := "\U{F8FF}\U{FC}\U{E8}\U{E7}\U{D4}\U{220F}\U{E8}", "caminhoes" := "\U{F8FF}\U{FC}\U{F6}\U{F5}"]

  /** `getVehicleTypeLabel(type)`: the label of a known key (matched
      exactly, no case folding), else the input unchanged. */
  function VehicleTypeLabel(vehicleType: string): (r: string)
    ensures vehicleType in TypeLabels ==> r == TypeLabels[vehicleType]
    ensures vehicleType !in TypeLabels ==> r == vehicleType
    ensures r != ""  <==> vehicleType != ""
  {
    if vehicleType in TypeLabels && TypeLabels[vehicleType] != "" then TypeLabels[vehicleType] else vehicleType
  }

  /** `getVehicleTypeIcon(type)`: unknown types share the cars' icon. */
  function VehicleTypeIcon(vehicleType: string): (r: string)
    ensures vehicleType in TypeIcons ==> r == TypeIcons[vehicleType]
    ensures vehicleType !in TypeIcons ==> r == CarIcon
    ensures r in TypeIcons.Values
  {
    assert TypeIcons["carros"] == CarIcon;
    if vehicleType in TypeIcons && TypeIcons[vehicleType] != "" then TypeIcons[vehicleType] else CarIcon
  }

  /** The accented spelling, which other parts of the program use, is not
      a key: it gets the cars' icon and is labelled as written. */
  lemma AccentedTruckTypeUnknown()
    ensures VehicleTypeLabel("caminh\U{F5}es") == "caminh\U{F5}es"
    ensures VehicleTypeIcon("caminh\U{F5}es") == CarIcon
  {
  }
}

=== FILE: vehicle_card.dfy ===
/** The display helpers of frontend/src/components/VehicleCard.tsx: the
    Portuguese labels and icons of fuel and transmission kinds, the picture
    looked up by make and model, and the picture's alt text. Every table
    is read with the lower-cased input and `||` a fallback, so an unknown
    kind shows as written (labels) or with the default icon. */
module VehicleCard {
  import opened JsText

  // ---------------------------------------------------------------------
  // Table lookups
  // ---------------------------------------------------------------------

  /** `table[key] || fallback`: a listed, non-empty entry, else the fallback. */
  function LookupOr(table: map<string, string>, key: string, fallback: string): (r: string)
    ensures key in table && table[key] != "" ==> r == table[key]
    ensures key !in table ==> r == fallback
    ensures r == fallback || r in table.Values
  {
    if key in table && table[key] != "" then table[key] else fallback
  }

  // ---------------------------------------------------------------------
  // formatFuelType, formatTransmission
  // ---------------------------------------------------------------------

  const FuelLabels: map<string, string> := map[
    "gas" := "Gasolina", "gasoline" := "Gasolina", "diesel" := "Diesel", "electric" := "El\U{E9}trico",
    "hybrid" := "H\U{ED}brido", "flex" := "Flex", "ethanol" := "Etanol"]

  const TransmissionLabels: map<string, string> := map[
    "automatic" := "Autom\U{E1}tico", "manual" := "Manual", "cvt" := "CVT"]

  /** `formatFuelType(fuelType)`: the label of the lower-cased kind, or the
      input unchanged when the kind is not listed. */
  function FormatFuelType(fuelType: string): (r: string)
    ensures Lower(fuelType) in FuelLabels ==> r == FuelLabels[Lower(fuelType)]
    ensures Lower(fuelType) !in FuelLabels ==> r == fuelType
  {
    LookupOr(FuelLabels, Lower(fuelType), fuelType)
  }

  /** `formatTransmission(transmission)`, the same way. */
  function FormatTransmission(transmission: string): (r: string)
    ensures Lower(transmission) in TransmissionLabels ==> r == TransmissionLabels[Lower(transmission)]
    ensures Lower(transmission) !in TransmissionLabels ==> r == transmission
  {
    LookupOr(TransmissionLabels, Lower(transmission), transmission)
  }

  /** Both spellings of petrol read "Gasolina", in any case. */
  lemma GasAndGasolineAgree(s: string)
    requires Lower(s) == "gas" || Lower(s) == "gasoline"
    ensures FormatFuelType(s) == "Gasolina"
  {
  }

  /** Inputs differing only in case get the same label when the kind is
      known; otherwise each is shown as written. */
  lemma LabelsIgnoreCase(s: string)
    ensures Lower(s) in FuelLabels ==> FormatFuelType(s) == FormatFuelType(Lower(s))
    ensures Lower(s) in TransmissionLabels ==> FormatTransmission(s) == FormatTransmission(Lower(s))
  {
    LowerIdempotent(s);
  }

  // ---------------------------------------------------------------------
  // getFuelIcon, getTransmissionIcon
  // ---------------------------------------------------------------------

  const DefaultFuelIcon := "\U{26FD}"
  const DefaultTransmissionIcon := "\U{2699}\U{FE0F}"

  const FuelIcons: map<string, string> := map[
    "gas" := "\U{26FD}", "gasoline" := "\U{26FD}", "diesel" := "\U{1F6E2}\U{FE0F}", "electric" := "\U{1F50B}",
    "hybrid" := "\U{1F50B}\U{26FD}", "flex" := "\U{1F331}", "ethanol" := "\U{1F33D}"]

  const TransmissionIcons: map<string, string> := map[
    "automatic" := "\U{1F504}", "manual" := "\U{2699}\U{FE0F}", "cvt" := "\U{1F504}"]

  /** `getFuelIcon(fuelType)`: unknown kinds get the pump. */
  function FuelIcon(fuelType: string): (r: string)
    ensures Lower(fuelType) !in FuelIcons ==> r == DefaultFuelIcon
    ensures Lower(fuelType) in FuelIcons ==> r == FuelIcons[Lower(fuelType)]
    ensures r in FuelIcons.Values
  {
    assert FuelIcons["gas"] == DefaultFuelIcon;
    LookupOr(FuelIcons, Lower(fuelType), DefaultFuelIcon)
  }

  /** `getTransmissionIcon(transmission)`: unknown kinds get the gear. */
  function TransmissionIcon(transmission: string): (r: string)
    ensures Lower(transmission) !in TransmissionIcons ==> r == DefaultTransmissionIcon
    ensures Lower(transmission) in TransmissionIcons ==> r == TransmissionIcons[Lower(transmission)]
    ensures r in TransmissionIcons.Values
  {
    assert TransmissionIcons["manual"] == DefaultTransmissionIcon;
    LookupOr(TransmissionIcons, Lower(transmission), DefaultTransmissionIcon)
  }

  /** Automatic and CVT gearboxes share an icon, and an unknown gearbox
      looks like a manual one. */
  lemma TransmissionIconsShared(a: string, b: string)
    requires Lower(a) == "automatic" && Lower(b) == "cvt"
    ensures TransmissionIcon(a) == TransmissionIcon(b)
    ensures forall s :: Lower(s) !in TransmissionIcons ==> TransmissionIcon(s) == TransmissionIcon("manual")
  {
    assert Lower("manual") == "manual";
  }

  // ---------------------------------------------------------------------
  // getCarImageUrl
  // ---------------------------------------------------------------------

  /** An Unsplash picture at the card's size. */
  function Photo(id: string): string {
    "https://images.unsplash.com/photo-" + id + "?w=500&h=300&fit=crop&crop=center"
  }

  const DefaultCardImage := "https://images.unsplash.com/photo-1552519507-da3b142c6e3d?w=500&h=300&fit=crop&crop=center&q=80"

  const CardImages: map<string, string> := map[
      "toyota corolla" := Photo("1621007947382-bb3c3994e3fb"),
      "toyota hilux" := Photo("1544636331-e26879cd4d9b"),
      "toyota camry" := Photo("1605559424843-9e4c228bf1c2"),
      "toyota rav4" := Photo("1549317661-bd32c8ce0db2"),
      "toyota prius" := Photo("1571068316344-75bc76f77890"),
      "honda civic" := Photo("1606664515524-ed2f786a0bd6"),
      "honda accord" := Photo("1618843479313-40f8afb4b4d8"),
      "honda cr-v" := Photo("1544636331-e26879cd4d9b"),
      "honda fit" := Photo("1552519507-da3b142c6e3d"),
      "chevrolet onix" := Photo("1583121274602-3e2820c69888"),
      "chevrolet cruze" := Photo("1552519507-da3b142c6e3d"),
      "chevrolet spin" := Photo("1549317661-bd32c8ce0db2"),
      "chevrolet tracker" := Photo("1544636331-e26879cd4d9b"),
      "volkswagen gol" := Photo("1583121274602-3e2820c69888"),
      "volkswagen polo" := Photo("1552519507-da3b142c6e3d"),
      "volkswagen jetta" := Photo("1606664515524-ed2f786a0bd6"),
      "volkswagen tiguan" := Photo("1549317661-bd32c8ce0db2"),
      "ford ka" := Photo("1583121274602-3e2820c69888"),
      "ford focus" := Photo("1552519507-da3b142c6e3d"),
      "ford fusion" := Photo("1606664515524-ed2f786a0bd6"),
      "ford ecosport" := Photo("1549317661-bd32c8ce0db2"),
      "hyundai hb20" := Photo("1583121274602-3e2820c69888"),
      "hyundai elantra" := Photo("1606664515524-ed2f786a0bd6"),
      "hyundai tucson" := Photo("1549317661-bd32c8ce0db2"),
      "hyundai creta" := Photo("1544636331-e26879cd4d9b"),
      "nissan march" := Photo("1583121274602-3e2820c69888"),
      "nissan sentra" := Photo("1606664515524-ed2f786a0bd6"),
      "nissan kicks" := Photo("1549317661-bd32c8ce0db2"),
      "nissan frontier" := Photo("1544636331-e26879cd4d9b"),
      "fiat uno" := Photo("1583121274602-3e2820c69888"),
      "fiat argo" := Photo("1552519507-da3b142c6e3d"),
      "fiat cronos" := Photo("1606664515524-ed2f786a0bd6"),
      "fiat toro" := Photo("1544636331-e26879cd4d9b"),
      "renault kwid" := Photo("1583121274602-3e2820c69888"),
      "renault sandero" := Photo("1552519507-da3b142c6e3d"),
      "renault logan" := Photo("1606664515524-ed2f786a0bd6"),
      "renault duster" := Photo("1549317661-bd32c8ce0db2"),
      "jeep renegade" := Photo("1549317661-bd32c8ce0db2"),
      "jeep compass" := Photo("1544636331-e26879cd4d9b"),
      "jeep wrangler" := Photo("1506905925346-21bda4d32df4"),
      "jeep grand cherokee" := Photo("1549317661-bd32c8ce0db2")
  ]

  /** The table key: lower-cased make and model with one space between,
      nothing trimmed. */
  function CardImageKey(make: string, model: string): (r: string)
    ensures |r| == |make| + 1 + |model|
    ensures r[|make|] == ' '
  {
    Lower(make) + " " + Lower(model)
  }

  /** `getCarImageUrl()`: the listed picture, or the default one. */
  function CarImageUrl(make: string, model: string): (r: string)
    ensures CardImageKey(make, model) in CardImages ==> r == CardImages[CardImageKey(make, model)]
    ensures CardImageKey(make, model) !in CardImages ==> r == DefaultCardImage
  {
    LookupOr(CardImages, CardImageKey(make, model), DefaultCardImage)
  }

  /** The picture does not depend on the case of make or model. */
  lemma CarImageUrlIgnoresCase(make: string, model: string)
    ensures CarImageUrl(make, model) == CarImageUrl(Lower(make), Lower(model))
  {
    LowerIdempotent(make);
    LowerIdempotent(model);
  }

  // ---------------------------------------------------------------------
  // getImageAlt
  // ---------------------------------------------------------------------

  /** `${make} ${model} ${year}`. */
  function ImageAlt(make: string, model: string, year: int): (r: string)
    ensures |r| == |make| + |model| + |IntToString(year)| + 2
  {
    make + " " + model + " " + IntToString(year)
  }

  predicate NoSpace(s: string) {
    forall i :: 0 <= i < |s| ==> s[i] != ' '
  }

  /** The position of the first space, or the length when there is none. */
  function FirstSpace(s: string): (r: nat)
    ensures r <= |s|
    ensures r < |s| ==> s[r] == ' '
    ensures forall i :: 0 <= i < r ==> s[i] != ' '
  {
    if |s| == 0 || s[0] == ' ' then 0 else 1 + FirstSpace(s[1..])
  }

  /** Text joined after a space-free word: the first space is the joint. */
  lemma {:induction false} FirstSpaceAfter(a: string, x: string)
    requires NoSpace(a)
    ensures FirstSpace(a + " " + x) == |a|
  {
    if |a| > 0 {
      assert (a + " " + x)[1..] == a[1..] + " " + x;
      FirstSpaceAfter(a[1..], x);
    }
  }

  /** A space-free word is recovered from the text it starts before the
      first space, and so is the rest. */
  lemma SplitAtSpace(a: string, x: string, b: string, y: string)
    requires NoSpace(a) && NoSpace(b)
    requires a + " " + x == b + " " + y
    ensures a == b && x == y
  {
    var s := a + " " + x;
    FirstSpaceAfter(a, x);
    FirstSpaceAfter(b, y);
    assert a == s[..|a|] == b;
    assert x == s[|a| + 1..] == y;
  }

  /** Cars whose make and model contain no space have distinct alt texts:
      the text determines make, model and year. */
  lemma ImageAltInjective(make1: string, model1: string, year1: int, make2: string, model2: string, year2: int)
    requires NoSpace(make1) && NoSpace(model1) && NoSpace(make2) && NoSpace(model2)
    requires ImageAlt(make1, model1, year1) == ImageAlt(make2, model2, year2)
    ensures make1 == make2 && model1 == model2 && year1 == year2
  {
    ImageAltMake(make1, model1, year1, make2, model2, year2);
    SplitAtSpace(model1, IntToString(year1), model2, IntToString(year2));
    IntToStringInjective(year1, year2);
  }

  /** The make is the text before the first space; what follows it is the
      rest of the alt text. */
  lemma ImageAltMake(make1: string, model1: string, year1: int, make2: string, model2: string, year2: int)
    requires NoSpace(make1) && NoSpace(make2)
    requires ImageAlt(make1, model1, year1) == ImageAlt(make2, model2, year2)
    ensures make1 == make2 && model1 + " " + IntToString(year1) == model2 + " " + IntToString(year2)
  {
    ImageAltGrouped(make1, model1, year1);
    ImageAltGrouped(make2, model2, year2);
    SplitAtSpace(make1, model1 + " " + IntToString(year1), make2, model2 + " " + IntToString(year2));
  }

  lemma ImageAltGrouped(make: string, model: string, year: int)
    ensures ImageAlt(make, model, year) == make + " " + (model + " " + IntToString(year))
  {
  }
}

=== FILE: vehicle_comparison.dfy ===
/** `compareVehicles` and `compareMultipleVehicles` of
    src/services/vehicleService.js. The FIPE fetch is a parameter (`fetch`:
    an error when the HTTP call rejects, None when it resolves to nothing),
    the clock is `now`, and the comparison log is threaded through
    explicitly. */
module VehicleComparison {
  import opened Wrappers
  import opened JsText
  import opened JsValue
  import opened Arrays
  import opened FipeData
  import opened BrlPrice
  import opened ComparisonRepository
  import VehicleValidation

  // ---------------------------------------------------------------------
  // compareVehicles
  // ---------------------------------------------------------------------

  const BothRequired := "Ambos os veículos são obrigatórios para comparação"
  const NotFound := "Um ou ambos os veículos não foram encontrados"

  /** What a `NaN` amount renders as. */
  const NotANumber := "R$ NaN"

  datatype PairOutcome = PairOutcome(vehicle1: FipeVehicle, vehicle2: FipeVehicle,
                                     diferencaValor: string, diferencaAno: nat)

  function AbsInt(x: int): nat { if x < 0 then -x else x }

  /** `formatValor(Math.abs(parseValor(a) - parseValor(b)))`; a price that
      does not parse is NaN, and so is the difference. */
  function PriceDifference(a: string, b: string): (r: string)
    ensures r == NotANumber <==> ParseValor(a).None? || ParseValor(b).None?
    ensures ParseValor(a).Some? && ParseValor(b).Some? ==>
              r == FormatValor(RoundCents(Abs(ParseValor(a).value - ParseValor(b).value)))
  {
    var x := ParseValor(a);
    var y := ParseValor(b);
    if x.Some? && y.Some? then
      var d := Abs(x.value - y.value);
      assert |FormatValor(RoundCents(d))| >= 7 > |NotANumber|;
      FormatAmount(d)
    else NotANumber
  }

  /** The rendered absolute difference of two parsed amounts, NaN when
      either is NaN: what `PriceDifference` renders, stated on the parsed
      amounts so that its symmetry is proved apart from the parser. */
  function AmountDifference(x: Option<real>, y: Option<real>): (r: string)
    ensures r == NotANumber <==> x.None? || y.None?
    ensures x.Some? && y.Some? ==> r == FormatValor(RoundCents(Abs(x.value - y.value)))
  {
    if x.Some? && y.Some? then
      var d := Abs(x.value - y.value);
      assert |FormatValor(RoundCents(d))| >= 7 > |NotANumber|;
      FormatAmount(d)
    else NotANumber
  }

  /** The difference does not depend on the order of the two prices. */
  lemma DifferenceSymmetric(a: string, b: string)
    ensures PriceDifference(a, b) == PriceDifference(b, a)
  {
    var x := ParseValor(a);
    var y := ParseValor(b);
    AmountSymmetric(x, y);
    assert PriceDifference(a, b) == AmountDifference(x, y) by {
      if x.Some? && y.Some? { assert AmountDifference(x, y) != NotANumber; }
    }
    assert PriceDifference(b, a) == AmountDifference(y, x) by {
      if x.Some? && y.Some? { assert AmountDifference(y, x) != NotANumber; }
    }
  }

  lemma AmountSymmetric(x: Option<real>, y: Option<real>)
    ensures AmountDifference(x, y) == AmountDifference(y, x)
  {
    if x.Some? && y.Some? {
      assert Abs(x.value - y.value) == Abs(y.value - x.value);
    }
  }

  /** The TypeError V8 throws when `dto.vehicle1` is read on a null or
      undefined `dto`. */
  function ReadVehicle1Error(dto: Value): string {
    "Cannot read properties of " + (if dto.Null? then "null" else "undefined") + " (reading 'vehicle1')"
  }

  /** `compareVehicles(dto)`: the result, or the message it throws, and the
      comparison log afterwards. `fetch` is `fipeRepository.fetchVehicle`
      applied to a vehicle of the request: `Err` is the rejection of its
      HTTP call, `Ok(None)` a falsy body. When both calls reject, the model
      reports vehicle 1's rejection. */
  function CompareVehicles(dto: Value, fetch: Value -> Result<Option<FipeVehicle>>, log: Log, now: int)
    : (r: (Result<PairOutcome>, Log))
    ensures r.0.Err? ==> r.1 == log
    ensures dto.Undefined? || dto.Null? ==> r.0 == Err(ReadVehicle1Error(dto))
    ensures (!dto.Undefined? && !dto.Null? &&
             (!Truthy(Get(dto, "vehicle1")) || !Truthy(Get(dto, "vehicle2")))) ==> r.0 == Err(BothRequired)
    ensures r.0.Ok? ==> VehicleValidation.ValidateCompareDto(dto).Ok?
    ensures (VehicleValidation.ValidateCompareDto(dto).Ok?
             && (fetch(Get(dto, "vehicle1")).Err? || fetch(Get(dto, "vehicle2")).Err?)) ==>
              (fetch(Get(dto, "vehicle1")).Err? && r.0 == Err(fetch(Get(dto, "vehicle1")).error))
              || (fetch(Get(dto, "vehicle2")).Err? && r.0 == Err(fetch(Get(dto, "vehicle2")).error))
    ensures (VehicleValidation.ValidateCompareDto(dto).Ok?
             && fetch(Get(dto, "vehicle1")).Ok? && fetch(Get(dto, "vehicle2")).Ok?
             && (fetch(Get(dto, "vehicle1")).value.None? || fetch(Get(dto, "vehicle2")).value.None?)) ==>
              r.0 == Err(NotFound)
    ensures r.0.Ok? <==>
              VehicleValidation.ValidateCompareDto(dto).Ok?
              && fetch(Get(dto, "vehicle1")).Ok? && fetch(Get(dto, "vehicle1")).value.Some?
              && fetch(Get(dto, "vehicle2")).Ok? && fetch(Get(dto, "vehicle2")).value.Some?
    ensures r.0.Ok? ==>
              var v1 := fetch(Get(dto, "vehicle1")).value.value;
              var v2 := fetch(Get(dto, "vehicle2")).value.value;
              && r.0.value.vehicle1 == v1 && r.0.value.vehicle2 == v2
              && r.0.value.diferencaAno == AbsInt(v1.anoModelo - v2.anoModelo)
              && r.0.value.diferencaValor == PriceDifference(v1.valor, v2.valor)
              && r.1 == log + [Comparison(Some(v1), Some(v2), None, now)]
  {
    if dto.Undefined? || dto.Null? then (Err(ReadVehicle1Error(dto)), log)
    else
      var d1 := Get(dto, "vehicle1");
      var d2 := Get(dto, "vehicle2");
      if !Truthy(d1) || !Truthy(d2) then (Err(BothRequired), log)
      else
        match VehicleValidation.ValidateCompareDto(dto)
        case Err(e) => (Err(e), log)
        case Ok(_) =>
          match (fetch(d1), fetch(d2))
          case (Err(e), _) => (Err(e), log)
          case (_, Err(e)) => (Err(e), log)
          case (Ok(Some(v1)), Ok(Some(v2))) =>
            var outcome := PairOutcome(v1, v2, PriceDifference(v1.valor, v2.valor),
                                       AbsInt(v1.anoModelo - v2.anoModelo));
            var (_, log') := SaveComparison(log, Comparison(Some(v1), Some(v2), None, now));
            (Ok(outcome), log')
          case _ => (Err(NotFound), log)
  }

  /** The request with its two vehicles exchanged. */
  function Swap(dto: Value): Value {
    if dto.Obj? then
      Obj(dto.fields["vehicle1" := Get(dto, "vehicle2")]["vehicle2" := Get(dto, "vehicle1")])
    else dto
  }

  /** Both differences are absolute: exchanging the two vehicles gives the
      same year and value differences (and the vehicles exchanged). */
  lemma CompareSymmetric(dto: Value, fetch: Value -> Result<Option<FipeVehicle>>, log: Log, now: int)
    requires CompareVehicles(dto, fetch, log, now).0.Ok?
    ensures var a := CompareVehicles(dto, fetch, log, now).0.value;
            var b := CompareVehicles(Swap(dto), fetch, log, now).0;
            && b.Ok?
            && b.value.diferencaAno == a.diferencaAno
            && b.value.diferencaValor == a.diferencaValor
            && b.value.vehicle1 == a.vehicle2 && b.value.vehicle2 == a.vehicle1
  {
    SwapValid(dto);
    var v1 := fetch(Get(dto, "vehicle1")).value.value;
    var v2 := fetch(Get(dto, "vehicle2")).value.value;
    DifferenceSymmetric(v1.valor, v2.valor);
  }

  /** A valid request stays valid with its vehicles exchanged. */
  lemma SwapValid(dto: Value)
    requires VehicleValidation.ValidateCompareDto(dto).Ok?
    ensures VehicleValidation.ValidateCompareDto(Swap(dto)).Ok?
    ensures Get(Swap(dto), "vehicle1") == Get(dto, "vehicle2")
    ensures Get(Swap(dto), "vehicle2") == Get(dto, "vehicle1")
  {
    var s := Swap(dto);
    VehicleValidation.ValidateIff(dto);
    assert Get(s, "vehicle1") == Get(dto, "vehicle2");
    assert Get(s, "vehicle2") == Get(dto, "vehicle1");
    VehicleValidation.ValidateIff(s);
  }

  // ---------------------------------------------------------------------
  // compareMultipleVehicles
  // ---------------------------------------------------------------------

  const ErrorPrefix := "Erro ao comparar múltiplos veículos: "
  const TooFew := "É necessário pelo menos 2 veículos para comparação"
  const NotEnoughData := "Não foi possível encontrar dados suficientes para comparação"

  /** `cache.vehicles.find(v => v.CodigoFipe === code)`. */
  function FindByCode(cat: seq<FipeVehicle>, code: string): (r: Option<FipeVehicle>)
    ensures r.None? <==> forall v :: v in cat ==> v.codigoFipe != code
    ensures r.Some? ==> exists i :: 0 <= i < |cat| && cat[i] == r.value && r.value.codigoFipe == code
                          && forall j :: 0 <= j < i ==> cat[j].codigoFipe != code
  {
    if |cat| == 0 then None
    else if cat[0].codigoFipe == code then Some(cat[0])
    else
      var r := FindByCode(cat[1..], code);
      assert cat == [cat[0]] + cat[1..];
      if r.Some? then
        var i :| 0 <= i < |cat[1..]| && cat[1..][i] == r.value && r.value.codigoFipe == code
                 && forall j :: 0 <= j < i ==> cat[1..][j].codigoFipe != code;
        assert cat[i + 1] == r.value;
        r
      else r
  }

  /** The brand/model lookup: same normalised brand and model, and the same
      model year when the input gives one. */
  predicate SameModel(v: FipeVehicle, want: FipeVehicle) {
    Normalize(v.marca) == Normalize(want.marca)
    && Normalize(v.modelo) == Normalize(want.modelo)
    && (want.anoModelo == 0 || v.anoModelo == want.anoModelo)
  }

  function FindByModel(cat: seq<FipeVehicle>, want: FipeVehicle): (r: Option<FipeVehicle>)
    ensures r.None? <==> forall v :: v in cat ==> !SameModel(v, want)
    ensures r.Some? ==> exists i :: 0 <= i < |cat| && cat[i] == r.value && SameModel(r.value, want)
                          && forall j :: 0 <= j < i ==> !SameModel(cat[j], want)
  {
    if |cat| == 0 then None
    else if SameModel(cat[0], want) then Some(cat[0])
    else
      var r := FindByModel(cat[1..], want);
      if r.Some? then
        var i :| 0 <= i < |cat[1..]| && cat[1..][i] == r.value && SameModel(r.value, want)
                 && forall j :: 0 <= j < i ==> !SameModel(cat[1..][j], want);
        assert cat[i + 1] == r.value;
        assert forall j :: 0 <= j < i + 1 ==> !SameModel(cat[j], want) by {
          forall j | 0 <= j < i + 1 ensures !SameModel(cat[j], want) {
            if j > 0 { assert cat[j] == cat[1..][j - 1]; }
          }
        }
        r
      else
        assert cat == [cat[0]] + cat[1..];
        r
  }

  /** How one input is resolved: by FIPE code, then by brand and model,
      else the input itself. */
  function Resolve(cat: seq<FipeVehicle>, vd: FipeVehicle): (r: FipeVehicle)
    ensures r == vd || r in cat
    ensures vd.codigoFipe != "" && FindByCode(cat, vd.codigoFipe).Some? ==> r.codigoFipe == vd.codigoFipe
    ensures r != vd ==> r.codigoFipe == vd.codigoFipe || SameModel(r, vd)
    ensures vd.codigoFipe != "" && FindByCode(cat, vd.codigoFipe).Some? ==> r == FindByCode(cat, vd.codigoFipe).value
    ensures ((vd.codigoFipe == "" || FindByCode(cat, vd.codigoFipe).None?)
             && vd.marca != "" && vd.modelo != "" && FindByModel(cat, vd).Some?) ==> r == FindByModel(cat, vd).value
    ensures ((vd.codigoFipe == "" || FindByCode(cat, vd.codigoFipe).None?)
             && (vd.marca == "" || vd.modelo == "" || FindByModel(cat, vd).None?)) ==> r == vd
  {
    var byCode := if vd.codigoFipe != "" then FindByCode(cat, vd.codigoFipe) else None;
    if byCode.Some? then byCode.value
    else
      var byModel := if vd.marca != "" && vd.modelo != "" then FindByModel(cat, vd) else None;
      if byModel.Some? then byModel.value else vd
  }

  function ResolveAll(cat: seq<FipeVehicle>, vs: seq<FipeVehicle>): (r: seq<FipeVehicle>)
    ensures |r| == |vs| && forall i :: 0 <= i < |vs| ==> r[i] == Resolve(cat, vs[i])
  {
    if |vs| == 0 then [] else [Resolve(cat, vs[0])] + ResolveAll(cat, vs[1..])
  }

  /** The callback of `results.filter(v => v && v.Valor)`. */
  predicate HasValor(v: FipeVehicle) {
    v.valor != ""
  }

  /** `results.filter(v => v && v.Valor)`: the vehicles with a price, in
      order and with every copy. */
  function WithValor(vs: seq<FipeVehicle>): (r: seq<FipeVehicle>)
    ensures forall v :: v in r <==> v in vs && v.valor != ""
    ensures |r| <= |vs|
    ensures r == Filter(vs, HasValor)
  {
    if |vs| == 0 then []
    else
      assert vs == [vs[0]] + vs[1..];
      if vs[0].valor != "" then [vs[0]] + WithValor(vs[1..]) else WithValor(vs[1..])
  }

  /** `validResults.map(v => parseValor(v.Valor))` when every price parses;
      None when one is NaN (and then so are the minimum and maximum). */
  function AllPrices(vs: seq<FipeVehicle>): (r: Option<seq<real>>)
    ensures r.Some? <==> forall v :: v in vs ==> ParseValor(v.valor).Some?
    ensures r.Some? ==> |r.value| == |vs| && forall i :: 0 <= i < |vs| ==> Some(r.value[i]) == ParseValor(vs[i].valor)
  {
    if |vs| == 0 then Some([])
    else
      assert vs == [vs[0]] + vs[1..];
      match (ParseValor(vs[0].valor), AllPrices(vs[1..]))
      case (Some(x), Some(rest)) => Some([x] + rest)
      case _ => None
  }

  /** The lowest and highest price and their difference. */
  datatype Spread = Spread(lowest: real, highest: real, difference: real)

  function SpreadOf(prices: seq<real>): (r: Spread)
    requires |prices| > 0
    ensures r.lowest in prices && r.highest in prices
    ensures forall i :: 0 <= i < |prices| ==> r.lowest <= prices[i] <= r.highest
    ensures r.difference == r.highest - r.lowest && r.difference >= 0.0
  {
    MinLeMax(prices);
    Spread(MinOf(prices), MaxOf(prices), MaxOf(prices) - MinOf(prices))
  }

  datatype MultiOutcome = MultiOutcome(vehicles: seq<FipeVehicle>, valorMaisBaixo: string,
                                       valorMaisAlto: string, diferenca: string)

  /** `compareMultipleVehicles({vehicles})`. `vehicles` None is a value that
      is not an array. */
  function CompareMultipleVehicles(vehicles: Option<seq<FipeVehicle>>, cat: seq<FipeVehicle>, log: Log, now: int)
    : (r: (Result<MultiOutcome>, Log))
    ensures r.0.Err? ==> |r.0.error| >= |ErrorPrefix| && r.0.error[..|ErrorPrefix|] == ErrorPrefix && r.1 == log
    ensures vehicles.None? || |vehicles.value| < 2 ==> r.0 == Err(ErrorPrefix + TooFew)
    ensures vehicles.Some? && |vehicles.value| >= 2 && |WithValor(ResolveAll(cat, vehicles.value))| < 2 ==>
              r.0 == Err(ErrorPrefix + NotEnoughData) && r.1 == log
    ensures r.0.Ok? <==> vehicles.Some? && |vehicles.value| >= 2
                         && |WithValor(ResolveAll(cat, vehicles.value))| >= 2
    ensures r.0.Ok? ==>
              var valid := WithValor(ResolveAll(cat, vehicles.value));
              && r.0.value.vehicles == valid
              && (forall v :: v in valid ==> v.valor != "" && (v in cat || v in vehicles.value))
              && r.1 == log + [Comparison(None, None, Some(valid), now)]
              && (AllPrices(valid).Some? ==>
                    var s := SpreadOf(AllPrices(valid).value);
                    && r.0.value.valorMaisBaixo == FixedComma(s.lowest)
                    && r.0.value.valorMaisAlto == FixedComma(s.highest)
                    && r.0.value.diferenca == FixedComma(s.difference))
              && (AllPrices(valid).None? ==>
                    r.0.value.valorMaisBaixo == r.0.value.valorMaisAlto == r.0.value.diferenca == NotANumber)
  {
    if vehicles.None? || |vehicles.value| < 2 then (Err(ErrorPrefix + TooFew), log)
    else
      var results := ResolveAll(cat, vehicles.value);
      var valid := WithValor(results);
      if |valid| < 2 then (Err(ErrorPrefix + NotEnoughData), log)
      else
        assert forall v :: v in valid ==> v in results;
        assert forall v :: v in results ==> v in cat || v in vehicles.value by {
          forall v | v in results ensures v in cat || v in vehicles.value {
            var i :| 0 <= i < |results| && results[i] == v;
            assert vehicles.value[i] in vehicles.value;
          }
        }
        var outcome := match AllPrices(valid)
          case Some(prices) =>
            var s := SpreadOf(prices);
            MultiOutcome(valid, FixedComma(s.lowest), FixedComma(s.highest), FixedComma(s.difference))
          case None => MultiOutcome(valid, NotANumber, NotANumber, NotANumber);
        (Ok(outcome), SaveComparison(log, Comparison(None, None, Some(valid), now)).1)
  }

  /** Inputs found in the catalogue by FIPE code are replaced by the
      catalogue's record, whatever else they carry. */
  lemma ResolveByCode(cat: seq<FipeVehicle>, vd: FipeVehicle, v: FipeVehicle)
    requires vd.codigoFipe != "" && v in cat && v.codigoFipe == vd.codigoFipe
    ensures Resolve(cat, vd) in cat && Resolve(cat, vd).codigoFipe == vd.codigoFipe
  {
  }
}

=== FILE: vehicle_validation.dfy ===
/** `validateCompareDTO` of src/validations/vehicleValidation.js: the shape
    check of a two-vehicle comparison request. The function either returns
    normally (`Ok`) or throws the first failure it meets (`Err`). */
module VehicleValidation {
  import opened Wrappers
  import opened JsText
  import opened JsValue

  const RequiredFields: seq<string> := ["type", "brandCode", "modelCode", "yearCode"]

  /** Note the accented 'caminhões': the unaccented spelling the services
      use elsewhere is not accepted here. */
  const ValidTypes: seq<string> := ["carros", "motos", "caminhões"]

  const MissingDto := "Objeto de comparação é obrigatório"
  const MissingVehicle := "Dois veículos são necessários para comparação"

  function NotAnObject(index: nat): string {
    "Veículo " + NatToString(index) + " deve ser um objeto válido"
  }

  function MissingField(index: nat, field: string): string {
    "Veículo " + NatToString(index) + " está faltando o campo: " + field
  }

  function BadType(index: nat): string {
    "Tipo inválido para veículo " + NatToString(index) + ". Deve ser um dos: " + Join(ValidTypes, ", ")
  }

  /** `validTypes.includes(vehicle.type)`. */
  predicate HasValidType(v: Value) {
    Get(v, "type") in [Str("carros"), Str("motos"), Str("caminhões")]
  }

  /** The first required field (in listed order) that is falsy, from `k` on. */
  function FirstMissing(v: Value, k: nat): (r: Option<string>)
    requires k <= |RequiredFields|
    ensures r.None? <==> forall j :: k <= j < |RequiredFields| ==> Truthy(Get(v, RequiredFields[j]))
    ensures r.Some? ==> exists j :: k <= j < |RequiredFields| && r.value == RequiredFields[j]
                          && !Truthy(Get(v, RequiredFields[j]))
                          && forall i :: k <= i < j ==> Truthy(Get(v, RequiredFields[i]))
    decreases |RequiredFields| - k
  {
    if k == |RequiredFields| then None
    else if !Truthy(Get(v, RequiredFields[k])) then Some(RequiredFields[k])
    else FirstMissing(v, k + 1)
  }

  /** The checks of one vehicle (number `index`), in the source's order:
      object-ness, then the fields in listed order, then the type. */
  function CheckVehicle(v: Value, index: nat): (r: Option<string>)
    ensures !Truthy(v) || !IsObjectType(v) ==> r == Some(NotAnObject(index))
    ensures forall k :: 0 <= k < |RequiredFields| && Truthy(v) && IsObjectType(v)
                        && !Truthy(Get(v, RequiredFields[k]))
                        && (forall i :: 0 <= i < k ==> Truthy(Get(v, RequiredFields[i])))
                        ==> r == Some(MissingField(index, RequiredFields[k]))
    ensures r.None? <==> Truthy(v) && IsObjectType(v) && HasValidType(v)
                         && forall j :: 0 <= j < |RequiredFields| ==> Truthy(Get(v, RequiredFields[j]))
    ensures Truthy(v) && IsObjectType(v) && !HasValidType(v)
            && (forall j :: 0 <= j < |RequiredFields| ==> Truthy(Get(v, RequiredFields[j])))
            ==> r == Some(BadType(index))
  {
    if !Truthy(v) || !IsObjectType(v) then Some(NotAnObject(index))
    else
      match FirstMissing(v, 0)
      case Some(field) => Some(MissingField(index, field))
      case None => if HasValidType(v) then None else Some(BadType(index))
  }

  /** A vehicle description the comparison accepts. */
  predicate WellFormed(v: Value) {
    Truthy(v) && Get(v, "type").Str? && Get(v, "type").s in ValidTypes
    && Truthy(Get(v, "brandCode")) && Truthy(Get(v, "modelCode")) && Truthy(Get(v, "yearCode"))
    && v.Obj?
  }

  /** `validateCompareDTO(dto)`. */
  function ValidateCompareDto(dto: Value): (r: Result<()>)
    ensures !Truthy(dto) ==> r == Err(MissingDto)
    ensures Truthy(dto) && (!Truthy(Get(dto, "vehicle1")) || !Truthy(Get(dto, "vehicle2"))) ==>
              r == Err(MissingVehicle)
    ensures Truthy(dto) && Truthy(Get(dto, "vehicle1")) && Truthy(Get(dto, "vehicle2")) ==>
              (CheckVehicle(Get(dto, "vehicle1"), 1).Some? ==> r == Err(CheckVehicle(Get(dto, "vehicle1"), 1).value))
    ensures Truthy(dto) && Truthy(Get(dto, "vehicle1")) && Truthy(Get(dto, "vehicle2"))
            && CheckVehicle(Get(dto, "vehicle1"), 1).None? && CheckVehicle(Get(dto, "vehicle2"), 2).Some? ==>
              r == Err(CheckVehicle(Get(dto, "vehicle2"), 2).value)
    ensures r.Ok? <==> Truthy(dto) && CheckVehicle(Get(dto, "vehicle1"), 1).None?
                       && CheckVehicle(Get(dto, "vehicle2"), 2).None?
  {
    if !Truthy(dto) then Err(MissingDto)
    else
      var v1 := Get(dto, "vehicle1");
      var v2 := Get(dto, "vehicle2");
      if !Truthy(v1) || !Truthy(v2) then Err(MissingVehicle)
      else if CheckVehicle(v1, 1).Some? then Err(CheckVehicle(v1, 1).value)
      else if CheckVehicle(v2, 2).Some? then Err(CheckVehicle(v2, 2).value)
      else Ok(())
  }

  /** The validator accepts exactly the requests whose two vehicles are
      well formed: objects carrying every required field with one of the
      three accepted types. */
  lemma ValidateIff(dto: Value)
    ensures ValidateCompareDto(dto).Ok? <==>
              Truthy(dto) && WellFormed(Get(dto, "vehicle1")) && WellFormed(Get(dto, "vehicle2"))
  {
    var v1 := Get(dto, "vehicle1");
    var v2 := Get(dto, "vehicle2");
    CheckWellFormed(v1, 1);
    CheckWellFormed(v2, 2);
  }

  lemma CheckWellFormed(v: Value, index: nat)
    ensures CheckVehicle(v, index).None? <==> WellFormed(v)
  {
    if CheckVehicle(v, index).None? {
      assert Truthy(Get(v, RequiredFields[0]));
      assert Truthy(Get(v, RequiredFields[1]));
      assert Truthy(Get(v, RequiredFields[2]));
      assert Truthy(Get(v, RequiredFields[3]));
    }
    if WellFormed(v) {
      assert Get(v, "type").s in ValidTypes;
      assert forall j :: 0 <= j < |RequiredFields| ==> Truthy(Get(v, RequiredFields[j]));
    }
  }

  /** The type message of the first vehicle, written out. */
  lemma BadTypeMessage()
    ensures BadType(1) == "Tipo inválido para veículo 1. Deve ser um dos: carros, motos, caminhões"
  {
    TypeListText();
    assert NatToString(1) == "1";
    BadTypeHead();
  }

  lemma BadTypeHead()
    ensures "Tipo inválido para veículo " + "1" + ". Deve ser um dos: "
         == "Tipo inválido para veículo 1. Deve ser um dos: "
  {
    assert "Tipo inválido para veículo " + "1" == "Tipo inválido para veículo 1";
  }

  lemma TypeListText()
    ensures Join(ValidTypes, ", ") == "carros, motos, caminhões"
  {
    assert ValidTypes[1..][1..] == ["caminhões"];
    assert Join(ValidTypes[1..], ", ") == "motos" + ", " + "caminhões";
  }

  /** The unaccented 'caminhoes' is refused as a type. */
  lemma UnaccentedTruckRefused(v: Value)
    requires Get(v, "type") == Str("caminhoes")
    ensures !WellFormed(v)
  {
    assert "caminhoes" != "caminhões" by { assert "caminhoes"[6] != "caminhões"[6]; }
    assert "caminhoes" !in ValidTypes;
  }
}

=== FILE: wrappers.dfy ===
/** Failure-compatible result types shared by every module of the model.
    `Result` stands for a JavaScript function that either returns a value or
    throws an `Error` whose message is the `error` string. */
module Wrappers {

  datatype Option<+T> = None | Some(value: T) {
    function GetOr(default: T): T {
      match this
      case Some(v) => v
      case None => default
    }
  }

  datatype Result<+R> = Ok(value: R) | Err(error: string) {
    predicate IsFailure() {
      Err?
    }

    function PropagateFailure<U>(): Result<U>
      requires Err?
    {
      Err(error)
    }

    function Extract(): R
      requires Ok?
    {
      value
    }
  }
}
